=== FILE: README.md ===
# A verified model of the trading bot's core

This project models the decision and bookkeeping core of a single-position
USDT-M futures bot. It covers:

- the day guard: daily profit target, loss cap and halt latch;
- position sizing and the stop-loss / take-profit bracket;
- the stop-limit entry prices;
- the simulated and the live exchange adapters: placing a bracket, polling it
  and closing it;
- the signed query-string signing of the live adapter;
- conforming price and quantity to the exchange's tick, step, minimum and
  notional filters, and decimal counting of tick strings;
- the gainers / losers ranking;
- the three entry signals: the arm / retest / expire breakdown machine, the
  one-minute scalp breakout with its VWAP overextension gate, and the
  large-trades aggregator with its percentile history;
- one iteration of the main loop: poll, scan, enter, cooldowns and locks,
  plus the three hotkeys.

Python floats are Dafny `real`s. Every network answer, clock reading, exchange
status, kline fetch and HMAC digest is an input to the function that uses it.
Exceptions that the source catches become `Result` / `Option` values.

One module per source concern:

| module | covers |
|---|---|
| `Base` | option and result types, floor, ceiling, Python's `round` |
| `Text` | string helpers: `endswith`, `in`, `split(..)[-1]`, `rstrip`, `int()`, ordering of `str` |
| `Decimals` | decimal counting of tick strings |
| `StopLimit` | stop-limit entry prices |
| `RiskFrame` | the day guard, sizing and the bracket |
| `Positions` | the open position and the close bookkeeping shared by both adapters |
| `SimAdapter` | the simulated adapter |
| `LiveAdapter` | the live adapter |
| `Signing` | request signing |
| `Filters` | conforming price and quantity to the exchange filters |
| `Ranking` | the gainers / losers ranking |
| `Series` | kline series helpers |
| `VolumeBreakdown` | the arm / retest / expire breakdown machine |
| `ScalpBreakout` | the one-minute scalp breakout |
| `LargeTrades` | the large-trades aggregator and history |
| `MainLoop` | one main-loop iteration and the hotkeys |

Configuration values are the ones config.py finally assigns:

- daily target +5% and loss cap -5% (the later assignments at config.py:63-64
  override lines 9-10);
- per-trade risk 3%;
- SL 0.40% and TP 0.55%;
- stop buffer 0.1% and limit buffer 0.07%;
- retest buffer 0.1% with a 6-evaluation expiry;
- VWAP distance cap 1%.

Most operations also take these values as parameters.

## Model

| member | source | states |
|---|---|---|
| Base.Floor | utils.py:249 | `math.floor`: the greatest integer not above x |
| Base.Ceil | utils.py:263 | `math.ceil`: the least integer not below x |
| Base.RoundHalfEven | signal_large_trades_ws.py:21 | Python's `round`: the nearest integer, within one half of its argument, and on an exact tie the even one |
| Base.RoundHalfEvenMonotone | signal_large_trades_ws.py:21 | rounding never reverses the order of two values |
| Base.RoundOfInt | signal_large_trades_ws.py:21 | rounding an integral value returns it |
| Text.LastOccurrence | utils.py:173 | finds the last place a separator occurs, or reports that it never does |
| Text.FirstOccurrence | utils.py:173 | finds the first place a separator occurs, with no occurrence before it, or reports that it never does |
| Text.AfterLast | utils.py:173 | `split(sep)[-1]`: a suffix of the string that holds no separator; the whole string exactly when the separator never occurs, and otherwise preceded by an occurrence of it |
| Text.AfterLastIsSplitLast | utils.py:173 | the last piece equals the piece left after cutting the string at its first separator again and again until none remains, which is how `split` produces its pieces |
| Text.LastPiecePastFirst | utils.py:173 | cutting at any occurrence of the separator keeps the last piece |
| Text.RStrip | utils.py:177 | `rstrip('0')` removes exactly the trailing run of zeros and keeps the rest as a prefix |
| Text.RStripRun | utils.py:177 | stripping trailing zeros appended to a zero-free end restores the original string |
| Text.ParseInt | utils.py:173 | `int()` accepts exactly an optional sign followed by a non-empty run of decimal digits; it gives the digits' value, negated after '-', and a negative result only after '-' |
| Text.ParseNatToString | utils.py:173 | parsing the decimal rendering of n gives back n |
| Text.ParseNegatedNatToString | utils.py:173 | parsing '-' followed by the decimal rendering of n gives -n, so a tick like "1e--5" yields a negative count |
| Text.LexLessIrreflexive | adapters.py:125 | Python's string order is irreflexive |
| Text.LexLessTransitive | adapters.py:125 | Python's string order is transitive |
| Text.LexLessTotal | adapters.py:125 | any two distinct strings are ordered one way or the other |
| Text.LexLessAsymmetric | adapters.py:125 | never both a < b and b < a |
| Decimals.DecimalsFromString | utils.py:169-182 | a plain decimal string yields a count between 0 and its length; a scientific string whose exponent is unparsable yields the fallback 8 |
| Decimals.DecimalsOfTickString | utils.py:177-182 | "0.0…01" with n decimals, padded by any number of trailing zeros, yields n |
| Decimals.DotOfTickString | utils.py:182 | the part after the dot of such a tick has exactly n characters |
| Decimals.DecimalsOfScientific | utils.py:171-173 | "1e-N" yields N |
| Decimals.DecimalsExamples | utils.py:177-182 | "0.0100" yields 2 and "1" yields 0 |
| Decimals.DecimalsFallbackExample | utils.py:174-175 | "1e-x" falls back to 8 |
| StopLimit.StopLimitMirror | utils.py:346-354 | the bearish prices are the bullish formula with both buffers negated |
| StopLimit.ComputeStopLimit | utils.py:346-354 | bullish: the stop is the reference raised by the stop buffer and the limit is the stop raised by the limit buffer; bearish: both lowered by the same buffers |
| StopLimit.StopLimitOrdering | utils.py:346-354 | with buffers in (0,1): a bullish stop sits above the reference and its limit above the stop; a bearish limit sits below its stop, which sits below the reference, and both stay positive |
| StopLimit.StopLimitCompounds | utils.py:349-353 | the limit is the reference scaled by both buffers compounded |
| StopLimit.StopLimitExample | utils.py:346-354 | with the configured buffers, 100 gives 100.1/100.17007 bullish and 99.9/99.83007 bearish |
| RiskFrame.Rollover | risk_frame.py:16-19 | a new calendar key resets pnl, trade count and halt; the same key leaves the state unchanged |
| RiskFrame.OnTradeClose | risk_frame.py:24-29 | a halted day ignores closes; otherwise the trade is counted and its return added, and the day halts exactly when the running pnl reaches the target or the cap |
| RiskFrame.Halt | main.py:93-95 | a manual halt stops trading and keeps the day's figures |
| RiskFrame.HaltLatches | risk_frame.py:21-29 | within one day, once halted, no sequence of closes, ticks or halts un-halts it or changes its pnl or trade count |
| RiskFrame.TradesBoundedByCloses | risk_frame.py:24-29 | within one day, the trade count grows by at most the number of closes |
| RiskFrame.PositionSizeNotional | risk_frame.py:31-34 | the notional is never negative, and is the risk amount over the stop distance whenever that quotient is non-negative |
| RiskFrame.StopLossCostsRiskBudget | risk_frame.py:31-34 | a stop-loss hit on the sized notional loses exactly the per-trade risk share of equity |
| RiskFrame.SizingExample | risk_frame.py:31-34 | equity 10000 with 3% risk and a 0.75% stop gives 40000 |
| RiskFrame.ComputeBracket | risk_frame.py:36-40 | LONG places SL below and TP above by the configured fractions; any other side mirrors them |
| RiskFrame.BracketOrdering | risk_frame.py:36-40 | for a positive entry and fractions in (0,1): LONG gives 0 < SL < entry < TP; SHORT gives 0 < TP < entry < SL |
| RiskFrame.BracketDistances | risk_frame.py:36-40 | the relative distances of SL and TP from the entry are exactly the configured fractions |
| RiskFrame.BracketExample | risk_frame.py:36-40 | entry 100 LONG with 0.75%/1.5% gives 99.25/101.5 |
| RiskFrame.LossCapExample | risk_frame.py:24-29 | a -16% close under a -15% cap halts a fresh day after one trade |
| Positions.SignedReturn | adapters.py:82-83 | the return times the entry is the exit's gain for a long and the exit's drop for a short |
| Positions.ReturnSign | adapters.py:82-83 | the return is positive exactly when the exit moved in the position's favour, and zero exactly when exit equals entry |
| Positions.BracketReturns | adapters.py:82-83 | closing at the computed TP books +TP_PCT and at the computed SL books -SL_PCT, for either side |
| Positions.CloseAt | adapters.py:80-105 | a close clears the position, books its signed return once on the day guard, reports (pct, symbol, reason, exit) and journals the same return |
| Positions.Quiet | adapters.py:106 | a poll without a close changes nothing and reports nothing |
| SimAdapter.PlaceBracket | adapters.py:35-68 | fails only when neither the entry nor a best price is available; otherwise opens at the stop-limit limit price computed from that reference, with the caller's SL/TP, and returns "SIM-ORDER" |
| SimAdapter.SimFillBeyondReference | adapters.py:52-59 | the simulated fill is worse than the reference: above it for LONG, below it (and positive) for SHORT |
| SimAdapter.Poll | adapters.py:71-106 | without a position or a price nothing happens; a hit closes at TP when the TP trigger holds, else at SL, through the shared close bookkeeping; no hit changes nothing |
| SimAdapter.TakeProfitWins | adapters.py:80-85 | when both triggers hold, the close is a TP at the TP price |
| SimAdapter.InsideBracketHolds | adapters.py:78-80 | a price strictly inside the bracket keeps the position open |
| SimAdapter.BracketCloseBooksConfiguredReturn | adapters.py:80-88 | for a bracket from the sizing rules, a hit books exactly +TP_PCT or -SL_PCT and frees the slot |
| SimAdapter.PollWithoutPriceIsQuiet | adapters.py:72-76 | no position, or a failed price fetch, reports no close and changes nothing |
| SimAdapter.SimRoundExample | adapters.py:35-106 | a LONG placed at 100 fills at 100.17007 and a later price of 102 closes it at TP, counting one trade |
| Signing.InsertByKey | adapters.py:125 | inserting into a key-sorted list keeps it key-sorted and adds exactly that entry |
| Signing.SortByKey | adapters.py:125 | `sorted(params.keys())` yields the same entries in strictly increasing key order |
| Signing.Sign | adapters.py:124-127 | the signed string is the canonical query, then exactly the characters "&signature=", then the digest of that query, and nothing else |
| Signing.SortedUnique | adapters.py:125 | two key-sorted arrangements of the same entries are identical |
| Signing.FirstIsLeast | adapters.py:125 | the first entry of a key-sorted list has the least key |
| Signing.SignOrderIndependent | adapters.py:124-127 | the query and the signature do not depend on the order in which parameters were inserted |
| Signing.SortTwo | adapters.py:125 | two parameters out of order are swapped |
| Signing.JoinTwo | adapters.py:125 | two entries join as "k1=v1&k2=v2" |
| Signing.QueryExample | adapters.py:125 | {symbol: BTCUSDT, side: BUY} canonicalises to "side=BUY&symbol=BTCUSDT" |
| Signing.SignExample | adapters.py:124-127 | and signs as that query followed by "&signature=" and its digest |
| LiveAdapter.AwaitFill | adapters.py:242-253 | the wait stops at the first FILLED, the first CANCELED/EXPIRED/REJECTED or the first failed query; otherwise it runs out of answers unfilled; no earlier answer was decisive |
| LiveAdapter.WaitForFill | adapters.py:242-253 | the polling loop computes the same end and number of queries as that specification |
| LiveAdapter.Queries | adapters.py:245 | n identical status queries for the entry order |
| LiveAdapter.PlaceBracket | adapters.py:202-293 | a side other than LONG/SHORT is refused before any request; without an entry or a best price it fails before any request; otherwise the first request is the entry order at the stop-limit prices computed from that reference; the call succeeds with the entry id exactly when the entry is acknowledged, fills, and both exit orders are acknowledged, and then records the position with the reference, the entry stop and limit and the three order ids; a placed entry that ends unfilled is cancelled and no position is kept |
| LiveAdapter.ExitsOnlyAfterFill | adapters.py:255-265 | no exit order is ever sent unless the entry filled |
| LiveAdapter.UnfilledEntryIsCancelled | adapters.py:255-260 | an unfilled entry ends with a cancel of that order after the entry and the queries, and fails |
| LiveAdapter.FilledButTakeProfitRejected | adapters.py:265-280 | if the entry fills but the TP order is rejected, the call fails with no position recorded although the entry and the TP request were sent |
| LiveAdapter.Poll | adapters.py:296-345 | closes exactly when TP or SL reports FILLED, preferring TP; books through the shared close; cancels the other order only when it is still NEW or PARTIALLY_FILLED |
| LiveAdapter.PlacedPositionCloses | adapters.py:202-345 | a position the live adapter placed closes at its TP price once the TP order fills, booking the signed return and freeing the slot |
| LiveAdapter.PlaceBracketAsWritten | adapters.py:221-222 | as written, every call fails before any request and leaves the slot as it was |
| LiveAdapter.AsWrittenNeverOpens | adapters.py:221-222 | on a venue that acknowledges and fills everything, the as-written call opens nothing while the corrected one opens a position |
| Series.LastN | signals/signal_scalp_breakout.py:27 | `xs[-n:]`: the last min(n, len) elements, in order |
| Series.BeforeLast | signals/signal_scalp_breakout.py:53-54 | `xs[-(n+1):-1]`: the n elements before the last |
| Series.MinOf | signal_volume_breakdown.py:110 | `min`: a member of the list, no greater than any element |
| Series.MaxOf | signals/signal_scalp_breakout.py:53 | `max`: a member of the list, no smaller than any element |
| Series.WeightedMeanBounds | signals/signal_scalp_breakout.py:31 | a non-negatively weighted mean with positive total weight lies between the least and the greatest value |
| Series.WindowMax | signals/signal_scalp_breakout.py:53 | the maximum of the n values before the last is at least each of them and equals one of them |
| Series.WindowMin | signals/signal_scalp_breakout.py:54 | the minimum of the n values before the last is at most each of them and equals one of them |
| VolumeBreakdown.StepFromUnarmed | signal_volume_breakdown.py:145-151 | unarmed: a break arms at the previous low with count 0 and reports nothing; no break stays unarmed |
| VolumeBreakdown.StepFromArmed | signal_volume_breakdown.py:154-167 | armed: fires exactly on a retest within the expiry window and then disarms; past the window disarms silently; otherwise waits one evaluation older at the same level; the gate plays no part |
| VolumeBreakdown.StepKeepsValid | signal_volume_breakdown.py:155-167 | the evaluation count never passes the expiry limit |
| VolumeBreakdown.Trace | signal_volume_breakdown.py:145-167 | one record per evaluation |
| VolumeBreakdown.FiresBoundedByArmings | signal_volume_breakdown.py:145-167 | over any run, signals never outnumber armings: each arming fires at most once |
| VolumeBreakdown.ArmedLifetime | signal_volume_breakdown.py:155-167 | an arming outlives at most RETEST_EXPIRE_N further evaluations |
| VolumeBreakdown.PrevLow | signal_volume_breakdown.py:110 | the least low of the 60 bars before the last, attained by one of them |
| VolumeBreakdown.Evaluate | signal_volume_breakdown.py:100-171 | short or failed inputs change nothing and report nothing; otherwise only this symbol's record changes; a signal comes exactly when the symbol was armed and the close retests its level within the window, and then the record is cleared |
| VolumeBreakdown.EvaluateIsStep | signal_volume_breakdown.py:140-167 | past the early returns, a call is one step of the arm machine on the symbol's record, the break being a close below the previous low with every indicator in favour |
| VolumeBreakdown.ArmingCallIsSilent | signal_volume_breakdown.py:142-151 | the call that arms reports no signal |
| VolumeBreakdown.NoBreakStaysUnarmed | signal_volume_breakdown.py:146-147 | without a break and every indicator in favour, an unarmed symbol stays unarmed and silent |
| VolumeBreakdown.ArmedIgnoresGate | signal_volume_breakdown.py:154-167 | once armed, the indicator conditions no longer affect the outcome |
| VolumeBreakdown.EvaluateKeepsValid | signal_volume_breakdown.py:145-167 | the table stays well formed |
| VolumeBreakdown.RetestExample | signal_volume_breakdown.py:154-167 | 100.05 retests a level of 100; 101 does not and waits; the seventh wait expires |
| ScalpBreakout.Vwap | signals/signal_scalp_breakout.py:24-31 | absent exactly when there are no bars; over the last 21 bars, the value times the total volume is the volume-weighted sum of the closes, and with no positive total volume it is the last close |
| ScalpBreakout.VwapWithinCloses | signals/signal_scalp_breakout.py:24-31 | with non-negative volumes the VWAP lies between the least and the greatest close of its 21-bar window |
| ScalpBreakout.PrevHigh | signals/signal_scalp_breakout.py:53 | the greatest high of the 20 bars before the last: at least each of them and equal to one of them |
| ScalpBreakout.PrevLow | signals/signal_scalp_breakout.py:54 | the least low of the 20 bars before the last: at most each of them and equal to one of them |
| ScalpBreakout.Signal | signals/signal_scalp_breakout.py:40-66 | a signal needs at least 25 bars, a LONG or SHORT side and the last close as entry; a refusal has no side and entry 0 |
| ScalpBreakout.RefusedEarly | signals/signal_scalp_breakout.py:44-50 | a failed fetch and a short history are refused with their own reasons |
| ScalpBreakout.DecisionOrder | signals/signal_scalp_breakout.py:57-66 | overextension refuses first; then LONG exactly when the close reaches the previous high; SHORT exactly when it does not but reaches the previous low; otherwise no breakout with the close strictly inside the range |
| ScalpBreakout.BreakoutClearsRange | signals/signal_scalp_breakout.py:62-65 | a LONG entry is at or above each of the previous 20 highs, and a SHORT entry at or below each of the previous 20 lows |
| LargeTrades.SortAsc | signal_large_trades_ws.py:20 | `sorted`: ascending and a permutation of the input |
| LargeTrades.PercentileIndex | signal_large_trades_ws.py:21 | the rounded rank position p/100·(n-1), clamped into 0..n-1, so always a valid index |
| LargeTrades.Percentile | signal_large_trades_ws.py:17-22 | infinite exactly on an empty history; otherwise a recorded value that is the k-th smallest, k being the rank index: exactly k values sit at or below it and the rest at or above it |
| LargeTrades.PercentileOfSorted | signal_large_trades_ws.py:20-22 | on a non-empty history the gate is the element at the rank index of the sorted values |
| LargeTrades.OrderStatisticPermuted | signal_large_trades_ws.py:20 | being the k-th smallest depends only on the values, not on their order |
| LargeTrades.PercentileIndexExtremes | signal_large_trades_ws.py:21 | p ≤ 0 picks the first index and p ≥ 100 the last |
| LargeTrades.PercentileIndexMonotone | signal_large_trades_ws.py:21 | a higher percentile never picks a lower index |
| LargeTrades.PercentileExtremes | signal_large_trades_ws.py:17-22 | p ≤ 0 gives the minimum and p ≥ 100 the maximum of the history |
| LargeTrades.PercentileMonotone | signal_large_trades_ws.py:17-22 | a higher percentile never gives a lower gate |
| LargeTrades.Kept | signal_large_trades_ws.py:37-47 | only rows at or after the cutoff, on the requested side, are counted |
| LargeTrades.AggregateRows | signal_large_trades_ws.py:32-47 | the accumulation loop computes the side sums of the counted rows |
| LargeTrades.FoldIsAggregate | signal_large_trades_ws.py:37-47 | row-by-row accumulation equals summing each side's counted rows |
| LargeTrades.KeptConcat | signal_large_trades_ws.py:37-39 | filtering distributes over concatenated row batches |
| LargeTrades.StaleRowIgnored | signal_large_trades_ws.py:38-39 | a row older than the cutoff has no effect wherever it appears |
| LargeTrades.Anchor | signal_large_trades_ws.py:49-50 | defined exactly when the side's quantity is positive, and then is the quantity-weighted mean price |
| LargeTrades.AnchorWithinPrices | signal_large_trades_ws.py:49-50 | with non-negative quantities the anchor lies between the least and the greatest counted price |
| LargeTrades.KeptFromRows | signal_large_trades_ws.py:37-47 | every counted row comes from the input |
| LargeTrades.Push | signal_large_trades_ws.py:53-55 | `deque(maxlen=500).append`: the newest value is last, and the oldest is dropped only when full |
| LargeTrades.Sample | signal_large_trades_ws.py:52-56 | more than one second after the last sample, each positive side volume is appended to that side's bounded history, a non-positive one leaves it, and the sample time becomes now; otherwise nothing changes; histories stay within 500 |
| LargeTrades.Effective | signal_large_trades_ws.py:65-66 | `gate or inf`: a present nonzero gate is kept as is; a missing or zero gate becomes infinite, so a finite result is always the present nonzero gate |
| LargeTrades.Gates | signal_large_trades_ws.py:58-62 | percentile mode takes each side's gate as that side's history percentile at its configured level; any other mode takes the absolute settings, absent when unset |
| LargeTrades.Judge | signal_large_trades_ws.py:64-70 | a side signals exactly when its volume exceeds its effective gate and it has an anchor; a signal implies a finite nonzero gate below the volume; the verdict carries each side's anchor, the quantity-weighted mean price of its counted rows |
| LargeTrades.LargeTradesSignal | signal_large_trades_ws.py:24-70 | disabled gives nothing; no rows give no signal and change no history; other symbols' histories never change; histories stay within 500 |
| LargeTrades.SignalMeaning | signal_large_trades_ws.py:28-70 | with rows, the verdict is the judgement of the window's sums against the gates of the just-sampled history: percentiles of it in percentile mode, the absolute settings otherwise; each side signals exactly when its volume beats its effective gate and it has an anchor, and the verdict carries both anchors |
| LargeTrades.EmptyHistoryNeverSignals | signal_large_trades_ws.py:52-66 | in percentile mode, a symbol with an empty buy history gives no buy signal whatever the window: even the first sampled volume becomes the whole history and cannot strictly beat its own percentile |
| LargeTrades.FirstSampleGate | signal_large_trades_ws.py:52-60 | sampling into an empty buy history leaves a percentile gate that is infinite or exactly this window's buy volume |
| LargeTrades.NearAnchorMeaning | signal_large_trades_ws.py:72-76 | false without an anchor, at a zero anchor or a zero price; otherwise true exactly when the price is within the drift fraction of a positive anchor |
| Ranking.Candidates | utils.py:30-45 | an item is listed exactly when some row is a USDT symbol free of excluded keywords and the blacklist, and has positive last and volume and a change of the board's sign |
| Ranking.AdmittedIndices | utils.py:30-45 | the positions of the admitted rows: in range, admitted, strictly increasing, and including every admitted row |
| Ranking.PositionsExact | utils.py:30-45 | the listed positions of a flag list are the true ones, in increasing order, each listed |
| Ranking.CandidatesInAdmittedOrder | utils.py:30-45 | the j-th candidate is the item of the j-th admitted row: one item per admitted row, in row order |
| Ranking.Rank | utils.py:46-70 | orders by change, descending for gainers and ascending for losers, as a permutation |
| Ranking.TopMovers | utils.py:25-71 | the result has min(limit, candidates) items, ranked, drawn from the candidates |
| Ranking.TopMoversAdmitted | utils.py:31-45 | every listed item passed every admission rule |
| Ranking.TopMoversAreTop | utils.py:46-71 | no dropped candidate outranks a listed one |
| Ranking.TopMoversComplete | utils.py:25-71 | with no more candidates than the limit, every admitted row is listed |
| Ranking.ExampleAdmitted | utils.py:31-45 | ordinary rising USDT symbols are admitted to the gainers board |
| Ranking.ExampleRefused | utils.py:33-36 | a leveraged-token symbol and a blacklisted one are refused |
| Ranking.RankingExample | utils.py:25-47 | a sample board keeps the two admitted rows, largest change first |
| Filters.FloorToBounds | utils.py:247-255 | flooring to a grid lands on the grid within one unit below |
| Filters.CeilToBounds | utils.py:263 | ceiling to a grid lands on the grid within one unit above |
| Filters.FloorToGreatest | utils.py:247-255 | the floor is the greatest grid point not above the value |
| Filters.FloorToOnGrid | utils.py:247-255 | a grid point floors to itself |
| Filters.ConformPrice | utils.py:247-251 | the price is floored to the tick, or raised to the minimum price; it never rises except to that minimum |
| Filters.StepQty | utils.py:253-257 | the quantity is floored to the step, or raised to the minimum quantity; it never rises except to that minimum |
| Filters.LiftForNotional | utils.py:259-265 | a quantity already meeting the notional is kept; a short one is raised to the least step multiple, or to the needed amount without a step, that meets the minimum notional |
| Filters.ConformWith | utils.py:241-267 | the conformed price, then the stepped and lifted quantity at that price, with the rule's precisions |
| Filters.ResolveRule | utils.py:233-239 | a known symbol uses the cache; an unknown one triggers one refresh, and a rule is found exactly when the symbol is in the resulting cache |
| Filters.ConformToFilters | utils.py:228-267 | fails exactly when the symbol is unknown even after the refresh; otherwise conforms with its rule |
| Filters.PriceFixedPoint | utils.py:247-251 | conforming a conformed price changes nothing |
| Filters.QtyFixedPoint | utils.py:253-257 | stepping a stepped quantity changes nothing |
| Filters.LiftedSurvivesStep | utils.py:253-265 | a quantity lifted for the notional survives another pass of stepping and lifting |
| Filters.QtyPassFixedPoint | utils.py:253-265 | the whole quantity pass is idempotent at a non-negative price |
| Filters.ConformIdempotent | utils.py:241-267 | conforming an already conformed price and quantity returns them unchanged |
| Filters.ConformToFiltersIdempotent | utils.py:228-267 | conforming through the cache twice gives the same result and cache |
| MainLoop.FirstLong | main.py:178-186 | picks the first gainer that is neither locked nor refused by the breakout check, and only when every earlier one was |
| MainLoop.ScanShort | main.py:189-195 | a SHORT pick is a loser, unlocked, and the first loser that fires on the arm table its predecessors left, every earlier loser being locked or silent; without a pick every loser was passed over and the table is the result of running them all; locked and unlisted symbols keep their arm records |
| MainLoop.ScanStage | main.py:154-203 | a candidate needs the cooldown to have passed and an unlocked symbol; LONG comes from the enabled gainers board with a passing breakout check; SHORT from the enabled losers board, only when no LONG was found, and is the first loser that fires with every earlier one passed over |
| MainLoop.ScanClock | main.py:158-175 | a failed gainers fetch aborts the scan without moving the scan clock; a successful one moves it to now |
| MainLoop.LongBeforeShort | main.py:178-195 | when a LONG is found the short scan does not run and the arm table is untouched |
| MainLoop.ShortWhenNoLong | main.py:178-203 | with the losers in, the cooldown passed, no gainer taken and the websocket fine, the SHORT candidate is exactly the short loop's first firing loser, if any, and the arm table is the one the loop leaves |
| MainLoop.EnterStage | main.py:206-274 | an order is sent exactly when the entry price is nonzero, the symbol's filters are found and the conformed quantity is nonzero; the ticket carries the conformed entry, quantity, SL and TP of the sized bracket; a successful placement starts the 3 s cooldown and a 45 s lock on the symbol; a failed one changes neither |
| MainLoop.UnknownSymbolIsLocked | main.py:223-227 | a symbol unknown even after refresh is skipped and locked for 60 s |
| MainLoop.EquityAfterClose | main.py:131-142 | after a close, live mode takes the fetched balance, and otherwise (or when the fetch fails) equity is the start equity grown by the day's pnl |
| MainLoop.PollStage | main.py:118-145 | a failed poll changes nothing; a close starts the cooldown and refreshes equity; no close leaves both alone |
| MainLoop.PollStageAsWritten | main.py:120-123 | as written, a poll never starts the cooldown or refreshes equity |
| MainLoop.AsWrittenMissesClose | main.py:120-128 | for any close the adapter reports, the as-written loop misses the cooldown the corrected one starts |
| MainLoop.AsWrittenMissesSimTakeProfit | main.py:120-128 | a simulated TP close frees the slot in both versions, but only the corrected one starts the cooldown |
| MainLoop.LoopTick | main.py:102-274 | one iteration never changes the starting equity or the pause flag |
| MainLoop.OpenTickOnlyMonitors | main.py:104-146 | with a position open, an iteration sends nothing, is the corrected poll after the day rollover, and leaves the scan clock, the arm table and the locks alone |
| MainLoop.DueScanEnters | main.py:146-274 | with nothing open and a scan due, an iteration is the entry block on the scan's candidate, run on the state carrying the scan clock and arm table the scan left; without a candidate it sends nothing |
| MainLoop.LoopTickAsWritten | main.py:118-145 | as written, an iteration with nothing open is the corrected one, and one with a position open sends nothing and never starts the cooldown or refreshes equity |
| MainLoop.AsWrittenTickMissesClose | main.py:118-128 | when the adapter reports a close, both iterations free the slot, but only the corrected one starts the 3 s cooldown |
| MainLoop.EntryGate | main.py:118-195 | an order is sent only when nothing is open, the day is not halted, scanning is not paused, the scan interval and the cooldown have passed, the symbol is unlocked, the quantity is nonzero and the side is LONG or SHORT |
| MainLoop.IdleTickOnlyRollsOver | main.py:102-151 | with nothing open and no scan due, an iteration only rolls the day over |
| MainLoop.SendCooldowns | main.py:246-274 | an accepted order starts the cooldown and locks its symbol for 45 s; a rejected one leaves both |
| MainLoop.HaltedDaySendsNothing | main.py:151 | a halted day sends no order |
| MainLoop.PauseKey | main.py:74-76 | `p` flips only the pause flag |
| MainLoop.HaltKey | main.py:93-95 | `!` sets the halt latch of the day guard, so the day can no longer trade, and changes nothing else: the day key, pnl and trade count stay, as does the rest of the loop state |
| MainLoop.HotkeyReturn | main.py:84 | the manual close return is the exit's gain for LONG and its drop for any other side |
| MainLoop.HotkeyMatchesAdapters | main.py:84 | for LONG and SHORT the hotkey books the same return as the adapters |
| MainLoop.CloseKey | main.py:77-92 | `x` with an open position at a nonzero entry, a price and a journal write that succeeds clears the slot and books the return once on the day guard, changing nothing else; with nothing open, no price, a zero entry or a failed journal write, nothing changes |
| MainLoop.CloseKeyBooksOnce | main.py:84-87 | the manual close counts one trade and adds its return unless the day is halted, and starts no cooldown |

## Left out

- Network I/O is left out: HTTP requests and retries, the websocket client (ws_client.py), the journal CSV and the terminal panel. Their answers are inputs; they are side effects or external services. Whether the hotkey's journal write succeeds is an input to MainLoop.CloseKey, because a failed write skips the booking (main.py:85-90).
- tools/health.py is left out: it is a diagnostic script outside the trading core.
- Formatting of prices and quantities to fixed decimals (main.py:239-242) is left out: string rendering of floats has no counterpart in real arithmetic. Tickets carry the conformed reals.
- The server time resync every 30 minutes (main.py:107-114) and the account display (main.py:276-280) are left out: they affect logging and display only.
- The several `time.time()` reads of one iteration are one `clock` input, with `now` for the iteration start. Drift between reads within an iteration is not modelled.
- `volume_breakout_ok` (signal_volume_breakout.py) is not part of this model. Its verdict is a predicate input to the scan.
- The indicator conditions of the breakdown signal are one boolean input: volume spike and cool-down, VWAP distance, EMA order and slope, box base and fatigue. These are floating-point statistics outside the state machine.
- The large-trades settings (LARGE_TRADES_*) are parameters. config.py does not define them, and the `ws_recent_agg` import names a function ws_client.py does not export, so the module would not import as written; its recent rows are an input.
- The hotkey thread's concurrency with the main loop is not modelled. Hotkeys are separate transitions on the loop state.
- Floating-point rounding is not modelled: reals are exact. Equalities such as 100.17007 hold in the model and only approximately in the program.
- Ranking.Rank is stated up to ties, as ranked and a permutation: the stable order Python's sort keeps among equal changes is not modelled.
- Filters.LiftForNotional: the minimum notional is guaranteed only at prices of at least 1e-12, the divisor floor of utils.py:261. Below it the source's quantity can fall short too.
- RiskFrame.PositionSizeNotional requires a nonzero SL_PCT; the source divides by it, and the configured value is 0.004.
- Decimals.DecimalsFromString states only its range and its fallback in its own contract. The exact counts are stated by the lemmas DecimalsOfTickString, DecimalsOfScientific and DecimalsExamples.
- MainLoop.LoopTick states only what an iteration never changes. What it does is stated by lemmas: OpenTickOnlyMonitors and IdleTickOnlyRollsOver for the passes that send nothing, DueScanEnters with EnterStage, ScanStage, LongBeforeShort and ShortWhenNoLong for when an order is sent, and EntryGate, SendCooldowns and HaltedDaySendsNothing for what must hold when it is.
- MainLoop.LoopTick monitors an open position with the corrected poll, which unpacks all five values the adapters return (see Findings). The iteration as written at main.py:120 is MainLoop.LoopTickAsWritten.
- Text.AfterLast is stated for separators whose first character does not recur in them, such as "e-" and "." used at utils.py:173 and utils.py:182. Python's `split` on self-overlapping separators is not modelled.
- Text.ParseInt accepts only ASCII digits with an optional sign. Python's `int()` also strips surrounding whitespace and accepts underscores between digits and non-ASCII decimal digits; these forms are not modelled.
- Timestamps are reals, and millisecond trade times are integers. Integer overflow does not arise in Python and is not modelled.
- The live adapter's waiting loop is driven by a finite sequence of status answers in place of the 90-second timeout and the 0.6-second sleeps; running out of answers is the timeout.

## Findings

| source | as written | input that shows it | evidently intended | confidence | as-written member | corrected member |
|---|---|---|---|---|---|---|
| adapters.py:221-222 | `compute_stop_limit(ref_price, is_bull=..., stop_buf=..., limit_buf=...)` passes a keyword that the function does not have: its parameter is `bullish` (utils.py:346). So every live placement raises TypeError before any order is sent. | any call, e.g. LONG with entry "100" on a venue that would acknowledge and fill everything | pass the side as `bullish`, then place the entry, wait for the fill and place TP/SL | high (not executed) | LiveAdapter.PlaceBracketAsWritten, LiveAdapter.AsWrittenNeverOpens | LiveAdapter.PlaceBracket |
| main.py:120 | `closed, pct, sym = adapter.poll_and_close_if_hit(day)` unpacks three names from a five-element tuple (adapters.py:105-106, 297-345), so every poll raises ValueError. The handler sets `closed` to False, so a close that did happen (the slot is already cleared and the day booked) never starts the cooldown or refreshes equity. | a simulated LONG at entry 100.17007 with TP 101.5, polled at price 102 | unpack all five values, then start the cooldown and refresh equity on a close | high (not executed) | MainLoop.PollStageAsWritten, MainLoop.AsWrittenMissesClose, MainLoop.AsWrittenMissesSimTakeProfit | MainLoop.PollStage |

=== FILE: base.dfy ===
/** Shared vocabulary for the model: optional values, results that carry the
    error the Python code would have raised, an extended real for the
    "infinite" gates, and the rounding helpers the bot uses on floats. */
module Base {

  /** `None` stands for Python's `None` (or a value that could not be obtained). */
  datatype Option<+T> = None | Some(value: T)

  /** `Err` stands for an exception that escapes the modelled call. */
  datatype Result<+T> = Ok(value: T) | Err(error: string)

  /** A real or +infinity (`math.inf`). */
  datatype Ext = Finite(v: real) | PosInf

  function Max(a: real, b: real): real { if a >= b then a else b }

  function Min(a: real, b: real): real { if a <= b then a else b }

  function Abs(x: real): real { if x < 0.0 then -x else x }

  /** `math.floor` on a real. */
  function Floor(x: real): (f: int)
    ensures f as real <= x < f as real + 1.0
  {
    x.Floor
  }

  /** `math.ceil` on a real. */
  function Ceil(x: real): (c: int)
    ensures x <= c as real < x + 1.0
  {
    -Floor(-x)
  }

  /** Python's built-in `round` on a real: to the nearest integer, ties to the even one. */
  function RoundHalfEven(x: real): (n: int)
    ensures x - 0.5 <= n as real <= x + 0.5
    ensures x - n as real == 0.5 || n as real - x == 0.5 ==> n % 2 == 0
  {
    var f := Floor(x);
    var d := x - f as real;
    if d < 0.5 then f
    else if d > 0.5 then f + 1
    else if f % 2 == 0 then f
    else f + 1
  }

  lemma RoundHalfEvenMonotone(x: real, y: real)
    requires x <= y
    ensures RoundHalfEven(x) <= RoundHalfEven(y)
  {
  }

  /** Round of an integer is that integer. */
  lemma RoundOfInt(n: int)
    ensures RoundHalfEven(n as real) == n
  {
  }
}

=== FILE: decimals.dfy ===
/** `_get_decimals_from_string` of utils.py: the number of decimals an
    exchange tick or step string such as "0.0100" or "1e-5" implies. */
module Decimals {
  import opened Base
  import opened Text

  /** Decimals assumed for a scientific string whose exponent does not parse. */
  const ScientificFallback: int := 8

  function DecimalsFromString(s: string): (d: int)
    ensures !Contains(s, "e-") ==> 0 <= d <= |s|
    ensures Contains(s, "e-") && ParseInt(AfterLast(s, "e-")).None? ==> d == ScientificFallback
  {
    if Contains(s, "e-") then
      match ParseInt(AfterLast(s, "e-"))
      case Some(n) => n
      case None => ScientificFallback
    else
      var t := RStrip(s, '0');
      if !Contains(t, ".") then 0 else |AfterLast(t, ".")|
  }

  function Zeros(n: nat): string {
    seq(n, _ => '0')
  }

  /** The canonical decimal tick with `n` decimals: "1", "0.1", "0.01", ... */
  function TickString(n: nat): (s: string)
    ensures 'e' !in s
    ensures |s| > 0 && s[|s| - 1] == '1'
  {
    if n == 0 then "1" else "0." + Zeros(n - 1) + "1"
  }

  /** A tick string with `n` decimals, padded with any number of trailing zeros,
      yields `n`: trailing zeros never count. */
  lemma DecimalsOfTickString(n: nat, pad: nat)
    ensures DecimalsFromString(TickString(n) + Zeros(pad)) == n
  {
    var t := TickString(n);
    var s := t + Zeros(pad);
    assert 'e' !in s by {
      assert forall i :: 0 <= i < |Zeros(pad)| ==> Zeros(pad)[i] == '0';
      assert forall i :: 0 <= i < |s| ==> s[i] == (if i < |t| then t[i] else Zeros(pad)[i - |t|]);
    }
    NotContainsWithoutHead(s, "e-");
    RStripRun(t, '0', pad);
    if n == 0 {
      NotContainsWithoutHead(t, ".");
    } else {
      DotOfTickString(n);
    }
  }

  /** The only '.' of a tick string with `n >= 1` decimals is at index 1. */
  lemma DotOfTickString(n: nat)
    requires n >= 1
    ensures AfterLast(TickString(n), ".") == TickString(n)[2..]
    ensures |TickString(n)[2..]| == n
  {
    var t := TickString(n);
    assert OccursAt(t, ".", 1) by { assert t[1..2] == "."; }
    var r := LastOccurrence(t, ".");
    assert r.Some? && r.value >= 1;
    assert forall j :: 2 <= j < |t| ==> t[j] == (Zeros(n - 1) + "1")[j - 2] && t[j] != '.';
    assert t[r.value] == t[r.value..r.value + 1][0] == '.';
    assert r.value == 1;
  }

  /** A scientific string "1e-N" yields N. */
  lemma DecimalsOfScientific(n: nat)
    ensures DecimalsFromString("1e-" + NatToString(n)) == n
  {
    var digits := NatToString(n);
    var s := "1e-" + digits;
    assert OccursAt(s, "e-", 1) by { assert s[1..3] == "e-"; }
    var r := LastOccurrence(s, "e-");
    assert r.Some? && r.value >= 1;
    assert s[2] == '-';
    assert forall j :: 3 <= j < |s| ==> s[j] == digits[j - 3] && s[j] != 'e';
    assert s[r.value] == s[r.value..r.value + 2][0] == 'e';
    assert r.value == 1;
    assert AfterLast(s, "e-") == digits;
    ParseNatToString(n);
  }

  /** "0.0100" has two decimals, "1" none. */
  lemma DecimalsExamples()
    ensures DecimalsFromString("0.0100") == 2
    ensures DecimalsFromString("1") == 0
  {
    DecimalsOfTickString(2, 2);
    assert TickString(2) + Zeros(2) == "0.0100";
    DecimalsOfTickString(0, 0);
    assert TickString(0) + Zeros(0) == "1";
  }

  /** An exponent that is not an integer falls back to 8 decimals. */
  lemma DecimalsFallbackExample()
    ensures DecimalsFromString("1e-x") == ScientificFallback
  {
    var s := "1e-x";
    assert OccursAt(s, "e-", 1) by { assert s[1..3] == "e-"; }
    var r := LastOccurrence(s, "e-");
    assert r.value == 1;
    assert AfterLast(s, "e-") == "x";
  }
}

=== FILE: filters.dfy ===
/** `conform_to_filters` of utils.py: bringing a raw price and quantity onto
    the exchange's grid for a symbol, with the rule cache passed in and the
    forced refresh of `load_exchange_info` given as its outcome. */
module Filters {
  import opened Base

  /** One symbol's entry of the rule cache (`EXCHANGE_INFO[symbol]`). */
  datatype Rule = Rule(
    tickSize: real,
    minPrice: real,
    maxPrice: real,
    stepSize: real,
    minQty: real,
    maxQty: real,
    minNotional: real,
    pricePrecision: int,
    quantityPrecision: int
  )

  type Cache = map<string, Rule>

  /** `(price, qty, pricePrecision, quantityPrecision)` as returned by the source. */
  datatype Conformed = Conformed(price: real, qty: real, pricePrecision: int, quantityPrecision: int)

  /** The divisor floor of the notional lift, `max(price, 1e-12)`. */
  const MinDivisor: real := 0.000000000001

  // ---------------------------------------------------------------------------
  // Grids

  function Multiple(k: int, unit: real): real {
    k as real * unit
  }

  /** `x` is a whole multiple of `unit`. */
  ghost predicate OnGrid(x: real, unit: real) {
    exists k: int :: Multiple(k, unit) == x
  }

  lemma MulLe(a: real, b: real, c: real)
    requires a <= b && c > 0.0
    ensures a * c <= b * c
  {
  }

  lemma MulLt(a: real, b: real, c: real)
    requires a < b && c > 0.0
    ensures a * c < b * c
  {
  }

  lemma DivLe(a: real, b: real, c: real)
    requires a <= b && c > 0.0
    ensures a / c <= b / c
  {
  }

  /** `math.floor(x / unit) * unit`. */
  function FloorTo(x: real, unit: real): (r: real)
    requires unit > 0.0
  {
    Multiple(Floor(x / unit), unit)
  }

  /** `math.ceil(x / unit) * unit`. */
  function CeilTo(x: real, unit: real): (r: real)
    requires unit > 0.0
  {
    Multiple(Ceil(x / unit), unit)
  }

  /** Flooring to a grid lands on the grid, at most one unit below the input. */
  lemma FloorToBounds(x: real, unit: real)
    requires unit > 0.0
    ensures OnGrid(FloorTo(x, unit), unit)
    ensures FloorTo(x, unit) <= x < FloorTo(x, unit) + unit
  {
    var q := x / unit;
    var f := Floor(q);
    var lo := f as real * unit;
    assert q * unit == x;
    MulLe(f as real, q, unit);
    MulLt(q, f as real + 1.0, unit);
    assert (f as real + 1.0) * unit == lo + unit;
    assert x < lo + unit;
    assert FloorTo(x, unit) == lo;
  }

  /** Ceiling to a grid lands on the grid, less than one unit above the input. */
  lemma CeilToBounds(x: real, unit: real)
    requires unit > 0.0
    ensures OnGrid(CeilTo(x, unit), unit)
    ensures x <= CeilTo(x, unit) < x + unit
  {
    // ceil(x / unit) == -floor(-x / unit), so this is FloorToBounds of -x
    var f := FloorTo(-x, unit);
    FloorToBounds(-x, unit);
    assert -x / unit == -(x / unit);
    assert CeilTo(x, unit) == -f;
    var k :| Multiple(k, unit) == f;
    assert Multiple(-k, unit) == -f;
  }

  /** No grid point lies strictly between the floor and the input. */
  lemma FloorToGreatest(x: real, unit: real, k: int)
    requires unit > 0.0 && Multiple(k, unit) <= x
    ensures Multiple(k, unit) <= FloorTo(x, unit)
  {
    DivLe(Multiple(k, unit), x, unit);
    assert Multiple(k, unit) / unit == k as real;
    assert k <= Floor(x / unit);
    MulLe(k as real, Floor(x / unit) as real, unit);
  }

  /** Grid points are fixed by flooring. */
  lemma FloorToOnGrid(x: real, unit: real)
    requires unit > 0.0 && OnGrid(x, unit)
    ensures FloorTo(x, unit) == x
  {
    var k :| Multiple(k, unit) == x;
    assert x / unit == k as real;
  }

  // ---------------------------------------------------------------------------
  // The three steps of conform_to_filters

  /** Price: floored to the tick (when the tick is positive), then raised to
      minPrice when it fell below it. */
  function ConformPrice(rule: Rule, price: real): (p: real)
    ensures rule.minPrice > 0.0 ==> p >= rule.minPrice
    ensures p > price ==> p == rule.minPrice
    ensures rule.tickSize > 0.0 ==>
              (OnGrid(p, rule.tickSize) && p <= price < p + rule.tickSize) ||
              (rule.minPrice > 0.0 && p == rule.minPrice && price - rule.tickSize < p)
    ensures rule.tickSize <= 0.0 ==> p == price || p == rule.minPrice
    ensures price >= 0.0 ==> p >= 0.0
  {
    var floored := if rule.tickSize > 0.0 then FloorToBounds(price, rule.tickSize); FloorTo(price, rule.tickSize)
                   else price;
    if rule.minPrice > 0.0 && floored < rule.minPrice then rule.minPrice else floored
  }

  /** Quantity: floored to the step (when the step is positive), then raised to
      minQty when it fell below it. */
  function StepQty(rule: Rule, qty: real): (q: real)
    ensures rule.minQty > 0.0 ==> q >= rule.minQty
    ensures q > qty ==> q == rule.minQty
    ensures rule.stepSize > 0.0 ==>
              (OnGrid(q, rule.stepSize) && q <= qty < q + rule.stepSize) ||
              (rule.minQty > 0.0 && q == rule.minQty && qty - rule.stepSize < q)
    ensures rule.stepSize <= 0.0 ==> q == qty || q == rule.minQty
  {
    var floored := if rule.stepSize > 0.0 then FloorToBounds(qty, rule.stepSize); FloorTo(qty, rule.stepSize)
                   else qty;
    if rule.minQty > 0.0 && floored < rule.minQty then rule.minQty else floored
  }

  /** Notional floor: when `price * q` is short of minNotional the quantity is
      replaced by the least step multiple reaching `minNotional / max(price, 1e-12)`
      (or by that amount itself when there is no step). */
  function LiftForNotional(rule: Rule, price: real, q: real): (r: real)
    ensures price * q >= rule.minNotional ==> r == q
    ensures price >= MinDivisor ==> price * r >= rule.minNotional
    ensures price * q < rule.minNotional && rule.stepSize > 0.0 ==>
              OnGrid(r, rule.stepSize) &&
              r >= rule.minNotional / Max(price, MinDivisor) &&
              r - rule.stepSize < rule.minNotional / Max(price, MinDivisor)
    ensures price * q < rule.minNotional && rule.stepSize <= 0.0 ==>
              r >= q && r >= rule.minNotional / Max(price, MinDivisor)
  {
    if price * q < rule.minNotional then
      var need := rule.minNotional / Max(price, MinDivisor);
      var r := if rule.stepSize > 0.0 then CeilToBounds(need, rule.stepSize); CeilTo(need, rule.stepSize)
               else Max(q, need);
      if price >= MinDivisor then ReachesNotional(price, rule.minNotional, r); r
      else r
    else q
  }

  lemma ReachesNotional(price: real, minNotional: real, r: real)
    requires price > 0.0 && r >= minNotional / price
    ensures price * r >= minNotional
  {
    MulLe(minNotional / price, r, price);
  }

  /** Price and quantity conformed together; the notional step never touches
      the price, and the precisions are the cached ones. */
  function ConformWith(rule: Rule, price: real, qty: real): (c: Conformed)
    ensures c.price == ConformPrice(rule, price)
    ensures c.qty == LiftForNotional(rule, c.price, StepQty(rule, qty))
    ensures c.pricePrecision == rule.pricePrecision && c.quantityPrecision == rule.quantityPrecision
  {
    var p := ConformPrice(rule, price);
    Conformed(p, LiftForNotional(rule, p, StepQty(rule, qty)), rule.pricePrecision, rule.quantityPrecision)
  }

  // ---------------------------------------------------------------------------
  // Cache lookup with one forced refresh

  /** Looks the symbol up; on a miss the cache is replaced by the refreshed rule
      set (`refreshed` is `None` when that fetch failed and the old cache stays),
      and the symbol is looked up once more. */
  function ResolveRule(cache: Cache, refreshed: Option<Cache>, symbol: string): (r: (Cache, Option<Rule>))
    ensures symbol in cache ==> r == (cache, Some(cache[symbol]))
    ensures symbol !in cache ==> r.0 == (if refreshed.Some? then refreshed.value else cache)
    ensures r.1.Some? <==> symbol in r.0
    ensures r.1.Some? ==> r.1.value == r.0[symbol]
  {
    if symbol in cache then (cache, Some(cache[symbol]))
    else
      var c := if refreshed.Some? then refreshed.value else cache;
      (c, if symbol in c then Some(c[symbol]) else None)
  }

  /** `conform_to_filters`: the cache after the call and the conformed values,
      or the error raised for a symbol still unknown after the refresh. */
  function ConformToFilters(cache: Cache, refreshed: Option<Cache>, symbol: string, price: real, qty: real)
    : (r: (Cache, Result<Conformed>))
    ensures symbol in cache ==> r.0 == cache && r.1 == Ok(ConformWith(cache[symbol], price, qty))
    ensures symbol !in cache ==> r.0 == (if refreshed.Some? then refreshed.value else cache)
    ensures r.1.Err? <==> symbol !in r.0
    ensures r.1.Ok? ==> r.1.value == ConformWith(r.0[symbol], price, qty)
  {
    var (c, rule) := ResolveRule(cache, refreshed, symbol);
    match rule
    case None => (c, Err("symbol not found in exchange info after refresh"))
    case Some(ru) => (c, Ok(ConformWith(ru, price, qty)))
  }

  // ---------------------------------------------------------------------------
  // Fixed points

  lemma PriceFixedPoint(rule: Rule, price: real)
    ensures ConformPrice(rule, ConformPrice(rule, price)) == ConformPrice(rule, price)
  {
    var p := ConformPrice(rule, price);
    if rule.tickSize > 0.0 {
      var f := FloorTo(p, rule.tickSize);
      FloorToBounds(p, rule.tickSize);
      assert ConformPrice(rule, p) == if rule.minPrice > 0.0 && f < rule.minPrice then rule.minPrice else f;
      if OnGrid(p, rule.tickSize) {
        FloorToOnGrid(p, rule.tickSize);
      }
    }
  }

  lemma QtyFixedPoint(rule: Rule, qty: real)
    ensures StepQty(rule, StepQty(rule, qty)) == StepQty(rule, qty)
  {
    var q := StepQty(rule, qty);
    if rule.stepSize > 0.0 {
      var f := FloorTo(q, rule.stepSize);
      FloorToBounds(q, rule.stepSize);
      assert StepQty(rule, q) == if rule.minQty > 0.0 && f < rule.minQty then rule.minQty else f;
      if OnGrid(q, rule.stepSize) {
        FloorToOnGrid(q, rule.stepSize);
      }
    }
  }

  /** A lifted quantity survives the step/minQty pass unchanged. */
  lemma LiftedSurvivesStep(rule: Rule, p: real, q1: real)
    requires p >= 0.0
    requires q1 == StepQty(rule, q1)
    requires p * q1 < rule.minNotional
    ensures LiftForNotional(rule, p, StepQty(rule, LiftForNotional(rule, p, q1))) == LiftForNotional(rule, p, q1)
  {
    if rule.stepSize > 0.0 {
      LiftedSurvivesGridStep(rule, p, q1);
    } else {
      var big := LiftForNotional(rule, p, q1);
      assert big >= q1;
      assert StepQty(rule, big) == big;
      LiftOfLifted(rule, p, q1, big);
    }
  }

  /** The positive-step case: the lifted quantity is a grid point, so the
      step pass keeps it unless it falls under minQty, and then the notional
      is still short and the lift lands on the same grid point again. */
  lemma LiftedSurvivesGridStep(rule: Rule, p: real, q1: real)
    requires p >= 0.0 && rule.stepSize > 0.0
    requires q1 == StepQty(rule, q1)
    requires p * q1 < rule.minNotional
    ensures LiftForNotional(rule, p, StepQty(rule, LiftForNotional(rule, p, q1))) == LiftForNotional(rule, p, q1)
  {
    var big := LiftForNotional(rule, p, q1);
    var q2 := StepQty(rule, big);
    assert OnGrid(big, rule.stepSize);
    StepOfGridPoint(rule, big);
    if q2 == big {
      LiftOfLifted(rule, p, q1, big);
    } else {
      MinQtyStillShort(rule, p, q1);
    }
  }

  /** When the lifted quantity falls under minQty, the step pass yields minQty,
      which is at most the stepped quantity; so the notional is still short
      and the lift lands on the same grid point. */
  lemma MinQtyStillShort(rule: Rule, p: real, q1: real)
    requires p >= 0.0 && rule.stepSize > 0.0 && rule.minQty > 0.0
    requires q1 == StepQty(rule, q1)
    requires p * q1 < rule.minNotional
    ensures LiftForNotional(rule, p, rule.minQty) == LiftForNotional(rule, p, q1)
  {
    assert rule.minQty <= q1;
    MulLeNonneg(rule.minQty, q1, p);
    LiftIgnoresShortQty(rule, p, q1, rule.minQty);
  }

  /** The step pass keeps a grid point, or raises it to minQty when it lies
      below. */
  lemma StepOfGridPoint(rule: Rule, x: real)
    requires rule.stepSize > 0.0 && OnGrid(x, rule.stepSize)
    ensures StepQty(rule, x) == x ||
            (rule.minQty > 0.0 && x < rule.minQty && StepQty(rule, x) == rule.minQty)
  {
    FloorToOnGrid(x, rule.stepSize);
  }

  /** With a positive step, every quantity short of the notional is lifted to
      the same grid point: the lift does not depend on the quantity. */
  lemma LiftIgnoresShortQty(rule: Rule, p: real, x: real, y: real)
    requires rule.stepSize > 0.0
    requires p * x < rule.minNotional && p * y < rule.minNotional
    ensures LiftForNotional(rule, p, x) == LiftForNotional(rule, p, y)
  {
  }

  /** Lifting an already lifted quantity changes nothing. */
  lemma LiftOfLifted(rule: Rule, p: real, q1: real, big: real)
    requires p * q1 < rule.minNotional && big == LiftForNotional(rule, p, q1)
    ensures LiftForNotional(rule, p, big) == big
  {
    if p * big < rule.minNotional {
      if rule.stepSize > 0.0 {
        LiftIgnoresShortQty(rule, p, q1, big);
      } else {
        assert big >= rule.minNotional / Max(p, MinDivisor);
      }
    }
  }

  lemma MulLeNonneg(a: real, b: real, c: real)
    requires a <= b && c >= 0.0
    ensures c * a <= c * b
  {
  }

  /** The quantity half of idempotence: stepping and lifting a quantity that
      was already stepped and lifted at the same price gives it back. */
  lemma QtyPassFixedPoint(rule: Rule, p: real, qty: real)
    requires p >= 0.0
    ensures var lifted := LiftForNotional(rule, p, StepQty(rule, qty));
            LiftForNotional(rule, p, StepQty(rule, lifted)) == lifted
  {
    var q1 := StepQty(rule, qty);
    var lifted := LiftForNotional(rule, p, q1);
    QtyFixedPoint(rule, qty);
    if p * q1 < rule.minNotional {
      LiftedSurvivesStep(rule, p, q1);
    } else {
      assert lifted == q1;
      assert StepQty(rule, lifted) == q1;
    }
  }

  /** Conforming already conformed values changes nothing: grid values (and the
      minPrice/minQty floors) are fixed points.  Prices are non-negative. */
  lemma ConformIdempotent(rule: Rule, price: real, qty: real)
    requires price >= 0.0
    ensures ConformWith(rule, ConformWith(rule, price, qty).price, ConformWith(rule, price, qty).qty)
            == ConformWith(rule, price, qty)
  {
    var c := ConformWith(rule, price, qty);
    PriceFixedPoint(rule, price);
    QtyPassFixedPoint(rule, c.price, qty);
  }

  /** The same through the cache: a second call on the returned values, with
      the returned cache, returns the same values and leaves the cache alone. */
  lemma ConformToFiltersIdempotent(cache: Cache, refreshed: Option<Cache>, symbol: string, price: real, qty: real)
    requires price >= 0.0
    requires ConformToFilters(cache, refreshed, symbol, price, qty).1.Ok?
    ensures var (c1, r1) := ConformToFilters(cache, refreshed, symbol, price, qty);
            ConformToFilters(c1, refreshed, symbol, r1.value.price, r1.value.qty) == (c1, r1)
  {
    var (c1, r1) := ConformToFilters(cache, refreshed, symbol, price, qty);
    ConformIdempotent(c1[symbol], price, qty);
  }
}

=== FILE: large_trades.dfy ===
/** signal_large_trades_ws.py: aggregate the recent trades of one symbol into
    buy and sell volume with quantity-weighted anchor prices, keep a short
    per-symbol history of those volumes, and signal a side whose volume beats
    a gate (a percentile of its history, or a fixed amount). */
module LargeTrades {
  import opened Base
  import opened Series

  // ---------------------------------------------------------------------
  // _percentile

  predicate SortedAsc(s: seq<real>) {
    forall i, j :: 0 <= i < j < |s| ==> s[i] <= s[j]
  }

  function InsertAsc(x: real, s: seq<real>): (r: seq<real>)
    requires SortedAsc(s)
    ensures SortedAsc(r)
    ensures multiset(r) == multiset(s) + multiset{x}
    ensures |r| == |s| + 1
    decreases |s|
  {
    if |s| == 0 then [x]
    else if x <= s[0] then [x] + s
    else
      var tail := InsertAsc(x, s[1..]);
      InsertAscStep(x, s, tail);
      [s[0]] + tail
  }

  /** Putting the head back in front of a sorted insertion into the rest
      keeps the order, since every element there is at least the head. */
  lemma InsertAscStep(x: real, s: seq<real>, tail: seq<real>)
    requires SortedAsc(s) && |s| > 0 && s[0] < x
    requires SortedAsc(tail) && multiset(tail) == multiset(s[1..]) + multiset{x}
    ensures SortedAsc([s[0]] + tail)
    ensures multiset([s[0]] + tail) == multiset(s) + multiset{x}
  {
    assert s == [s[0]] + s[1..];
    forall k | 0 <= k < |tail| ensures s[0] <= tail[k] {
      assert tail[k] in multiset(tail);
      if tail[k] != x {
        assert tail[k] in multiset(s[1..]);
        var j :| 0 <= j < |s[1..]| && s[1..][j] == tail[k];
        assert s[j + 1] == tail[k];
      }
    }
  }

  /** `sorted(vals)`. */
  function SortAsc(vals: seq<real>): (s: seq<real>)
    ensures SortedAsc(s)
    ensures multiset(s) == multiset(vals)
    ensures |s| == |vals|
    decreases |vals|
  {
    if |vals| == 0 then []
    else
      assert vals == [vals[0]] + vals[1..];
      InsertAsc(vals[0], SortAsc(vals[1..]))
  }

  /** `max(0, min(n - 1, k))`. */
  function ClampIndex(k: int, n: nat): (i: nat)
    requires n > 0
    ensures i < n
    ensures 0 <= k < n ==> i == k
  {
    if k < 0 then 0 else if k > n - 1 then n - 1 else k
  }

  /** `(p / 100) * (n - 1)`: the fractional rank of the `p`th percentile. */
  function RankPosition(p: real, n: nat): real {
    p / 100.0 * (n - 1) as real
  }

  /** `max(0, min(n - 1, int(round((p / 100) * (n - 1)))))`: the rank rounded
      half to even, clamped into the list. */
  function PercentileIndex(p: real, n: nat): (i: nat)
    requires n > 0
    ensures i < n
    ensures var k := RoundHalfEven(RankPosition(p, n));
            (0 <= k < n ==> i == k) && (k < 0 ==> i == 0) && (k >= n ==> i == n - 1)
  {
    ClampIndex(RoundHalfEven(RankPosition(p, n)), n)
  }

  /** `_percentile(vals, p)`: +infinity for an empty list, otherwise the
      element of the sorted list at the rounded rank. */
  function Percentile(vals: seq<real>, p: real): (g: Ext)
    ensures g.PosInf? <==> |vals| == 0
    ensures g.Finite? ==> g.v in vals
    ensures g.Finite? ==> OrderStatistic(vals, PercentileIndex(p, |vals|), g.v)
  {
    if |vals| == 0 then PosInf
    else
      var s := SortAsc(vals);
      var k := PercentileIndex(p, |s|);
      assert s[k] in multiset(vals);
      SortedSplit(s, k);
      OrderStatisticPermuted(s, vals, k, s[k]);
      Finite(s[k])
  }

  /** `x` is the value of rank `k` (from 0) in `vals`: it splits them into `k`
      values at most `x` and the rest at least `x`. */
  ghost predicate OrderStatistic(vals: seq<real>, k: nat, x: real) {
    exists lo: seq<real>, hi: seq<real> ::
      |lo| == k && Split(vals, lo, x, hi) &&
      (forall a :: a in lo ==> a <= x) && (forall b :: b in hi ==> x <= b)
  }

  /** `lo`, `x` and `hi` together are exactly the values of `vals`. */
  predicate Split(vals: seq<real>, lo: seq<real>, x: real, hi: seq<real>) {
    multiset(lo) + multiset{x} + multiset(hi) == multiset(vals)
  }

  /** Rank depends only on the values, not on their order. */
  lemma OrderStatisticPermuted(a: seq<real>, b: seq<real>, k: nat, x: real)
    requires OrderStatistic(a, k, x) && multiset(a) == multiset(b)
    ensures OrderStatistic(b, k, x)
  {
    var lo: seq<real>, hi: seq<real> :| |lo| == k && Split(a, lo, x, hi) &&
      (forall y :: y in lo ==> y <= x) && (forall y :: y in hi ==> x <= y);
    assert Split(b, lo, x, hi);
  }

  /** The element at index `k` of a sorted list is its value of rank `k`. */
  lemma SortedSplit(s: seq<real>, k: nat)
    requires SortedAsc(s) && k < |s|
    ensures OrderStatistic(s, k, s[k])
  {
    var lo, hi := s[..k], s[k + 1..];
    assert s == lo + [s[k]] + hi;
    assert Split(s, lo, s[k], hi);
    forall a | a in lo ensures a <= s[k] {
      var j :| 0 <= j < |lo| && lo[j] == a;
    }
    forall b | b in hi ensures s[k] <= b {
      var j :| 0 <= j < |hi| && hi[j] == b;
      assert hi[j] == s[k + 1 + j];
    }
  }

  /** The fractional rank is at most 0 for p <= 0, at least n - 1 for
      p >= 100, and grows with p. */
  lemma RankPositionBounds(p: real, q: real, n: nat)
    requires n > 0
    ensures p <= 0.0 ==> RankPosition(p, n) <= 0.0
    ensures p >= 100.0 ==> RankPosition(p, n) >= (n - 1) as real
    ensures p <= q ==> RankPosition(p, n) <= RankPosition(q, n)
  {
    var a, c, b := p / 100.0, q / 100.0, (n - 1) as real;
    if p <= 0.0 {
      ScaleNonPositive(a, b);
    }
    if p >= 100.0 {
      ScaleAtLeast(a, b);
    }
    if p <= q {
      ScaleMonotone(a, c, b);
    }
  }

  /** The rank of the 0th percentile (or below) is the first index, and that
      of the 100th (or above) the last. */
  lemma PercentileIndexExtremes(p: real, n: nat)
    requires n > 0
    ensures p <= 0.0 ==> PercentileIndex(p, n) == 0
    ensures p >= 100.0 ==> PercentileIndex(p, n) == n - 1
  {
    RankPositionBounds(p, p, n);
  }

  /** Ranks grow with the percentile. */
  lemma PercentileIndexMonotone(p: real, q: real, n: nat)
    requires n > 0 && p <= q
    ensures PercentileIndex(p, n) <= PercentileIndex(q, n)
  {
    RankPositionBounds(p, q, n);
    RoundHalfEvenMonotone(RankPosition(p, n), RankPosition(q, n));
  }

  /** The 0th percentile (or below) is the smallest value and the 100th (or
      above) the largest. */
  lemma PercentileExtremes(vals: seq<real>, p: real)
    requires |vals| > 0
    ensures p <= 0.0 ==> forall i :: 0 <= i < |vals| ==> Percentile(vals, p).v <= vals[i]
    ensures p >= 100.0 ==> forall i :: 0 <= i < |vals| ==> vals[i] <= Percentile(vals, p).v
  {
    var s := SortAsc(vals);
    var n := |s|;
    var k := PercentileIndex(p, n);
    PercentileIndexExtremes(p, n);
    assert Percentile(vals, p).v == s[k];
    forall i | 0 <= i < |vals| ensures s[0] <= vals[i] <= s[n - 1] {
      InSorted(vals, i);
      SortedEnds(s, vals[i]);
    }
  }

  /** Sorting keeps every value. */
  lemma InSorted(vals: seq<real>, i: nat)
    requires i < |vals|
    ensures vals[i] in SortAsc(vals)
  {
    assert vals[i] in multiset(vals);
  }

  /** The ends of a sorted list bound every member. */
  lemma SortedEnds(s: seq<real>, x: real)
    requires SortedAsc(s) && x in s
    ensures s[0] <= x <= s[|s| - 1]
  {
    var j :| 0 <= j < |s| && s[j] == x;
  }

  lemma ScaleNonPositive(a: real, b: real)
    requires a <= 0.0 && b >= 0.0
    ensures a * b <= 0.0
  {
  }

  lemma ScaleAtLeast(a: real, b: real)
    requires a >= 1.0 && b >= 0.0
    ensures a * b >= b
  {
  }

  lemma ScaleMonotone(a: real, c: real, b: real)
    requires a <= c && b >= 0.0
    ensures a * b <= c * b
  {
  }

  /** A higher percentile never gives a lower gate. */
  lemma PercentileMonotone(vals: seq<real>, p: real, q: real)
    requires |vals| > 0 && p <= q
    ensures Percentile(vals, p).v <= Percentile(vals, q).v
  {
    var s := SortAsc(vals);
    var i := PercentileIndex(p, |vals|);
    var j := PercentileIndex(q, |vals|);
    PercentileIndexMonotone(p, q, |s|);
    PercentileOfSorted(vals, p);
    PercentileOfSorted(vals, q);
    SortedAt(s, i, j);
  }

  lemma SortedAt(s: seq<real>, i: nat, j: nat)
    requires SortedAsc(s) && i <= j < |s|
    ensures s[i] <= s[j]
  {
  }

  /** The percentile reads the sorted copy at the rounded rank. */
  lemma PercentileOfSorted(vals: seq<real>, p: real)
    requires |vals| > 0
    ensures Percentile(vals, p) == Finite(SortAsc(vals)[PercentileIndex(p, |vals|)])
  {
  }

  // ---------------------------------------------------------------------
  // Window aggregation

  /** One row of the recent-trades feed: `(ts, px, qty, is_buy)`. */
  datatype Trade = Trade(ts: int, px: real, qty: real, isBuy: bool)

  /** A row is counted on a side when it is not older than the cutoff. */
  predicate Counted(t: Trade, cutoff: int, buy: bool) {
    t.ts >= cutoff && t.isBuy == buy
  }

  /** The rows counted on one side, in feed order. */
  function Kept(rows: seq<Trade>, cutoff: int, buy: bool): (k: seq<Trade>)
    ensures forall i :: 0 <= i < |k| ==> Counted(k[i], cutoff, buy)
    ensures |k| <= |rows|
    decreases |rows|
  {
    if |rows| == 0 then []
    else
      var last := rows[|rows| - 1];
      Kept(rows[..|rows| - 1], cutoff, buy) + (if Counted(last, cutoff, buy) then [last] else [])
  }

  function Qtys(ts: seq<Trade>): (xs: seq<real>)
    ensures |xs| == |ts| && forall i :: 0 <= i < |ts| ==> xs[i] == ts[i].qty
  {
    seq(|ts|, i requires 0 <= i < |ts| => ts[i].qty)
  }

  function Pxs(ts: seq<Trade>): (xs: seq<real>)
    ensures |xs| == |ts| && forall i :: 0 <= i < |ts| ==> xs[i] == ts[i].px
  {
    seq(|ts|, i requires 0 <= i < |ts| => ts[i].px)
  }

  /** The six running sums of the loop: volume, price-times-quantity and
      quantity, for each side. */
  datatype Window = Window(buyQty: real, sellQty: real,
                           buyPxSum: real, buyQSum: real,
                           sellPxSum: real, sellQSum: real)

  /** Reference definition of the sums: over the counted rows of each side. */
  function Aggregate(rows: seq<Trade>, cutoff: int): Window {
    var b := Kept(rows, cutoff, true);
    var s := Kept(rows, cutoff, false);
    Window(Sum(Qtys(b)), Sum(Qtys(s)),
           WeightedSum(Pxs(b), Qtys(b)), Sum(Qtys(b)),
           WeightedSum(Pxs(s), Qtys(s)), Sum(Qtys(s)))
  }

  /** Appending one counted row adds its quantity and price-times-quantity. */
  lemma SumsAppend(ts: seq<Trade>, t: Trade)
    ensures Sum(Qtys(ts + [t])) == Sum(Qtys(ts)) + t.qty
    ensures WeightedSum(Pxs(ts + [t]), Qtys(ts + [t])) == WeightedSum(Pxs(ts), Qtys(ts)) + t.px * t.qty
  {
    var q := Qtys(ts + [t]);
    var p := Pxs(ts + [t]);
    assert q[..|ts|] == Qtys(ts);
    assert p[..|ts|] == Pxs(ts);
  }

  /** The effect of one row on the six sums. */
  function AddRow(w: Window, t: Trade, cutoff: int): Window {
    if t.ts < cutoff then w
    else if t.isBuy then
      w.(buyQty := w.buyQty + t.qty, buyPxSum := w.buyPxSum + t.px * t.qty, buyQSum := w.buyQSum + t.qty)
    else
      w.(sellQty := w.sellQty + t.qty, sellPxSum := w.sellPxSum + t.px * t.qty, sellQSum := w.sellQSum + t.qty)
  }

  /** One side's two sums over a longer prefix: the next row's quantity and
      price-times-quantity are added exactly when it counts on that side. */
  lemma SideStep(rows: seq<Trade>, i: nat, cutoff: int, buy: bool)
    requires i < |rows|
    ensures var k0, k1 := Kept(rows[..i], cutoff, buy), Kept(rows[..i + 1], cutoff, buy);
            var t := rows[i];
            Sum(Qtys(k1)) == Sum(Qtys(k0)) + (if Counted(t, cutoff, buy) then t.qty else 0.0) &&
            WeightedSum(Pxs(k1), Qtys(k1)) == WeightedSum(Pxs(k0), Qtys(k0)) + (if Counted(t, cutoff, buy) then t.px * t.qty else 0.0)
  {
    var k0 := Kept(rows[..i], cutoff, buy);
    KeptStep(rows, i, cutoff, buy);
    if Counted(rows[i], cutoff, buy) {
      SumsAppend(k0, rows[i]);
    } else {
      assert Kept(rows[..i + 1], cutoff, buy) == k0;
    }
  }

  /** The reference sums of a longer prefix are those of the shorter one with
      the next row added. */
  lemma AggregateStep(rows: seq<Trade>, i: nat, cutoff: int)
    requires i < |rows|
    ensures Aggregate(rows[..i + 1], cutoff) == AddRow(Aggregate(rows[..i], cutoff), rows[i], cutoff)
  {
    SideStep(rows, i, cutoff, true);
    SideStep(rows, i, cutoff, false);
  }

  /** The sums with every row of the feed added in order. */
  function Fold(rows: seq<Trade>, cutoff: int): Window
    decreases |rows|
  {
    if |rows| == 0 then Window(0.0, 0.0, 0.0, 0.0, 0.0, 0.0)
    else AddRow(Fold(rows[..|rows| - 1], cutoff), rows[|rows| - 1], cutoff)
  }

  lemma FoldStep(rows: seq<Trade>, i: nat, cutoff: int)
    requires i < |rows|
    ensures Fold(rows[..i + 1], cutoff) == AddRow(Fold(rows[..i], cutoff), rows[i], cutoff)
  {
    assert rows[..i + 1][..i] == rows[..i];
  }

  /** Adding the rows one by one gives the reference sums over the counted
      rows of each side. */
  lemma {:induction false} FoldIsAggregate(rows: seq<Trade>, cutoff: int)
    ensures Fold(rows, cutoff) == Aggregate(rows, cutoff)
    decreases |rows|
  {
    if |rows| > 0 {
      var n := |rows| - 1;
      assert rows[..n + 1] == rows;
      FoldIsAggregate(rows[..n], cutoff);
      AggregateStep(rows, n, cutoff);
    }
  }

  /** The loop of `large_trades_signal_ws`: one pass over the rows, skipping
      those older than the cutoff. */
  method AggregateRows(rows: seq<Trade>, cutoff: int) returns (w: Window)
    ensures w == Aggregate(rows, cutoff)
  {
    var buyQty, sellQty := 0.0, 0.0;
    var buyPxSum, buyQSum := 0.0, 0.0;
    var sellPxSum, sellQSum := 0.0, 0.0;
    var i := 0;
    while i < |rows|
      invariant 0 <= i <= |rows|
      invariant Window(buyQty, sellQty, buyPxSum, buyQSum, sellPxSum, sellQSum) == Fold(rows[..i], cutoff)
    {
      var t := rows[i];
      ghost var before := Window(buyQty, sellQty, buyPxSum, buyQSum, sellPxSum, sellQSum);
      FoldStep(rows, i, cutoff);
      if t.ts >= cutoff {
        if t.isBuy {
          buyQty := buyQty + t.qty;
          buyPxSum := buyPxSum + t.px * t.qty;
          buyQSum := buyQSum + t.qty;
        } else {
          sellQty := sellQty + t.qty;
          sellPxSum := sellPxSum + t.px * t.qty;
          sellQSum := sellQSum + t.qty;
        }
      }
      assert Window(buyQty, sellQty, buyPxSum, buyQSum, sellPxSum, sellQSum) == AddRow(before, t, cutoff);
      i := i + 1;
    }
    assert rows[..|rows|] == rows;
    w := Window(buyQty, sellQty, buyPxSum, buyQSum, sellPxSum, sellQSum);
    FoldIsAggregate(rows, cutoff);
  }

  /** One more row of the feed is kept on a side exactly when it counts there. */
  lemma KeptStep(rows: seq<Trade>, i: nat, cutoff: int, buy: bool)
    requires i < |rows|
    ensures Kept(rows[..i + 1], cutoff, buy) ==
              Kept(rows[..i], cutoff, buy) + (if Counted(rows[i], cutoff, buy) then [rows[i]] else [])
  {
    assert rows[..i + 1][..i] == rows[..i];
    assert rows[..i + 1][i] == rows[i];
  }

  /** Counting distributes over concatenation of the feed. */
  lemma {:induction false} KeptConcat(a: seq<Trade>, b: seq<Trade>, cutoff: int, buy: bool)
    ensures Kept(a + b, cutoff, buy) == Kept(a, cutoff, buy) + Kept(b, cutoff, buy)
    decreases |b|
  {
    if |b| == 0 {
      assert a + b == a;
    } else {
      var n := |b| - 1;
      assert (a + b)[..|a + b| - 1] == a + b[..n];
      assert (a + b)[|a + b| - 1] == b[n];
      KeptConcat(a, b[..n], cutoff, buy);
    }
  }

  /** A row older than the cutoff changes nothing, wherever it sits in the feed. */
  lemma StaleRowIgnored(a: seq<Trade>, t: Trade, b: seq<Trade>, cutoff: int)
    requires t.ts < cutoff
    ensures Aggregate(a + [t] + b, cutoff) == Aggregate(a + b, cutoff)
  {
    forall buy: bool ensures Kept(a + [t] + b, cutoff, buy) == Kept(a + b, cutoff, buy) {
      KeptConcat(a + [t], b, cutoff, buy);
      KeptConcat(a, [t], cutoff, buy);
      KeptConcat(a, b, cutoff, buy);
      assert [t][..0] == [];
    }
  }

  /** `px_sum / q_sum if q_sum > 0 else None`. */
  function Anchor(pxSum: real, qSum: real): (a: Option<real>)
    ensures a.Some? <==> qSum > 0.0
    ensures a.Some? ==> a.value * qSum == pxSum
  {
    if qSum > 0.0 then Some(pxSum / qSum) else None
  }

  /** With non-negative quantities, a side's anchor is a price that lies
      between the lowest and highest price counted on that side. */
  lemma AnchorWithinPrices(rows: seq<Trade>, cutoff: int, buy: bool)
    requires forall i :: 0 <= i < |rows| ==> rows[i].qty >= 0.0
    requires Sum(Qtys(Kept(rows, cutoff, buy))) > 0.0
    ensures var k := Kept(rows, cutoff, buy);
            |k| > 0 &&
            MinOf(Pxs(k)) <= Anchor(WeightedSum(Pxs(k), Qtys(k)), Sum(Qtys(k))).value <= MaxOf(Pxs(k))
  {
    var k := Kept(rows, cutoff, buy);
    var ps, qs := Pxs(k), Qtys(k);
    KeptFromRows(rows, cutoff, buy);
    forall i | 0 <= i < |qs| ensures qs[i] >= 0.0 {
      assert k[i] in rows;
    }
    PositiveSumNonEmpty(qs);
    WeightedMeanBounds(ps, qs);
    assert Anchor(WeightedSum(ps, qs), Sum(qs)).value == WeightedSum(ps, qs) / Sum(qs);
  }

  lemma PositiveSumNonEmpty(xs: seq<real>)
    requires Sum(xs) > 0.0
    ensures |xs| > 0
  {
  }

  /** Every kept row is one of the feed's rows. */
  lemma {:induction false} KeptFromRows(rows: seq<Trade>, cutoff: int, buy: bool)
    ensures forall t :: t in Kept(rows, cutoff, buy) ==> t in rows
    decreases |rows|
  {
    if |rows| > 0 {
      KeptFromRows(rows[..|rows| - 1], cutoff, buy);
    }
  }

  // ---------------------------------------------------------------------
  // History and gates

  /** Maximum length of each history deque. */
  const HistoryLen: nat := 500
  /** Seconds between two history samples. */
  const HistoryEvery: real := 1.0

  /** `_hist_buy[symbol]`, `_hist_sell[symbol]`, `_last_hist_at[symbol]`. */
  datatype History = History(buy: seq<real>, sell: seq<real>, lastAt: real)

  /** What a `defaultdict` hands out for a new symbol. */
  const FreshHistory: History := History([], [], 0.0)

  function HistoryOf(hs: map<string, History>, symbol: string): History {
    if symbol in hs then hs[symbol] else FreshHistory
  }

  /** `deque(maxlen=500).append(x)`: the oldest value falls out of a full deque. */
  function Push(d: seq<real>, x: real): (r: seq<real>)
    requires |d| <= HistoryLen
    ensures |r| <= HistoryLen && |r| > 0 && r[|r| - 1] == x
    ensures r[..|r| - 1] == (if |d| == HistoryLen then d[1..] else d)
    ensures |d| < HistoryLen ==> |r| == |d| + 1
  {
    var r := if |d| == HistoryLen then d[1..] + [x] else d + [x];
    assert r[..|r| - 1] == (if |d| == HistoryLen then d[1..] else d);
    r
  }

  predicate HistoryValid(h: History) {
    |h.buy| <= HistoryLen && |h.sell| <= HistoryLen
  }

  /** The history sample: at most one sample per second, and only positive volumes. */
  function Sample(h: History, w: Window, now: real): (r: History)
    requires HistoryValid(h)
    ensures HistoryValid(r)
    ensures now - h.lastAt <= HistoryEvery ==> r == h
    ensures now - h.lastAt > HistoryEvery ==>
              r.lastAt == now &&
              (w.buyQty > 0.0 ==> r.buy == Push(h.buy, w.buyQty)) &&
              (w.buyQty <= 0.0 ==> r.buy == h.buy) &&
              (w.sellQty > 0.0 ==> r.sell == Push(h.sell, w.sellQty)) &&
              (w.sellQty <= 0.0 ==> r.sell == h.sell)
  {
    if now - h.lastAt > HistoryEvery then
      History(if w.buyQty > 0.0 then Push(h.buy, w.buyQty) else h.buy,
              if w.sellQty > 0.0 then Push(h.sell, w.sellQty) else h.sell,
              now)
    else h
  }

  /** The feature's settings, which the configuration file would provide. */
  datatype Settings = Settings(enabled: bool, mergeS: int, mode: string,
                               buyPct: real, sellPct: real,
                               buyAbs: Option<real>, sellAbs: Option<real>,
                               drift: real)

  const PercentileMode: string := "Percentile"

  /** `gate or math.inf`: a missing or zero gate never lets a signal through. */
  function Effective(gate: Option<Ext>): (g: Ext)
    ensures g.Finite? ==> gate == Some(g) && g.v != 0.0
    ensures gate.Some? && gate.value != Finite(0.0) ==> g == gate.value
    ensures gate.None? || gate == Some(Finite(0.0)) ==> g.PosInf?
  {
    if gate.None? || gate == Some(Finite(0.0)) then PosInf else gate.value
  }

  predicate Exceeds(vol: real, gate: Ext) {
    gate.Finite? && vol > gate.v
  }

  /** The dict returned: nothing when disabled, two false signals without
      rows, and otherwise the signals with the numbers behind them. */
  datatype Verdict =
    | Disabled
    | NoRows
    | Signals(buySignal: bool, sellSignal: bool, buyVol: real, sellVol: real,
              buyAnchor: Option<real>, sellAnchor: Option<real>,
              buyGate: Option<Ext>, sellGate: Option<Ext>)

  /** The gates: percentiles of the sampled history, or the fixed gates. */
  function Gates(cfg: Settings, h: History): (gs: (Option<Ext>, Option<Ext>))
    ensures cfg.mode == PercentileMode ==>
              gs.0 == Some(Percentile(h.buy, cfg.buyPct)) && gs.1 == Some(Percentile(h.sell, cfg.sellPct))
    ensures cfg.mode != PercentileMode ==>
              gs.0 == (if cfg.buyAbs.Some? then Some(Finite(cfg.buyAbs.value)) else None) &&
              gs.1 == (if cfg.sellAbs.Some? then Some(Finite(cfg.sellAbs.value)) else None)
  {
    if cfg.mode == PercentileMode then (Some(Percentile(h.buy, cfg.buyPct)), Some(Percentile(h.sell, cfg.sellPct)))
    else (if cfg.buyAbs.Some? then Some(Finite(cfg.buyAbs.value)) else None,
          if cfg.sellAbs.Some? then Some(Finite(cfg.sellAbs.value)) else None)
  }

  /** The verdict: a side signals exactly when its volume strictly beats a
      non-zero gate and it has an anchor, i.e. some positive counted quantity. */
  function Judge(w: Window, bg: Option<Ext>, sg: Option<Ext>): (v: Verdict)
    ensures v.Signals? && v.buyVol == w.buyQty && v.sellVol == w.sellQty
    ensures v.buyGate == bg && v.sellGate == sg
    ensures v.buySignal <==> Exceeds(w.buyQty, Effective(bg)) && w.buyQSum > 0.0
    ensures v.sellSignal <==> Exceeds(w.sellQty, Effective(sg)) && w.sellQSum > 0.0
    ensures v.buySignal ==> bg.Some? && bg.value.Finite? && bg.value.v != 0.0 && w.buyQty > bg.value.v
    ensures v.sellSignal ==> sg.Some? && sg.value.Finite? && sg.value.v != 0.0 && w.sellQty > sg.value.v
    ensures v.buyAnchor == Anchor(w.buyPxSum, w.buyQSum) && v.sellAnchor == Anchor(w.sellPxSum, w.sellQSum)
  {
    var ba := Anchor(w.buyPxSum, w.buyQSum);
    var sa := Anchor(w.sellPxSum, w.sellQSum);
    Signals(Exceeds(w.buyQty, Effective(bg)) && ba.Some?, Exceeds(w.sellQty, Effective(sg)) && sa.Some?,
            w.buyQty, w.sellQty, ba, sa, bg, sg)
  }

  /** `large_trades_signal_ws(symbol)`: `rows` is what the recent-trades feed
      returned, `nowMs` the millisecond clock and `now` the second clock. */
  function LargeTradesSignal(cfg: Settings, hs: map<string, History>, symbol: string,
                             rows: seq<Trade>, nowMs: int, now: real): (r: (Verdict, map<string, History>))
    requires HistoryValid(HistoryOf(hs, symbol))
    ensures !cfg.enabled ==> r == (Disabled, hs)
    ensures cfg.enabled && |rows| == 0 ==> r == (NoRows, hs)
    ensures HistoryValid(HistoryOf(r.1, symbol))
    ensures forall s :: s != symbol ==> HistoryOf(r.1, s) == HistoryOf(hs, s)
  {
    if !cfg.enabled then (Disabled, hs)
    else if |rows| == 0 then (NoRows, hs)
    else
      var cutoff := nowMs - cfg.mergeS * 1000;
      var w := Aggregate(rows, cutoff);
      var h := Sample(HistoryOf(hs, symbol), w, now);
      var (bg, sg) := Gates(cfg, h);
      (Judge(w, bg, sg),
       hs[symbol := h])
  }

  /** With rows present, the verdict is the judgement of the window's sums
      against the gates of the just-sampled history: each side signals
      exactly when its volume over the rows no older than `mergeS` seconds
      strictly beats a non-zero gate and some positive quantity was counted
      on it, and carries that side's anchor.  The history is sampled first,
      so in percentile mode the gate already includes this window's volume
      when a sample was due; in any other mode the gates are the absolute
      settings. */
  lemma SignalMeaning(cfg: Settings, hs: map<string, History>, symbol: string,
                      rows: seq<Trade>, nowMs: int, now: real)
    requires HistoryValid(HistoryOf(hs, symbol))
    requires cfg.enabled && |rows| > 0
    ensures var r := LargeTradesSignal(cfg, hs, symbol, rows, nowMs, now);
            var v := r.0;
            var w := Aggregate(rows, nowMs - cfg.mergeS * 1000);
            v.Signals? && v.buyVol == w.buyQty && v.sellVol == w.sellQty &&
            (v.buySignal <==> Exceeds(w.buyQty, Effective(v.buyGate)) && w.buyQSum > 0.0) &&
            (v.sellSignal <==> Exceeds(w.sellQty, Effective(v.sellGate)) && w.sellQSum > 0.0) &&
            v.buyAnchor == Anchor(w.buyPxSum, w.buyQSum) && v.sellAnchor == Anchor(w.sellPxSum, w.sellQSum) &&
            HistoryOf(r.1, symbol) == Sample(HistoryOf(hs, symbol), w, now) &&
            r.0 == Judge(w, Gates(cfg, HistoryOf(r.1, symbol)).0, Gates(cfg, HistoryOf(r.1, symbol)).1) &&
            (cfg.mode != PercentileMode ==>
               v.buyGate == (if cfg.buyAbs.Some? then Some(Finite(cfg.buyAbs.value)) else None) &&
               v.sellGate == (if cfg.sellAbs.Some? then Some(Finite(cfg.sellAbs.value)) else None)) &&
            (cfg.mode == PercentileMode ==>
               v.buyGate == Some(Percentile(HistoryOf(r.1, symbol).buy, cfg.buyPct)) &&
               v.sellGate == Some(Percentile(HistoryOf(r.1, symbol).sell, cfg.sellPct)))
  {
    var w := Aggregate(rows, nowMs - cfg.mergeS * 1000);
    var h := Sample(HistoryOf(hs, symbol), w, now);
    var gs := Gates(cfg, h);
    assert LargeTradesSignal(cfg, hs, symbol, rows, nowMs, now) == (Judge(w, gs.0, gs.1), hs[symbol := h]);
  }

  /** In percentile mode a symbol whose buy history is empty gives no buy
      signal, whatever the window: without a due sample the gate is
      infinite, and with one the history holds just this window's volume,
      which cannot strictly beat itself.  So even the first sampled window
      never signals. */
  lemma EmptyHistoryNeverSignals(cfg: Settings, hs: map<string, History>, symbol: string,
                                 rows: seq<Trade>, nowMs: int, now: real)
    requires HistoryValid(HistoryOf(hs, symbol))
    requires cfg.enabled && |rows| > 0 && cfg.mode == PercentileMode
    requires HistoryOf(hs, symbol).buy == []
    ensures !LargeTradesSignal(cfg, hs, symbol, rows, nowMs, now).0.buySignal
  {
    var w := Aggregate(rows, nowMs - cfg.mergeS * 1000);
    SignalMeaning(cfg, hs, symbol, rows, nowMs, now);
    FirstSampleGate(HistoryOf(hs, symbol), w, now, cfg.buyPct);
  }

  /** Sampling into an empty buy history leaves a gate no volume of this
      window strictly beats: infinite, or the window's own volume. */
  lemma FirstSampleGate(h: History, w: Window, now: real, p: real)
    requires HistoryValid(h) && h.buy == []
    ensures var g := Percentile(Sample(h, w, now).buy, p);
            g.PosInf? || g == Finite(w.buyQty)
  {
    var b := Sample(h, w, now).buy;
    if b != [] {
      assert b == [w.buyQty];
      PercentileOfSorted(b, p);
      SingletonSorted(w.buyQty);
    }
  }

  /** A single value sorts to itself. */
  lemma SingletonSorted(x: real)
    ensures SortAsc([x]) == [x]
  {
    assert multiset(SortAsc([x])) == multiset{x};
    assert SortAsc([x])[0] in multiset(SortAsc([x]));
  }

  /** `near_anchor_ok(price, anchor)`. */
  predicate NearAnchorOk(price: real, anchor: Option<real>, drift: real) {
    if anchor.None? || anchor.value == 0.0 || price == 0.0 then false
    else anchor.value * (1.0 - drift) <= price <= anchor.value * (1.0 + drift)
  }

  /** For a positive anchor and a non-zero price, being near means being
      within `drift` of the anchor, relative to the anchor; a missing or zero
      anchor, or a zero price, is never near. */
  lemma NearAnchorMeaning(price: real, anchor: Option<real>, drift: real)
    ensures anchor.None? || anchor == Some(0.0) || price == 0.0 ==> !NearAnchorOk(price, anchor, drift)
    ensures anchor.Some? && anchor.value > 0.0 && price != 0.0 ==>
              (NearAnchorOk(price, anchor, drift) <==> Abs(price - anchor.value) <= drift * anchor.value)
  {
  }
}

=== FILE: live_adapter.dfy ===
/** `LiveAdapter` of adapters.py: the stop-limit entry, the wait for its fill,
    the two closing orders, and the status-driven close.  Every venue answer
    is an input; every request the adapter sends is recorded in order. */
module LiveAdapter {
  import opened Base
  import opened RiskFrame
  import opened StopLimit
  import opened Positions

  /** A request sent to the venue. */
  datatype Request =
    | NewEntry(symbol: string, side: string, qty: real, price: real, stopPrice: real)  // type STOP (stop-limit)
    | NewExit(symbol: string, side: string, kind: string, stopPrice: real)              // closePosition=true
    | Query(symbol: string, orderId: string)
    | Cancel(symbol: string, orderId: string)

  /** The venue's answer to an order query: the request raised, or the
      `status` field (`None` when it is absent). */
  datatype Answer = Raised | Status(status: Option<string>)

  const Filled: string := "FILLED"
  const TakeProfitMarket: string := "TAKE_PROFIT_MARKET"
  const StopMarket: string := "STOP_MARKET"

  /** Entry statuses that end the wait without a fill. */
  predicate EndedUnfilled(a: Answer) {
    a.Status? && a.status.Some? && a.status.value in {"CANCELED", "EXPIRED", "REJECTED"}
  }

  predicate IsFilled(a: Answer) {
    a == Status(Some(Filled))
  }

  /** An answer that stops the wait: a fill, an unfilled end, or a raise. */
  predicate Decisive(a: Answer) {
    a.Raised? || IsFilled(a) || EndedUnfilled(a)
  }

  /** BUY opens a LONG, SELL a SHORT; the closing orders take the other side. */
  function EntrySide(side: string): string {
    if side == LONG then "BUY" else "SELL"
  }

  function ExitSide(side: string): string {
    if side == LONG then "SELL" else "BUY"
  }

  // ---------------------------------------------------------------------------
  // Waiting for the entry fill

  /** How the wait ended: filled, ended unfilled or ran out of time (both lead
      to the cancel), or a query raised. */
  datatype WaitEnd = WaitFilled | WaitUnfilled | WaitFailed

  /** The queries answered before the deadline are `answers`; the result is how
      the wait ended and how many queries were sent. */
  function AwaitFill(answers: seq<Answer>): (r: (WaitEnd, nat))
    ensures r.1 <= |answers|
    ensures forall j :: 0 <= j < r.1 - 1 ==> !Decisive(answers[j])
    ensures r.0 == WaitFilled ==> r.1 > 0 && IsFilled(answers[r.1 - 1])
    ensures r.0 == WaitFailed ==> r.1 > 0 && answers[r.1 - 1].Raised?
    ensures r.0 == WaitUnfilled ==>
              (r.1 == |answers| && forall j :: 0 <= j < |answers| ==> !Decisive(answers[j])) ||
              (r.1 > 0 && EndedUnfilled(answers[r.1 - 1]))
    decreases |answers|
  {
    if |answers| == 0 then (WaitUnfilled, 0)
    else if answers[0].Raised? then (WaitFailed, 1)
    else if IsFilled(answers[0]) then (WaitFilled, 1)
    else if EndedUnfilled(answers[0]) then (WaitUnfilled, 1)
    else
      var rest := AwaitFill(answers[1..]);
      assert forall j :: 1 <= j < |answers| ==> answers[j] == answers[1..][j - 1];
      (rest.0, rest.1 + 1)
  }

  /** The polling loop itself, as written: query, stop at a fill or an
      unfilled end, otherwise keep polling until the answers run out. */
  method WaitForFill(answers: seq<Answer>) returns (end: WaitEnd, sent: nat)
    ensures (end, sent) == AwaitFill(answers)
  {
    var i := 0;
    while i < |answers|
      invariant 0 <= i <= |answers|
      invariant AwaitFill(answers) == (var r := AwaitFill(answers[i..]); (r.0, r.1 + i))
    {
      assert answers[i..][1..] == answers[i + 1..];
      if answers[i].Raised? {
        return WaitFailed, i + 1;
      }
      if IsFilled(answers[i]) {
        return WaitFilled, i + 1;
      }
      if EndedUnfilled(answers[i]) {
        return WaitUnfilled, i + 1;
      }
      i := i + 1;
    }
    return WaitUnfilled, |answers|;
  }

  // ---------------------------------------------------------------------------
  // place_bracket

  /** What the venue does during one `place_bracket`: the fallback price,
      the entry order id (`None` when the POST raised), the answers to the
      fill queries made before ORDER_TIMEOUT_SEC, whether the cancel of an
      unfilled entry succeeded, and the ids of the two closing orders. */
  datatype PlaceVenue = PlaceVenue(
    bestPrice: Option<real>,
    entryId: Option<string>,
    fillAnswers: seq<Answer>,
    cancelOk: bool,
    tpId: Option<string>,
    slId: Option<string>
  )

  /** The slot after the call, the requests sent, and the entry id or the error raised. */
  datatype PlaceOutcome = PlaceOutcome(slot: Slot, requests: seq<Request>, result: Result<string>)

  function Queries(symbol: string, id: string, n: nat): (qs: seq<Request>)
    ensures |qs| == n && forall j :: 0 <= j < n ==> qs[j] == Query(symbol, id)
  {
    seq(n, _ => Query(symbol, id))
  }

  /** `place_bracket` with the keyword the helper actually takes. */
  function PlaceBracket(slot: Slot, symbol: string, side: string, qty: real, sl: real, tp: real,
                        entry: Option<real>, v: PlaceVenue): (r: PlaceOutcome)
    ensures side != LONG && side != SHORT ==> r == PlaceOutcome(slot, [], Err("side must be LONG/SHORT"))
    ensures r.result.Ok? ==>
              side in {LONG, SHORT} && v.entryId.Some? && v.tpId.Some? && v.slId.Some? &&
              AwaitFill(v.fillAnswers).0 == WaitFilled && r.result.value == v.entryId.value
    ensures r.result.Ok? ==>
              r.slot.Some? && var pos := r.slot.value;
              pos.symbol == symbol && pos.side == side && pos.qty == qty &&
              pos.sl == sl && pos.tp == tp && pos.entry == pos.entryLimit &&
              pos.orders == Some(OrderIds(v.entryId.value, v.tpId.value, v.slId.value))
    ensures r.result.Ok? ==>
              |r.requests| >= 3 && r.requests[0].NewEntry? && r.requests[0].side == EntrySide(side) &&
              r.requests[|r.requests| - 2] == NewExit(symbol, ExitSide(side), TakeProfitMarket, tp) &&
              r.requests[|r.requests| - 1] == NewExit(symbol, ExitSide(side), StopMarket, sl)
    ensures side in {LONG, SHORT} && (entry.Some? || v.bestPrice.Some?) ==>
              var ref := if entry.Some? then entry.value else v.bestPrice.value;
              var px := ComputeStopLimit(ref, side == LONG, StopBuffer, LimitBuffer);
              |r.requests| > 0 && r.requests[0] == NewEntry(symbol, EntrySide(side), qty, px.limit, px.stop) &&
              (r.result.Ok? ==> r.slot.value.entryRef == ref &&
                                StopLimitPx(r.slot.value.entryStop, r.slot.value.entryLimit) == px)
    ensures side in {LONG, SHORT} && entry.None? && v.bestPrice.None? ==>
              r == PlaceOutcome(slot, [], Err("price fetch failed"))
    ensures side in {LONG, SHORT} && (entry.Some? || v.bestPrice.Some?) && v.entryId.Some? &&
            AwaitFill(v.fillAnswers).0 == WaitFilled && v.tpId.Some? && v.slId.Some? ==>
              r.result == Ok(v.entryId.value) && r.slot.Some?
    ensures r.slot != slot ==> r.slot.None? || r.result.Ok?
    ensures r.slot.None? && slot.Some? ==> AwaitFill(v.fillAnswers).0 == WaitUnfilled
    ensures side in {LONG, SHORT} && (entry.Some? || v.bestPrice.Some?) && v.entryId.Some? &&
            AwaitFill(v.fillAnswers).0 == WaitUnfilled ==>
              r.slot.None? && r.result.Err? && |r.requests| > 0 &&
              r.requests[|r.requests| - 1] == Cancel(symbol, v.entryId.value)
  {
    if side != LONG && side != SHORT then PlaceOutcome(slot, [], Err("side must be LONG/SHORT"))
    else if entry.None? && v.bestPrice.None? then PlaceOutcome(slot, [], Err("price fetch failed"))
    else
      var ref := if entry.Some? then entry.value else v.bestPrice.value;
      var px := ComputeStopLimit(ref, side == LONG, StopBuffer, LimitBuffer);
      var post := [NewEntry(symbol, EntrySide(side), qty, px.limit, px.stop)];
      if v.entryId.None? then PlaceOutcome(slot, post, Err("entry order rejected"))
      else
        var id := v.entryId.value;
        var (end, sent) := AwaitFill(v.fillAnswers);
        var waited := post + Queries(symbol, id, sent);
        if end == WaitFailed then PlaceOutcome(slot, waited, Err("order query failed"))
        else if end == WaitUnfilled then
          PlaceOutcome(None, waited + [Cancel(symbol, id)],
                       Err(if v.cancelOk then "TimeoutError: entry not filled; canceled" else "cancel failed"))
        else
          var tpReq := [NewExit(symbol, ExitSide(side), TakeProfitMarket, tp)];
          if v.tpId.None? then PlaceOutcome(slot, waited + tpReq, Err("take-profit order rejected"))
          else
            var slReq := [NewExit(symbol, ExitSide(side), StopMarket, sl)];
            if v.slId.None? then PlaceOutcome(slot, waited + tpReq + slReq, Err("stop-loss order rejected"))
            else
              var pos := Position(symbol, side, qty, px.limit, sl, tp, ref, px.stop, px.limit,
                                  Some(OrderIds(id, v.tpId.value, v.slId.value)));
              PlaceOutcome(Some(pos), waited + tpReq + slReq, Ok(id))
  }

  /** The closing orders are sent only after the entry reported FILLED: any
      outcome whose requests hold a closing order went through a fill. */
  lemma ExitsOnlyAfterFill(slot: Slot, symbol: string, side: string, qty: real, sl: real, tp: real,
                           entry: Option<real>, v: PlaceVenue)
    ensures var r := PlaceBracket(slot, symbol, side, qty, sl, tp, entry, v);
            (exists j :: 0 <= j < |r.requests| && r.requests[j].NewExit?) ==>
              AwaitFill(v.fillAnswers).0 == WaitFilled && v.entryId.Some?
  {
    var r := PlaceBracket(slot, symbol, side, qty, sl, tp, entry, v);
    if side in {LONG, SHORT} && (entry.Some? || v.bestPrice.Some?) && v.entryId.Some? {
      var id := v.entryId.value;
      var (end, sent) := AwaitFill(v.fillAnswers);
      if end != WaitFilled {
        var ref := if entry.Some? then entry.value else v.bestPrice.value;
        var px := ComputeStopLimit(ref, side == LONG, StopBuffer, LimitBuffer);
        var post := [NewEntry(symbol, EntrySide(side), qty, px.limit, px.stop)];
        var waited := post + Queries(symbol, id, sent);
        assert forall j :: 0 <= j < |waited| ==> !waited[j].NewExit?;
      }
    }
  }

  /** A wait that ends unfilled (timeout, or CANCELED / EXPIRED / REJECTED)
      cancels the entry order and leaves the slot empty, whatever the cancel
      answered. */
  lemma UnfilledEntryIsCancelled(slot: Slot, symbol: string, side: string, qty: real, sl: real, tp: real,
                                 ref: real, v: PlaceVenue)
    requires side == LONG || side == SHORT
    requires v.entryId.Some? && AwaitFill(v.fillAnswers).0 == WaitUnfilled
    ensures var r := PlaceBracket(slot, symbol, side, qty, sl, tp, Some(ref), v);
            r.slot.None? && r.result.Err? &&
            r.requests[|r.requests| - 1] == Cancel(symbol, v.entryId.value) &&
            |r.requests| == 2 + AwaitFill(v.fillAnswers).1
  {
  }

  /** When the take-profit submission raises after the fill, the call fails
      and the slot is left as it was: the filled position is not recorded. */
  lemma FilledButTakeProfitRejected(symbol: string, side: string, qty: real, sl: real, tp: real,
                                    ref: real, v: PlaceVenue)
    requires side == LONG || side == SHORT
    requires v.entryId.Some? && AwaitFill(v.fillAnswers).0 == WaitFilled && v.tpId.None?
    ensures var r := PlaceBracket(None, symbol, side, qty, sl, tp, Some(ref), v);
            r.slot.None? && r.result.Err? && r.requests[0].NewEntry? &&
            r.requests[|r.requests| - 1].NewExit?
  {
  }

  /** `place_bracket` as written: the stop-limit helper is called with a
      keyword argument (`is_bull=`) it does not declare, which raises
      TypeError after the side check and the reference price, before any
      request is sent. */
  function PlaceBracketAsWritten(slot: Slot, symbol: string, side: string, qty: real, sl: real, tp: real,
                                 entry: Option<real>, v: PlaceVenue): (r: PlaceOutcome)
    ensures r.slot == slot && r.requests == [] && r.result.Err?
  {
    if side != LONG && side != SHORT then PlaceOutcome(slot, [], Err("side must be LONG/SHORT"))
    else if entry.None? && v.bestPrice.None? then PlaceOutcome(slot, [], Err("price fetch failed"))
    else PlaceOutcome(slot, [], Err("TypeError: unexpected keyword argument 'is_bull'"))
  }

  /** As written the live adapter never opens a position, even when every
      venue answer is favourable; the corrected call does. */
  lemma AsWrittenNeverOpens(symbol: string, qty: real, sl: real, tp: real, ref: real)
    ensures var v := PlaceVenue(None, Some("1"), [Status(Some(Filled))], true, Some("2"), Some("3"));
            PlaceBracketAsWritten(None, symbol, LONG, qty, sl, tp, Some(ref), v).slot.None? &&
            PlaceBracket(None, symbol, LONG, qty, sl, tp, Some(ref), v).result == Ok("1") &&
            PlaceBracket(None, symbol, LONG, qty, sl, tp, Some(ref), v).slot.Some?
  {
    var v := PlaceVenue(None, Some("1"), [Status(Some(Filled))], true, Some("2"), Some("3"));
    assert AwaitFill(v.fillAnswers) == (WaitFilled, 1);
  }

  // ---------------------------------------------------------------------------
  // poll_and_close_if_hit

  /** Answers to the take-profit query, the stop-loss query and the query of
      the order that did not fill. */
  datatype PollVenue = PollVenue(tp: Answer, sl: Answer, other: Answer)

  datatype LivePoll = LivePoll(result: Result<PollOutcome>, requests: seq<Request>)

  predicate StillWorking(a: Answer) {
    a.Status? && a.status.Some? && a.status.value in {"NEW", "PARTIALLY_FILLED"}
  }

  /** `poll_and_close_if_hit`: closes only on a FILLED closing order (the
      take-profit first), cancels the other one only while it is NEW or
      PARTIALLY_FILLED, and ignores any failure of that clean-up. */
  function Poll(slot: Slot, day: DayState, v: PollVenue, p: RiskParams): (r: LivePoll)
    ensures slot.None? ==> r == LivePoll(Ok(Quiet(slot, day)), [])
    ensures r.result.Ok? && r.result.value.report.Closed? <==>
              slot.Some? && slot.value.orders.Some? && !v.tp.Raised? && !v.sl.Raised? &&
              (IsFilled(v.tp) || IsFilled(v.sl)) && slot.value.entry != 0.0
    ensures r.result.Ok? && r.result.value.report.NoClose? ==> r.result.value == Quiet(slot, day)
    ensures r.result.Ok? && r.result.value.report.Closed? ==>
              var pos := slot.value;
              r.result.value ==
                CloseAt(pos, if IsFilled(v.tp) then pos.tp else pos.sl, if IsFilled(v.tp) then ReasonTp else ReasonSl, day, p)
    ensures (exists j :: 0 <= j < |r.requests| && r.requests[j].Cancel?) <==>
              r.result.Ok? && r.result.value.report.Closed? && StillWorking(v.other)
    ensures r.result.Ok? && r.result.value.report.Closed? && StillWorking(v.other) ==>
              var ids := slot.value.orders.value;
              r.requests[|r.requests| - 1] == Cancel(slot.value.symbol, if IsFilled(v.tp) then ids.slId else ids.tpId)
  {
    if slot.None? then LivePoll(Ok(Quiet(slot, day)), [])
    else
      var pos := slot.value;
      if pos.orders.None? then LivePoll(Err("KeyError: tpId"), [])
      else
        var ids := pos.orders.value;
        var qTp := [Query(pos.symbol, ids.tpId)];
        if v.tp.Raised? then LivePoll(Err("order query failed"), qTp)
        else
          var qBoth := qTp + [Query(pos.symbol, ids.slId)];
          if v.sl.Raised? then LivePoll(Err("order query failed"), qBoth)
          else if !IsFilled(v.tp) && !IsFilled(v.sl) then LivePoll(Ok(Quiet(slot, day)), qBoth)
          else if pos.entry == 0.0 then LivePoll(Err("division by zero"), qBoth)
          else
            var tpFilled := IsFilled(v.tp);
            var otherId := if tpFilled then ids.slId else ids.tpId;
            var cleanup := [Query(pos.symbol, otherId)] + (if StillWorking(v.other) then [Cancel(pos.symbol, otherId)] else []);
            var exit := if tpFilled then pos.tp else pos.sl;
            var reqs := qBoth + cleanup;
            assert !StillWorking(v.other) ==> forall j :: 0 <= j < |reqs| ==> !reqs[j].Cancel?;
            assert StillWorking(v.other) ==> reqs[|reqs| - 1].Cancel?;
            LivePoll(Ok(CloseAt(pos, exit, if tpFilled then ReasonTp else ReasonSl, day, p)), reqs)
  }

  /** A position opened by `PlaceBracket` closes through `Poll` with the
      target or stop it was opened with, and the day books it once. */
  lemma PlacedPositionCloses(symbol: string, side: string, qty: real, sl: real, tp: real, ref: real,
                             v: PlaceVenue, day: DayState, pv: PollVenue, p: RiskParams)
    requires ref > 0.0
    requires PlaceBracket(None, symbol, side, qty, sl, tp, Some(ref), v).result.Ok?
    requires IsFilled(pv.tp) && !pv.sl.Raised?
    ensures var pos := PlaceBracket(None, symbol, side, qty, sl, tp, Some(ref), v).slot;
            var r := Poll(pos, day, pv, p);
            r.result.Ok? && r.result.value.report.Closed? && r.result.value.report.closure.exit == tp &&
            r.result.value.day == OnTradeClose(day, SignedReturn(side, pos.value.entry, tp), p) &&
            !HasOpen(r.result.value.slot)
  {
    StopLimitOrdering(ref, side == LONG, StopBuffer, LimitBuffer);
  }
}

=== FILE: main_loop.dfy ===
/** One pass of the trading loop of main.py and the operator's hotkeys.
    Everything the loop reads from outside — the clock, the day key, the
    movers lists, candles, balances, the exchange-info refresh — is a field of
    `World`; the adapter's two entry points are functions in `Adapter`. */
module MainLoop {
  import opened Base
  import opened RiskFrame
  import opened Positions
  import opened Filters
  import opened Ranking
  import Series
  import VB = VolumeBreakdown
  import SimAdapter

  /** Seconds of global cooldown after an open or a close. */
  const CooldownSec: real := 3.0
  /** Seconds a symbol is blocked after an order was sent for it. */
  const ReentryBlockSec: real := 45.0
  /** Seconds a symbol is blocked when the exchange does not know it. */
  const UnknownSymbolLockSec: real := 60.0

  /** The switches main.py imports from the configuration. */
  datatype Settings = Settings(enableLong: bool, enableShort: bool, useLive: bool,
                               useWebsocket: bool, scanInterval: real, risk: RiskParams)

  /** The values in force in config.py. */
  const ConfiguredSettings := Settings(true, true, true, true, 1.0, RiskFrame.Configured)

  /** The loop's state between passes: the day guard, the adapter's slot, the
      pause flag, the scan clock, the cooldowns, the equity used for sizing,
      the exchange rule cache and the breakdown signal's arm table. */
  datatype Loop = Loop(day: DayState, slot: Slot, paused: bool, lastScan: real,
                       until: real, locks: map<string, real>,
                       equity: real, startEquity: real,
                       cache: Cache, arms: VB.ArmTable)

  /** What the loop hands to `place_bracket`. */
  datatype Ticket = Ticket(symbol: string, side: string, qty: real, entry: real, sl: real, tp: real)

  /** One pass's view of the outside world.  `now` is the pass's `t_now`;
      `clock` is the `time.time()` read when a cooldown or lock is set.  A
      fetch that raised is `None`. */
  datatype World = World(now: real, clock: real, today: string,
                         gainers: Option<seq<Item>>, losers: Option<seq<Item>>,
                         wsOk: bool, balance: Option<real>, refreshed: Option<Cache>,
                         bars: string -> Option<seq<Series.Candle>>,
                         gates: string -> Option<bool>,
                         breakoutOk: string -> bool)

  /** The adapter as the loop sees it: `poll_and_close_if_hit` on the slot and
      day (`Err` when it raised before changing anything), and
      `place_bracket`, giving the slot afterwards and whether it returned
      normally. */
  datatype Adapter = Adapter(poll: (Slot, DayState) -> Result<PollOutcome>,
                             place: Ticket -> (Slot, bool))

  // ---------------------------------------------------------------------
  // Candidate selection

  /** `cooldown['symbol_lock'].get(s, 0)`. */
  function LockOf(locks: map<string, real>, s: string): real {
    if s in locks then locks[s] else 0.0
  }

  predicate Locked(now: real, locks: map<string, real>, s: string) {
    now < LockOf(locks, s)
  }

  /** A gainer the long loop accepts. */
  predicate LongPick(it: Item, now: real, locks: map<string, real>, ok: string -> bool) {
    !Locked(now, locks, it.symbol) && ok(it.symbol)
  }

  /** The long loop (main.py:181-186): the first unlocked gainer whose breakout
      check passes. */
  function FirstLong(items: seq<Item>, now: real, locks: map<string, real>, ok: string -> bool): (c: Option<Item>)
    ensures c.Some? ==> exists k :: 0 <= k < |items| && items[k] == c.value && LongPick(items[k], now, locks, ok) &&
                          forall j :: 0 <= j < k ==> !LongPick(items[j], now, locks, ok)
    ensures c.None? ==> forall j :: 0 <= j < |items| ==> !LongPick(items[j], now, locks, ok)
    decreases |items|
  {
    if |items| == 0 then None
    else if LongPick(items[0], now, locks, ok) then Some(items[0])
    else
      var rest := FirstLong(items[1..], now, locks, ok);
      assert forall j :: 1 <= j < |items| ==> items[j] == items[1..][j - 1];
      rest
  }

  /** What the short loop reads for every loser: the pass's time, the
      symbol locks, the candles and the large-trade gate of each symbol. */
  datatype ShortFeed = ShortFeed(now: real, locks: map<string, real>,
                                 bars: string -> Option<seq<Series.Candle>>,
                                 gates: string -> Option<bool>)

  /** Whether the breakdown machine, run on `it` against `arms`, reports a signal. */
  predicate Fires(arms: VB.ArmTable, it: Item, f: ShortFeed) {
    VB.Evaluate(arms, it.symbol, f.bars(it.symbol), f.gates(it.symbol)).1
  }

  /** A loser the short loop passes over: locked, or evaluated without a signal. */
  predicate Quiet(arms: VB.ArmTable, it: Item, f: ShortFeed) {
    Locked(f.now, f.locks, it.symbol) || !Fires(arms, it, f)
  }

  /** The arm table after the short loop has looked at every loser of `xs`
      without stopping: locked symbols are skipped, every other one runs the
      breakdown machine once. */
  function ArmsAfter(arms: VB.ArmTable, xs: seq<Item>, f: ShortFeed): VB.ArmTable
    decreases |xs|
  {
    if |xs| == 0 then arms
    else
      var s := xs[0].symbol;
      var next := if Locked(f.now, f.locks, s) then arms else VB.Evaluate(arms, s, f.bars(s), f.gates(s)).0;
      ArmsAfter(next, xs[1..], f)
  }

  /** `pick` is the loser at position `k`, unlocked, and fires on the table
      left by the losers before it, each of which was passed over; `after` is
      that table once `pick` has been evaluated too. */
  predicate FiresAt(items: seq<Item>, f: ShortFeed, arms: VB.ArmTable, k: nat, pick: Item, after: VB.ArmTable)
    requires k < |items|
  {
    items[k] == pick && !Locked(f.now, f.locks, pick.symbol) &&
    Fires(ArmsAfter(arms, items[..k], f), pick, f) &&
    after == ArmsAfter(arms, items[..k + 1], f) &&
    forall j :: 0 <= j < k ==> Quiet(ArmsAfter(arms, items[..j], f), items[j], f)
  }

  /** `pick` is the first loser the short loop stops at. */
  predicate FirstFiring(items: seq<Item>, f: ShortFeed, arms: VB.ArmTable, pick: Item, after: VB.ArmTable) {
    exists k :: 0 <= k < |items| && FiresAt(items, f, arms, k, pick, after)
  }

  /** Every loser of `items` is passed over, each on the table its predecessors left. */
  predicate NoneFiring(items: seq<Item>, f: ShortFeed, arms: VB.ArmTable) {
    forall j :: 0 <= j < |items| ==> Quiet(ArmsAfter(arms, items[..j], f), items[j], f)
  }

  /** Looking at one more loser in front: the prefixes of `items` are the
      first loser followed by the prefixes of the rest. */
  lemma {:induction false} ArmsAfterCons(arms: VB.ArmTable, items: seq<Item>, f: ShortFeed, k: nat)
    requires 0 < k <= |items|
    ensures var s := items[0].symbol;
            var next := if Locked(f.now, f.locks, s) then arms else VB.Evaluate(arms, s, f.bars(s), f.gates(s)).0;
            ArmsAfter(arms, items[..k], f) == ArmsAfter(next, items[1..][..k - 1], f)
  {
    assert items[..k][1..] == items[1..][..k - 1];
  }

  /** A first firing among the rest, after a first loser that was passed
      over, is a first firing of the whole list. */
  lemma {:induction false} FirstFiringCons(items: seq<Item>, f: ShortFeed, arms: VB.ArmTable, pick: Item, after: VB.ArmTable)
    requires |items| > 0 && Quiet(arms, items[0], f)
    requires var s := items[0].symbol;
             var next := if Locked(f.now, f.locks, s) then arms else VB.Evaluate(arms, s, f.bars(s), f.gates(s)).0;
             FirstFiring(items[1..], f, next, pick, after)
    ensures FirstFiring(items, f, arms, pick, after)
  {
    var s := items[0].symbol;
    var next := if Locked(f.now, f.locks, s) then arms else VB.Evaluate(arms, s, f.bars(s), f.gates(s)).0;
    var k :| 0 <= k < |items[1..]| && FiresAt(items[1..], f, next, k, pick, after);
    ArmsAfterCons(arms, items, f, k + 1);
    ArmsAfterCons(arms, items, f, k + 2);
    assert items[..0] == [];
    forall j | 0 <= j < k + 1
      ensures Quiet(ArmsAfter(arms, items[..j], f), items[j], f)
    {
      if j > 0 {
        ArmsAfterCons(arms, items, f, j);
        assert items[j] == items[1..][j - 1];
      }
    }
    assert items[k + 1] == pick;
    assert FiresAt(items, f, arms, k + 1, pick, after);
  }

  /** Passing over the first loser and then every one of the rest passes over the whole list. */
  lemma {:induction false} NoneFiringCons(items: seq<Item>, f: ShortFeed, arms: VB.ArmTable)
    requires |items| > 0 && Quiet(arms, items[0], f)
    requires var s := items[0].symbol;
             var next := if Locked(f.now, f.locks, s) then arms else VB.Evaluate(arms, s, f.bars(s), f.gates(s)).0;
             NoneFiring(items[1..], f, next)
    ensures NoneFiring(items, f, arms)
  {
    assert items[..0] == [];
    forall j | 0 <= j < |items|
      ensures Quiet(ArmsAfter(arms, items[..j], f), items[j], f)
    {
      if j > 0 {
        ArmsAfterCons(arms, items, f, j);
        assert items[j] == items[1..][j - 1];
      }
    }
  }

  /** An unlocked first loser that fires is the first firing. */
  lemma FirstFiringHead(items: seq<Item>, f: ShortFeed, arms: VB.ArmTable)
    requires |items| > 0 && !Locked(f.now, f.locks, items[0].symbol) && Fires(arms, items[0], f)
    ensures FirstFiring(items, f, arms, items[0],
                        VB.Evaluate(arms, items[0].symbol, f.bars(items[0].symbol), f.gates(items[0].symbol)).0)
  {
    assert items[..0] == [];
    assert items[..1][1..] == [];
    assert FiresAt(items, f, arms, 0, items[0],
                   VB.Evaluate(arms, items[0].symbol, f.bars(items[0].symbol), f.gates(items[0].symbol)).0);
  }

  /** One loser passed over in front of the short loop's result on the rest. */
  lemma ScanShortCons(items: seq<Item>, f: ShortFeed, arms: VB.ArmTable, r: (Option<Item>, VB.ArmTable))
    requires |items| > 0 && Quiet(arms, items[0], f)
    requires var s := items[0].symbol;
             var next := if Locked(f.now, f.locks, s) then arms else VB.Evaluate(arms, s, f.bars(s), f.gates(s)).0;
             (r.0.Some? ==> FirstFiring(items[1..], f, next, r.0.value, r.1)) &&
             (r.0.None? ==> NoneFiring(items[1..], f, next) && r.1 == ArmsAfter(next, items[1..], f))
    ensures r.0.Some? ==> FirstFiring(items, f, arms, r.0.value, r.1)
    ensures r.0.None? ==> NoneFiring(items, f, arms) && r.1 == ArmsAfter(arms, items, f)
  {
    if r.0.Some? {
      FirstFiringCons(items, f, arms, r.0.value, r.1);
    } else {
      NoneFiringCons(items, f, arms);
    }
  }

  /** The breakdown machine only ever writes the record of the symbol it evaluates. */
  lemma EvaluateFrame(arms: VB.ArmTable, s: string, f: ShortFeed)
    ensures forall t :: t != s ==> VB.Lookup(VB.Evaluate(arms, s, f.bars(s), f.gates(s)).0, t) == VB.Lookup(arms, t)
  {
  }

  /** The records the short loop leaves alone: locked symbols and symbols not
      among the losers keep their record, given the same of the rest. */
  lemma ScanFrameCons(items: seq<Item>, f: ShortFeed, arms: VB.ArmTable, next: VB.ArmTable, after: VB.ArmTable)
    requires |items| > 0
    requires forall t :: t != items[0].symbol ==> VB.Lookup(next, t) == VB.Lookup(arms, t)
    requires Locked(f.now, f.locks, items[0].symbol) ==> next == arms
    requires forall t :: Locked(f.now, f.locks, t) ==> VB.Lookup(after, t) == VB.Lookup(next, t)
    requires forall t :: (forall j :: 0 <= j < |items[1..]| ==> items[1..][j].symbol != t) ==>
                           VB.Lookup(after, t) == VB.Lookup(next, t)
    ensures forall t :: Locked(f.now, f.locks, t) ==> VB.Lookup(after, t) == VB.Lookup(arms, t)
    ensures forall t :: (forall j :: 0 <= j < |items| ==> items[j].symbol != t) ==> VB.Lookup(after, t) == VB.Lookup(arms, t)
  {
    forall t | forall j :: 0 <= j < |items| ==> items[j].symbol != t
      ensures VB.Lookup(after, t) == VB.Lookup(arms, t)
    {
      assert forall j :: 0 <= j < |items[1..]| ==> items[1..][j] == items[j + 1];
    }
  }

  /** The short loop (main.py:190-195): each unlocked loser in turn runs the
      breakdown machine, which updates its arm record, until one fires.
      Returns the pick and the arm table afterwards. */
  function ScanShort(items: seq<Item>, now: real, locks: map<string, real>, arms: VB.ArmTable,
                     bars: string -> Option<seq<Series.Candle>>, gates: string -> Option<bool>)
    : (r: (Option<Item>, VB.ArmTable))
    ensures r.0.Some? ==> r.0.value in items && !Locked(now, locks, r.0.value.symbol)
    ensures r.0.Some? ==> FirstFiring(items, ShortFeed(now, locks, bars, gates), arms, r.0.value, r.1)
    ensures r.0.None? ==> NoneFiring(items, ShortFeed(now, locks, bars, gates), arms) &&
                          r.1 == ArmsAfter(arms, items, ShortFeed(now, locks, bars, gates))
    ensures forall s :: Locked(now, locks, s) ==> VB.Lookup(r.1, s) == VB.Lookup(arms, s)
    ensures forall s :: (forall j :: 0 <= j < |items| ==> items[j].symbol != s) ==> VB.Lookup(r.1, s) == VB.Lookup(arms, s)
    decreases |items|
  {
    var f := ShortFeed(now, locks, bars, gates);
    if |items| == 0 then (None, arms)
    else
      var s := items[0].symbol;
      assert forall j :: 1 <= j < |items| ==> items[j] == items[1..][j - 1];
      EvaluateFrame(arms, s, f);
      if Locked(now, locks, s) then
        var r := ScanShort(items[1..], now, locks, arms, bars, gates);
        ScanShortCons(items, f, arms, r);
        ScanFrameCons(items, f, arms, arms, r.1);
        r
      else
        var ev := VB.Evaluate(arms, s, bars(s), gates(s));
        if ev.1 then
          FirstFiringHead(items, f, arms);
          (Some(items[0]), ev.0)
        else
          var r := ScanShort(items[1..], now, locks, ev.0, bars, gates);
          ScanShortCons(items, f, arms, r);
          ScanFrameCons(items, f, arms, ev.0, r.1);
          r
  }

  /** What the scan block (main.py:154-203) leaves behind: the candidate and its
      side, the scan clock and the arm table. */
  datatype Scan = Scan(candidate: Option<(Item, string)>, lastScan: real, arms: VB.ArmTable)

  /** The scan block.  A failed movers fetch or a failed websocket restart
      raises inside the block and discards the candidate; the scan clock is
      set right after a successful gainers fetch, and again after the losers. */
  function ScanStage(st: Loop, w: World, cfg: Settings): (sc: Scan)
    ensures sc.candidate.Some? ==> w.now > st.until
    ensures sc.candidate.Some? ==> !Locked(w.now, st.locks, sc.candidate.value.0.symbol)
    ensures sc.candidate.Some? && sc.candidate.value.1 == LONG ==>
              cfg.enableLong && w.gainers.Some? && sc.candidate.value.0 in w.gainers.value &&
              w.breakoutOk(sc.candidate.value.0.symbol)
    ensures sc.candidate.Some? ==> sc.candidate.value.1 == LONG || sc.candidate.value.1 == SHORT
    ensures sc.candidate.Some? && sc.candidate.value.1 == SHORT ==>
              cfg.enableShort && w.losers.Some? && sc.candidate.value.0 in w.losers.value &&
              (cfg.enableLong ==> w.gainers.Some? && FirstLong(w.gainers.value, w.now, st.locks, w.breakoutOk).None?)
    ensures sc.candidate.Some? && sc.candidate.value.1 == SHORT ==>
              w.losers.Some? &&
              FirstFiring(w.losers.value, ShortFeed(w.now, st.locks, w.bars, w.gates), st.arms, sc.candidate.value.0, sc.arms)
    ensures forall s :: Locked(w.now, st.locks, s) ==> VB.Lookup(sc.arms, s) == VB.Lookup(st.arms, s)
  {
    if cfg.enableLong && w.gainers.None? then Scan(None, st.lastScan, st.arms)
    else
      var afterGainers := if cfg.enableLong then w.now else st.lastScan;
      if cfg.enableShort && w.losers.None? then Scan(None, afterGainers, st.arms)
      else
        var gainers := if cfg.enableLong then w.gainers.value else [];
        var losers := if cfg.enableShort then w.losers.value else [];
        var long := if cfg.enableLong && w.now > st.until then FirstLong(gainers, w.now, st.locks, w.breakoutOk) else None;
        var sh :=
          if long.None? && cfg.enableShort && w.now > st.until then ScanShort(losers, w.now, st.locks, st.arms, w.bars, w.gates)
          else (None, st.arms);
        var short := sh.0;
        var arms := sh.1;
        var candidate := if long.Some? then Some((long.value, LONG))
                         else if short.Some? then Some((short.value, SHORT))
                         else None;
        if cfg.useWebsocket && !w.wsOk then Scan(None, w.now, arms)
        else Scan(candidate, w.now, arms)
  }

  /** The scan clock: a failed gainers fetch leaves it (and everything else)
      as it was; once the gainers are in, it moves to this pass's time even
      if the losers fetch then fails. */
  lemma ScanClock(st: Loop, w: World, cfg: Settings)
    ensures cfg.enableLong && w.gainers.None? ==> ScanStage(st, w, cfg) == Scan(None, st.lastScan, st.arms)
    ensures cfg.enableLong && w.gainers.Some? ==> ScanStage(st, w, cfg).lastScan == w.now
    ensures !cfg.enableLong && cfg.enableShort && w.losers.None? ==> ScanStage(st, w, cfg) == Scan(None, st.lastScan, st.arms)
  {
  }

  /** Longs first: when the long loop finds a gainer, it is the candidate and
      no loser is evaluated, so every arm record is left as it was. */
  lemma LongBeforeShort(st: Loop, w: World, cfg: Settings)
    requires cfg.enableLong && w.gainers.Some? && w.now > st.until
    requires !cfg.enableShort || w.losers.Some?
    requires !cfg.useWebsocket || w.wsOk
    requires FirstLong(w.gainers.value, w.now, st.locks, w.breakoutOk).Some?
    ensures var sc := ScanStage(st, w, cfg);
            sc.candidate == Some((FirstLong(w.gainers.value, w.now, st.locks, w.breakoutOk).value, LONG)) &&
            sc.arms == st.arms && sc.lastScan == w.now
  {
  }

  /** Shorts when no long: with the losers in, the cooldown passed, no
      gainer taken (or longs disabled) and the websocket fine, the short
      loop decides the candidate: its first firing loser becomes the SHORT
      candidate, and the arm table is the one the loop leaves. */
  lemma ShortWhenNoLong(st: Loop, w: World, cfg: Settings)
    requires cfg.enableShort && w.losers.Some? && w.now > st.until
    requires cfg.enableLong ==> w.gainers.Some? && FirstLong(w.gainers.value, w.now, st.locks, w.breakoutOk).None?
    requires !cfg.useWebsocket || w.wsOk
    ensures var sh := ScanShort(w.losers.value, w.now, st.locks, st.arms, w.bars, w.gates);
            var sc := ScanStage(st, w, cfg);
            sc.candidate == (if sh.0.Some? then Some((sh.0.value, SHORT)) else None) &&
            sc.arms == sh.1 && sc.lastScan == w.now
  {
    var gainers := if cfg.enableLong then w.gainers.value else [];
    var long := if cfg.enableLong && w.now > st.until then FirstLong(gainers, w.now, st.locks, w.breakoutOk) else None;
    assert long.None?;
  }

  // ---------------------------------------------------------------------
  // Entry

  /** The entry block (main.py:206-274) for a candidate: size, bracket, bring
      onto the exchange grid, skip a zero quantity, send, and start the
      cooldowns only when the adapter returned normally.  Returns the state
      and the ticket sent, if any. */
  function EnterStage(st: Loop, w: World, cfg: Settings, ad: Adapter, item: Item, side: string): (r: (Loop, Option<Ticket>))
    requires cfg.risk.slPct != 0.0
    ensures r.1.Some? ==> r.1.value.symbol == item.symbol && r.1.value.side == side && r.1.value.qty != 0.0
    ensures r.1.Some? ==> (item.symbol in r.0.cache && item.last != 0.0 &&
              var rule := r.0.cache[item.symbol];
              var b := ComputeBracket(item.last, side, cfg.risk);
              var qtyRaw := PositionSizeNotional(st.equity, cfg.risk) / item.last;
              r.1.value.entry == ConformWith(rule, item.last, qtyRaw).price &&
              r.1.value.qty == ConformWith(rule, item.last, qtyRaw).qty &&
              r.1.value.sl == ConformPrice(rule, b.sl) && r.1.value.tp == ConformPrice(rule, b.tp))
    ensures r.1.None? ==> r.0.slot == st.slot && r.0.until == st.until
    ensures r.1.None? && r.0.locks != st.locks ==>
              r.0.locks == st.locks[item.symbol := w.clock + UnknownSymbolLockSec] && item.symbol !in r.0.cache
    ensures r.1.Some? && ad.place(r.1.value).1 ==>
              r.0.until == w.clock + CooldownSec && r.0.locks == st.locks[item.symbol := w.clock + ReentryBlockSec]
    ensures r.1.Some? && !ad.place(r.1.value).1 ==> r.0.until == st.until && r.0.locks == st.locks
    ensures r.1.Some? ==> r.0.slot == ad.place(r.1.value).0
    ensures r.0.day == st.day && r.0.equity == st.equity && r.0.arms == st.arms && r.0.lastScan == st.lastScan
    ensures r.0.startEquity == st.startEquity && r.0.paused == st.paused
    ensures r.1.Some? <==>
              item.last != 0.0 &&
              ConformToFilters(st.cache, w.refreshed, item.symbol, item.last,
                               PositionSizeNotional(st.equity, cfg.risk) / item.last).1.Ok? &&
              ConformToFilters(st.cache, w.refreshed, item.symbol, item.last,
                               PositionSizeNotional(st.equity, cfg.risk) / item.last).1.value.qty != 0.0
  {
    var symbol := item.symbol;
    var entry := item.last;
    var notional := PositionSizeNotional(st.equity, cfg.risk);
    var b := ComputeBracket(entry, side, cfg.risk);
    if entry == 0.0 then (st, None)
    else
      var qtyRaw := notional / entry;
      var (cache, first) := ConformToFilters(st.cache, w.refreshed, symbol, entry, qtyRaw);
      if first.Err? then
        (st.(cache := cache, locks := st.locks[symbol := w.clock + UnknownSymbolLockSec]), None)
      else
        var sl := ConformToFilters(cache, w.refreshed, symbol, b.sl, qtyRaw).1.value;
        var tp := ConformToFilters(cache, w.refreshed, symbol, b.tp, qtyRaw).1.value;
        var st1 := st.(cache := cache);
        if first.value.qty == 0.0 then (st1, None)
        else
          var t := Ticket(symbol, side, first.value.qty, first.value.price, sl.price, tp.price);
          var (slot, ok) := ad.place(t);
          if ok then
            (st1.(slot := slot, until := w.clock + CooldownSec,
                  locks := st.locks[symbol := w.clock + ReentryBlockSec]), Some(t))
          else (st1.(slot := slot), Some(t))
  }

  /** A symbol the exchange does not know, even after a refresh, is locked
      for 60 seconds and no order is sent. */
  lemma UnknownSymbolIsLocked(st: Loop, w: World, cfg: Settings, ad: Adapter, item: Item, side: string)
    requires cfg.risk.slPct != 0.0 && item.last != 0.0
    requires item.symbol !in st.cache
    requires w.refreshed.None? || item.symbol !in w.refreshed.value
    ensures var r := EnterStage(st, w, cfg, ad, item, side);
            r.1.None? && r.0.locks == st.locks[item.symbol := w.clock + UnknownSymbolLockSec] &&
            LockOf(r.0.locks, item.symbol) == w.clock + UnknownSymbolLockSec
  {
  }

  // ---------------------------------------------------------------------
  // Closing

  /** The balance used for sizing after a close: the venue balance when
      trading live and it could be read, else the starting equity grown by
      the day's P&L. */
  function EquityAfterClose(st: Loop, w: World, cfg: Settings, day: DayState): (e: real)
    ensures cfg.useLive && w.balance.Some? ==> e == w.balance.value
    ensures !(cfg.useLive && w.balance.Some?) ==> e == st.startEquity * (1.0 + day.pnlPct)
  {
    if cfg.useLive && w.balance.Some? then w.balance.value
    else st.startEquity * (1.0 + day.pnlPct)
  }

  /** The close monitor (main.py:118-145) with the adapter's report read as
      intended: the adapter's own effects on slot and day are kept, and a
      close starts the global cooldown and refreshes the equity. */
  function PollStage(st: Loop, w: World, cfg: Settings, ad: Adapter): (r: Loop)
    requires HasOpen(st.slot)
    ensures ad.poll(st.slot, st.day).Err? ==> r == st
    ensures ad.poll(st.slot, st.day).Ok? ==>
              var o := ad.poll(st.slot, st.day).value;
              r.slot == o.slot && r.day == o.day &&
              (o.report.Closed? ==> r.until == w.clock + CooldownSec && r.equity == EquityAfterClose(st, w, cfg, o.day)) &&
              (o.report.NoClose? ==> r.until == st.until && r.equity == st.equity)
    ensures r.locks == st.locks && r.paused == st.paused && r.lastScan == st.lastScan && r.arms == st.arms
    ensures r.startEquity == st.startEquity && r.cache == st.cache
  {
    var res := ad.poll(st.slot, st.day);
    if res.Err? then st
    else
      var o := res.value;
      var st1 := st.(slot := o.slot, day := o.day);
      if o.report.Closed? then st1.(until := w.clock + CooldownSec, equity := EquityAfterClose(st, w, cfg, o.day))
      else st1
  }

  /** The close monitor as written: main.py:120 unpacks three names from the
      five-element tuple the adapters return, which raises, and the handler
      sets `closed = False`.  The adapter has already cleared the slot and
      booked the day, but the loop never sees a close. */
  function PollStageAsWritten(st: Loop, w: World, cfg: Settings, ad: Adapter): (r: Loop)
    requires HasOpen(st.slot)
    ensures r.until == st.until && r.equity == st.equity
    ensures ad.poll(st.slot, st.day).Ok? ==>
              r.slot == ad.poll(st.slot, st.day).value.slot && r.day == ad.poll(st.slot, st.day).value.day
  {
    var res := ad.poll(st.slot, st.day);
    if res.Err? then st
    else st.(slot := res.value.slot, day := res.value.day)
  }

  /** The discrepancy: whenever the adapter reports a close, the loop as
      written starts no cooldown and keeps the stale equity, while the
      intended loop starts the 3-second cooldown; both see the slot cleared. */
  lemma AsWrittenMissesClose(st: Loop, w: World, cfg: Settings, ad: Adapter)
    requires HasOpen(st.slot)
    requires ad.poll(st.slot, st.day).Ok? && ad.poll(st.slot, st.day).value.report.Closed?
    requires st.until != w.clock + CooldownSec
    ensures PollStageAsWritten(st, w, cfg, ad).until == st.until
    ensures PollStage(st, w, cfg, ad).until == w.clock + CooldownSec
    ensures PollStageAsWritten(st, w, cfg, ad) != PollStage(st, w, cfg, ad)
  {
  }

  /** A concrete instance with the simulator: a LONG BTCUSDT position
      entered at 100 with take-profit 101.5 meets a print of 102.  The
      simulator clears the slot and books the day, yet the loop as written
      keeps its old cooldown, while the intended loop cools down until
      clock + 3. */
  lemma AsWrittenMissesSimTakeProfit(st: Loop, w: World, cfg: Settings, place: Ticket -> (Slot, bool))
    requires st.slot == Some(Position("BTCUSDT", LONG, 1.0, 100.0, 99.25, 101.5, 100.0, 100.1, 100.17007, None))
    requires st.until == 0.0 && w.clock == 1000.0
    ensures var ad := Adapter((s, d) => SimAdapter.Poll(s, d, Some(102.0), cfg.risk), place);
            var bad := PollStageAsWritten(st, w, cfg, ad);
            var good := PollStage(st, w, cfg, ad);
            !HasOpen(bad.slot) && bad.until == 0.0 && !HasOpen(good.slot) && good.until == 1003.0
  {
    var ad := Adapter((s, d) => SimAdapter.Poll(s, d, Some(102.0), cfg.risk), place);
    var pos := st.slot.value;
    assert SimAdapter.HitTp(pos, 102.0);
    assert ad.poll(st.slot, st.day) == SimAdapter.Poll(st.slot, st.day, Some(102.0), cfg.risk);
    assert ad.poll(st.slot, st.day).Ok? && ad.poll(st.slot, st.day).value.report.Closed?;
  }

  // ---------------------------------------------------------------------
  // One pass

  /** Whether this pass may look for an entry (main.py:151). */
  predicate ScanDue(st: Loop, w: World, cfg: Settings) {
    !st.day.halted && !st.paused && w.now > st.lastScan + cfg.scanInterval
  }

  /** One pass of the loop: roll the day over, then either watch the open
      position or, when a scan is due, scan and maybe enter.  Returns the
      state and the ticket sent to the adapter, if any. */
  function LoopTick(st: Loop, w: World, cfg: Settings, ad: Adapter): (r: (Loop, Option<Ticket>))
    requires cfg.risk.slPct != 0.0
    ensures r.0.startEquity == st.startEquity && r.0.paused == st.paused
  {
    var st0 := st.(day := Rollover(st.day, w.today));
    if HasOpen(st0.slot) then (PollStage(st0, w, cfg, ad), None)
    else if ScanDue(st0, w, cfg) then
      var sc := ScanStage(st0, w, cfg);
      var st1 := st0.(lastScan := sc.lastScan, arms := sc.arms);
      if sc.candidate.None? then (st1, None)
      else EnterStage(st1, w, cfg, ad, sc.candidate.value.0, sc.candidate.value.1)
    else (st0, None)
  }

  /** With a position open a pass only runs the close monitor on the rolled
      over day: no ticket, and the scan clock, arm table and locks stay. */
  lemma OpenTickOnlyMonitors(st: Loop, w: World, cfg: Settings, ad: Adapter)
    requires cfg.risk.slPct != 0.0 && HasOpen(st.slot)
    ensures var r := LoopTick(st, w, cfg, ad);
            r.1.None? && r.0 == PollStage(st.(day := Rollover(st.day, w.today)), w, cfg, ad) &&
            r.0.lastScan == st.lastScan && r.0.arms == st.arms && r.0.locks == st.locks
  {
  }

  /** A due scan on a flat slot that yields a candidate goes on to the entry
      block with that candidate, on the rolled over state carrying the scan
      clock and arm table the scan left; with no candidate nothing is sent. */
  lemma DueScanEnters(st: Loop, w: World, cfg: Settings, ad: Adapter)
    requires cfg.risk.slPct != 0.0 && !HasOpen(st.slot)
    requires ScanDue(st.(day := Rollover(st.day, w.today)), w, cfg)
    ensures var st0 := st.(day := Rollover(st.day, w.today));
            var sc := ScanStage(st0, w, cfg);
            var st1 := st0.(lastScan := sc.lastScan, arms := sc.arms);
            (sc.candidate.Some? ==>
               LoopTick(st, w, cfg, ad) == EnterStage(st1, w, cfg, ad, sc.candidate.value.0, sc.candidate.value.1)) &&
            (sc.candidate.None? ==> LoopTick(st, w, cfg, ad) == (st1, None))
  {
  }

  /** One pass with the close monitor as written (main.py:120). */
  function LoopTickAsWritten(st: Loop, w: World, cfg: Settings, ad: Adapter): (r: (Loop, Option<Ticket>))
    requires cfg.risk.slPct != 0.0
    ensures !HasOpen(st.slot) ==> r == LoopTick(st, w, cfg, ad)
    ensures HasOpen(st.slot) ==> r.1.None? && r.0.until == st.until && r.0.equity == st.equity
  {
    var st0 := st.(day := Rollover(st.day, w.today));
    if HasOpen(st0.slot) then (PollStageAsWritten(st0, w, cfg, ad), None)
    else LoopTick(st, w, cfg, ad)
  }

  /** The two passes differ only in the close monitor: when the adapter
      reports a close, the pass as written keeps the old cooldown while the
      corrected pass starts the 3-second one; both leave the slot as the
      adapter left it. */
  lemma AsWrittenTickMissesClose(st: Loop, w: World, cfg: Settings, ad: Adapter)
    requires cfg.risk.slPct != 0.0 && HasOpen(st.slot)
    requires var st0 := st.(day := Rollover(st.day, w.today));
             ad.poll(st0.slot, st0.day).Ok? && ad.poll(st0.slot, st0.day).value.report.Closed?
    ensures var st0 := st.(day := Rollover(st.day, w.today));
            var o := ad.poll(st0.slot, st0.day).value;
            LoopTickAsWritten(st, w, cfg, ad).0.until == st.until &&
            LoopTick(st, w, cfg, ad).0.until == w.clock + CooldownSec &&
            LoopTickAsWritten(st, w, cfg, ad).0.slot == o.slot == LoopTick(st, w, cfg, ad).0.slot
  {
  }

  /** An order is sent only from an empty slot, on a day that is not halted
      (after the rollover), while scanning is not paused, once the scan
      interval has passed and the global cooldown is over; never for a locked
      symbol, never with a zero quantity, and only as LONG or SHORT. */
  lemma EntryGate(st: Loop, w: World, cfg: Settings, ad: Adapter)
    requires cfg.risk.slPct != 0.0
    ensures var r := LoopTick(st, w, cfg, ad);
            r.1.Some? ==>
              var day := Rollover(st.day, w.today);
              !HasOpen(st.slot) && !day.halted && !st.paused &&
              w.now > st.lastScan + cfg.scanInterval && w.now > st.until &&
              !Locked(w.now, st.locks, r.1.value.symbol) && r.1.value.qty != 0.0 &&
              (r.1.value.side == LONG || r.1.value.side == SHORT)
  {
    var st0 := st.(day := Rollover(st.day, w.today));
    if !HasOpen(st0.slot) && ScanDue(st0, w, cfg) {
      var sc := ScanStage(st0, w, cfg);
      if sc.candidate.Some? {
        var st1 := st0.(lastScan := sc.lastScan, arms := sc.arms);
        var e := EnterStage(st1, w, cfg, ad, sc.candidate.value.0, sc.candidate.value.1);
        assert LoopTick(st, w, cfg, ad) == e;
      }
    }
  }

  /** A pass that does not scan changes nothing but the day rollover (and,
      with a position open, what the close monitor does). */
  lemma IdleTickOnlyRollsOver(st: Loop, w: World, cfg: Settings, ad: Adapter)
    requires cfg.risk.slPct != 0.0
    requires !HasOpen(st.slot) && !ScanDue(st.(day := Rollover(st.day, w.today)), w, cfg)
    ensures LoopTick(st, w, cfg, ad) == (st.(day := Rollover(st.day, w.today)), None)
  {
  }

  /** A successful send starts the 3-second cooldown and blocks the symbol
      for 45 seconds; a send that raised leaves both as they were. */
  lemma SendCooldowns(st: Loop, w: World, cfg: Settings, ad: Adapter)
    requires cfg.risk.slPct != 0.0
    ensures var r := LoopTick(st, w, cfg, ad);
            r.1.Some? ==>
              (ad.place(r.1.value).1 ==>
                 r.0.until == w.clock + CooldownSec &&
                 LockOf(r.0.locks, r.1.value.symbol) == w.clock + ReentryBlockSec) &&
              (!ad.place(r.1.value).1 ==> r.0.until == st.until && r.0.locks == st.locks)
  {
    var st0 := st.(day := Rollover(st.day, w.today));
    if !HasOpen(st0.slot) && ScanDue(st0, w, cfg) {
      var sc := ScanStage(st0, w, cfg);
      if sc.candidate.Some? {
        var st1 := st0.(lastScan := sc.lastScan, arms := sc.arms);
        var e := EnterStage(st1, w, cfg, ad, sc.candidate.value.0, sc.candidate.value.1);
        assert LoopTick(st, w, cfg, ad) == e;
      }
    }
  }

  /** A halted day sends nothing for the rest of that day, whatever the
      world looks like. */
  lemma HaltedDaySendsNothing(st: Loop, w: World, cfg: Settings, ad: Adapter)
    requires cfg.risk.slPct != 0.0
    requires st.day.halted && w.today == st.day.key
    ensures LoopTick(st, w, cfg, ad).1.None?
  {
  }

  // ---------------------------------------------------------------------
  // Hotkeys

  /** `p`: toggle the scan pause. */
  function PauseKey(st: Loop): (r: Loop)
    ensures r.paused != st.paused && r.(paused := st.paused) == st
  {
    st.(paused := !st.paused)
  }

  /** `!`: halt the day. */
  function HaltKey(st: Loop): (r: Loop)
    ensures !CanTrade(r.day) && r.day.key == st.day.key && r.day.pnlPct == st.day.pnlPct
    ensures r.day == Halt(st.day) && r.day.trades == st.day.trades
    ensures r.(day := st.day) == st
  {
    st.(day := Halt(st.day))
  }

  /** The hotkey's return: `(now - entry) / entry` for LONG and the mirror
      for any other side. */
  function HotkeyReturn(side: string, entry: real, price: real): (pct: real)
    requires entry != 0.0
    ensures side == LONG ==> pct * entry == price - entry
    ensures side != LONG ==> pct * entry == entry - price
  {
    if side == LONG then (price - entry) / entry else (entry - price) / entry
  }

  /** For the two real sides the hotkey books the same return as the adapters. */
  lemma HotkeyMatchesAdapters(side: string, entry: real, price: real)
    requires entry != 0.0 && (side == LONG || side == SHORT)
    ensures HotkeyReturn(side, entry, price) == SignedReturn(side, entry, price)
  {
    var a := HotkeyReturn(side, entry, price);
    var b := SignedReturn(side, entry, price);
    assert a * entry == b * entry;
    CancelFactor(a, b, entry);
  }

  lemma CancelFactor(a: real, b: real, c: real)
    requires c != 0.0 && a * c == b * c
    ensures a == b
  {
    assert (a - b) * c == 0.0;
  }

  /** `x`: with a position open and a price, write the journal row, then
      book the return at that price and free the slot; no cooldown is
      started.  `journaled` is whether the journal append returned normally.
      Without a position, with a failed price fetch, with a zero entry (the
      division raises) or with a failed journal write nothing changes. */
  function CloseKey(st: Loop, price: Option<real>, journaled: bool, p: RiskParams): (r: Loop)
    ensures !HasOpen(st.slot) || price.None? || st.slot.value.entry == 0.0 || !journaled ==> r == st
    ensures HasOpen(st.slot) && price.Some? && st.slot.value.entry != 0.0 && journaled ==>
              !HasOpen(r.slot) &&
              r.day == OnTradeClose(st.day, HotkeyReturn(st.slot.value.side, st.slot.value.entry, price.value), p) &&
              r.(slot := st.slot, day := st.day) == st
  {
    if st.slot.None? || price.None? || st.slot.value.entry == 0.0 then st
    else if !journaled then st
    else
      var pos := st.slot.value;
      st.(day := OnTradeClose(st.day, HotkeyReturn(pos.side, pos.entry, price.value), p), slot := None)
  }

  /** A forced close on a day that is not halted counts one more trade and
      moves the P&L by the booked return; on a halted day only the slot is
      freed. */
  lemma CloseKeyBooksOnce(st: Loop, price: real, p: RiskParams)
    requires HasOpen(st.slot) && st.slot.value.entry != 0.0
    ensures var r := CloseKey(st, Some(price), true, p);
            var pct := HotkeyReturn(st.slot.value.side, st.slot.value.entry, price);
            (!st.day.halted ==> r.day.trades == st.day.trades + 1 && r.day.pnlPct == st.day.pnlPct + pct) &&
            (st.day.halted ==> r.day == st.day) &&
            r.until == st.until
  {
  }
}

=== FILE: positions.dfy ===
/** The single position slot both adapters of adapters.py keep (`self.open`),
    the realised return of a close, and the close path they share: clear the
    slot, book the return on the day record, hand a record to the journal. */
module Positions {
  import opened Base
  import opened RiskFrame

  /** Venue order ids of a live bracket (`entryId`, `tpId`, `slId`). */
  datatype OrderIds = OrderIds(entryId: string, tpId: string, slId: string)

  /** The fields of `self.open`.  `orders` is `None` for the simulator, which
      places no orders. */
  datatype Position = Position(
    symbol: string,
    side: string,
    qty: real,
    entry: real,       // the assumed fill: the stop-limit's limit price
    sl: real,
    tp: real,
    entryRef: real,    // the reference price the stop-limit was computed from
    entryStop: real,
    entryLimit: real,
    orders: Option<OrderIds>
  )

  /** `self.open`: `None` while flat. */
  type Slot = Option<Position>

  /** `has_open()`. */
  predicate HasOpen(slot: Slot) {
    slot.Some?
  }

  /** `(pct, symbol, reason, exit_price)` of a close. */
  datatype Closure = Closure(pct: real, symbol: string, reason: string, exit: real)

  /** What `poll_and_close_if_hit` returns: `(False, None, None, None, None)`
      or `(True, pct, symbol, reason, exit_price)`. */
  datatype PollReport = NoClose | Closed(closure: Closure)

  /** The arguments handed to `log_trade`; the journal itself is not modelled
      and its failures are swallowed by both adapters. */
  datatype TradeRecord = TradeRecord(symbol: string, side: string, qty: real, entry: real, exit: real, pct: real, reason: string)

  /** Slot and day record after a poll, the report, and the journal record if one was written. */
  datatype PollOutcome = PollOutcome(slot: Slot, day: DayState, report: PollReport, journal: Option<TradeRecord>)

  const ReasonTp: string := "TP"
  const ReasonSl: string := "SL"

  /** `(exit - entry) / entry`, negated when the side is exactly "SHORT". */
  function SignedReturn(side: string, entry: real, exit: real): (pct: real)
    requires entry != 0.0
    ensures side != SHORT ==> pct * entry == exit - entry
    ensures side == SHORT ==> pct * entry == entry - exit
  {
    var r := (exit - entry) / entry;
    if side == SHORT then -r else r
  }

  /** For a positive entry the return is a gain exactly when the exit is on
      the winning side of the entry: above it for a long, below it for a short. */
  lemma ReturnSign(side: string, entry: real, exit: real)
    requires entry > 0.0
    ensures side != SHORT ==> (SignedReturn(side, entry, exit) > 0.0 <==> exit > entry)
    ensures side == SHORT ==> (SignedReturn(side, entry, exit) > 0.0 <==> exit < entry)
    ensures SignedReturn(side, entry, exit) == 0.0 <==> exit == entry
  {
    var pct := SignedReturn(side, entry, exit);
    if pct > 0.0 {
      assert pct * entry > 0.0;
    }
    if pct < 0.0 {
      assert pct * entry < 0.0;
    }
  }

  /** A bracket computed from the same entry closes at exactly +tpPct at the
      target and -slPct at the stop, for both sides. */
  lemma BracketReturns(entry: real, side: string, p: RiskParams)
    requires entry != 0.0
    requires side == LONG || side == SHORT
    ensures SignedReturn(side, entry, ComputeBracket(entry, side, p).tp) == p.tpPct
    ensures SignedReturn(side, entry, ComputeBracket(entry, side, p).sl) == -p.slPct
  {
    BracketDistances(entry, side, p);
    var b := ComputeBracket(entry, side, p);
    if side == SHORT {
      assert (b.tp - entry) / entry == -((entry - b.tp) / entry);
      assert (b.sl - entry) / entry == -((entry - b.sl) / entry);
    }
  }

  /** The shared close path: clear the slot, book `pct` once on the day
      record, report `(True, pct, symbol, reason, exit)` and journal it. */
  function CloseAt(pos: Position, exit: real, reason: string, day: DayState, p: RiskParams): (r: PollOutcome)
    requires pos.entry != 0.0
    ensures !HasOpen(r.slot)
    ensures r.day == OnTradeClose(day, SignedReturn(pos.side, pos.entry, exit), p)
    ensures r.report.Closed? && r.report.closure.symbol == pos.symbol && r.report.closure.reason == reason
    ensures r.report.closure.exit == exit && r.report.closure.pct == SignedReturn(pos.side, pos.entry, exit)
    ensures r.journal.Some? && r.journal.value.pct == r.report.closure.pct
  {
    var pct := SignedReturn(pos.side, pos.entry, exit);
    PollOutcome(None, OnTradeClose(day, pct, p), Closed(Closure(pct, pos.symbol, reason, exit)),
                Some(TradeRecord(pos.symbol, pos.side, pos.qty, pos.entry, exit, pct, reason)))
  }

  /** A poll that closes nothing: everything stays as it was. */
  function Quiet(slot: Slot, day: DayState): (r: PollOutcome)
    ensures r.slot == slot && r.day == day && r.report.NoClose? && r.journal.None?
  {
    PollOutcome(slot, day, NoClose, None)
  }
}

=== FILE: ranking.dfy ===
/** The filter-and-rank rule of `fetch_top_gainers` / `fetch_top_losers` in
    utils.py, applied to the ticker rows of one 24h-ticker answer.  The HTTP
    fetch is not modelled: the rows are the input. */
module Ranking {
  import opened Base
  import opened Text

  /** The three numeric fields of a ticker row after `float(...)`. */
  datatype Quote = Quote(pct: real, last: real, vol: real)

  /** One row of the ticker answer; `quote` is `None` when one of the
      `float(...)` conversions raised (a missing field reads as 0.0). */
  datatype TickerRow = TickerRow(symbol: string, quote: Option<Quote>)

  /** `(symbol, pct, last, vol)` as kept by the ranking. */
  datatype Item = Item(symbol: string, pct: real, last: real, vol: real)

  datatype Board = Gainers | Losers

  /** EXCLUDE_KEYWORDS: leveraged tokens and BUSD pairs. */
  const ExcludeKeywords: seq<string> := ["UPUSDT", "DOWNUSDT", "BULLUSDT", "BEARUSDT", "BUSD"]

  /** SYMBOL_BLACKLIST of config.py. */
  const Blacklist: set<string> := {"ALPACAUSDT", "BNXUSDT"}

  /** The number of rows the scan asks for. */
  const TopN: nat := 10

  predicate Excluded(symbol: string) {
    exists i :: 0 <= i < |ExcludeKeywords| && Contains(symbol, ExcludeKeywords[i])
  }

  /** The symbol tests: a USDT pair, no excluded keyword, not blacklisted. */
  predicate SymbolEligible(symbol: string, blacklist: set<string>) {
    EndsWith(symbol, "USDT") && !Excluded(symbol) && symbol !in blacklist
  }

  /** Positive price and volume, and a move in the board's direction. */
  predicate Moving(q: Quote, b: Board) {
    q.last > 0.0 && q.vol > 0.0 && (if b == Gainers then q.pct > 0.0 else q.pct < 0.0)
  }

  predicate Admitted(row: TickerRow, b: Board, blacklist: set<string>) {
    SymbolEligible(row.symbol, blacklist) && row.quote.Some? && Moving(row.quote.value, b)
  }

  function ToItem(row: TickerRow): Item
    requires row.quote.Some?
  {
    Item(row.symbol, row.quote.value.pct, row.quote.value.last, row.quote.value.vol)
  }

  /** The positions holding `true`, in increasing order. */
  function Positions(flags: seq<bool>): seq<nat>
    decreases |flags|
  {
    if |flags| == 0 then []
    else
      var n := |flags| - 1;
      Positions(flags[..n]) + (if flags[n] then [n] else [])
  }

  /** Positions lists each position holding `true` once, in increasing
      order, and nothing else. */
  lemma {:induction false} PositionsExact(flags: seq<bool>)
    ensures forall j :: 0 <= j < |Positions(flags)| ==> Positions(flags)[j] < |flags| && flags[Positions(flags)[j]]
    ensures forall j, k :: 0 <= j < k < |Positions(flags)| ==> Positions(flags)[j] < Positions(flags)[k]
    ensures forall i :: 0 <= i < |flags| && flags[i] ==> i in Positions(flags)
    decreases |flags|
  {
    if |flags| > 0 {
      var n := |flags| - 1;
      PositionsExact(flags[..n]);
      assert forall i :: 0 <= i < n ==> flags[..n][i] == flags[i];
    }
  }

  function Shift(idx: seq<nat>): (r: seq<nat>)
    ensures |r| == |idx| && forall j :: 0 <= j < |r| ==> r[j] == idx[j] + 1
  {
    seq(|idx|, k requires 0 <= k < |idx| => idx[k] + 1)
  }

  /** Positions read from the front: the first flag, then the rest shifted by one. */
  lemma {:induction false} PositionsCons(flags: seq<bool>)
    requires |flags| > 0
    ensures Positions(flags) == (if flags[0] then [0] else []) + Shift(Positions(flags[1..]))
    decreases |flags|
  {
    var n := |flags| - 1;
    if n > 0 {
      PositionsCons(flags[..n]);
      assert flags[..n][1..] == flags[1..][..n - 1];
      assert flags[1..][n - 1] == flags[n];
      var h: seq<nat> := if flags[0] then [0] else [];
      var p := Positions(flags[1..][..n - 1]);
      var t: seq<nat> := if flags[n] then [n - 1] else [];
      var t2: seq<nat> := if flags[n] then [n] else [];
      assert Positions(flags) == Positions(flags[..n]) + t2;
      assert Positions(flags[..n]) == h + Shift(p);
      assert Positions(flags[1..]) == p + t;
      assert Shift(t) == t2;
      assert Shift(p + t) == Shift(p) + t2;
      assert Positions(flags) == h + (Shift(p) + t2);
    } else {
      assert flags[1..] == [];
    }
  }

  /** Which rows are admitted, position by position. */
  function AdmittedFlags(rows: seq<TickerRow>, b: Board, blacklist: set<string>): (flags: seq<bool>)
    ensures |flags| == |rows| && forall i :: 0 <= i < |rows| ==> flags[i] == Admitted(rows[i], b, blacklist)
  {
    seq(|rows|, i requires 0 <= i < |rows| => Admitted(rows[i], b, blacklist))
  }

  /** The positions of the admitted rows, in increasing order. */
  function AdmittedIndices(rows: seq<TickerRow>, b: Board, blacklist: set<string>): (idx: seq<nat>)
    ensures forall j :: 0 <= j < |idx| ==> idx[j] < |rows| && Admitted(rows[idx[j]], b, blacklist)
    ensures forall j, k :: 0 <= j < k < |idx| ==> idx[j] < idx[k]
    ensures forall i :: 0 <= i < |rows| && Admitted(rows[i], b, blacklist) ==> i in idx
  {
    var flags := AdmittedFlags(rows, b, blacklist);
    PositionsExact(flags);
    var idx := Positions(flags);
    assert forall j :: 0 <= j < |idx| ==> idx[j] < |flags| && flags[idx[j]];
    idx
  }

  /** Dropping the first row shifts the admitted positions of the rest by one. */
  lemma AdmittedIndicesTail(rows: seq<TickerRow>, b: Board, blacklist: set<string>)
    requires |rows| > 0
    ensures AdmittedIndices(rows, b, blacklist) ==
            (if Admitted(rows[0], b, blacklist) then [0] else []) + Shift(AdmittedIndices(rows[1..], b, blacklist))
  {
    assert AdmittedFlags(rows, b, blacklist)[1..] == AdmittedFlags(rows[1..], b, blacklist);
    PositionsCons(AdmittedFlags(rows, b, blacklist));
  }

  /** The admitted rows as items, in answer order. */
  function Candidates(rows: seq<TickerRow>, b: Board, blacklist: set<string>): (items: seq<Item>)
    ensures |items| <= |rows|
    ensures forall it :: it in items <==>
              exists i :: 0 <= i < |rows| && Admitted(rows[i], b, blacklist) && ToItem(rows[i]) == it
    decreases |rows|
  {
    if |rows| == 0 then []
    else
      var rest := Candidates(rows[1..], b, blacklist);
      assert forall i :: 0 <= i < |rows[1..]| ==> rows[1..][i] == rows[i + 1];
      assert forall i :: 1 <= i < |rows| ==> rows[i] == rows[1..][i - 1];
      if Admitted(rows[0], b, blacklist) then [ToItem(rows[0])] + rest else rest
  }

  /** Items matching the rows of `rows[1..]` at `tail` match the rows of
      `rows` at the shifted positions. */
  lemma ShiftedItems(rows: seq<TickerRow>, rest: seq<Item>, tail: seq<nat>)
    requires |rows| > 0 && |rest| == |tail|
    requires forall j :: 0 <= j < |tail| ==> tail[j] < |rows| - 1 && rows[1..][tail[j]].quote.Some?
    requires forall j :: 0 <= j < |tail| ==> rest[j] == ToItem(rows[1..][tail[j]])
    ensures forall j :: 0 <= j < |rest| ==> Shift(tail)[j] < |rows| && rows[Shift(tail)[j]].quote.Some? &&
                                             rest[j] == ToItem(rows[Shift(tail)[j]])
  {
    forall j | 0 <= j < |rest|
      ensures Shift(tail)[j] < |rows| && rows[Shift(tail)[j]] == rows[1..][tail[j]]
    {
    }
  }

  /** Candidates read from the front: the first row's item, if admitted, then the rest. */
  lemma CandidatesCons(rows: seq<TickerRow>, b: Board, blacklist: set<string>)
    requires |rows| > 0
    ensures Admitted(rows[0], b, blacklist) ==>
              Candidates(rows, b, blacklist) == [ToItem(rows[0])] + Candidates(rows[1..], b, blacklist)
    ensures !Admitted(rows[0], b, blacklist) ==> Candidates(rows, b, blacklist) == Candidates(rows[1..], b, blacklist)
  {
  }

  /** `items` lists the rows of `rows` at positions `idx`, one item per position, in order. */
  predicate ItemsAt(rows: seq<TickerRow>, items: seq<Item>, idx: seq<nat>) {
    |items| == |idx| &&
    forall j :: 0 <= j < |items| ==> idx[j] < |rows| && rows[idx[j]].quote.Some? && items[j] == ToItem(rows[idx[j]])
  }

  /** One step of the scan: items for `rows[1..]` at `tail`, with the first
      row's item put in front when it is taken, are items for `rows`. */
  lemma ItemsAtCons(rows: seq<TickerRow>, rest: seq<Item>, tail: seq<nat>, take: bool)
    requires |rows| > 0 && ItemsAt(rows[1..], rest, tail)
    requires take ==> rows[0].quote.Some?
    ensures ItemsAt(rows, (if take then [ToItem(rows[0])] else []) + rest, (if take then [0] else []) + Shift(tail))
  {
    ShiftedItems(rows, rest, tail);
    if take {
      ConsOrder(rows, rest, tail);
    }
  }

  /** The candidates follow the answer: the `j`-th item comes from the `j`-th
      admitted row, so each admitted row gives exactly one item, in order. */
  lemma {:induction false} CandidatesInAdmittedOrder(rows: seq<TickerRow>, b: Board, blacklist: set<string>)
    ensures ItemsAt(rows, Candidates(rows, b, blacklist), AdmittedIndices(rows, b, blacklist))
    decreases |rows|
  {
    if |rows| > 0 {
      CandidatesInAdmittedOrder(rows[1..], b, blacklist);
      AdmittedIndicesTail(rows, b, blacklist);
      CandidatesCons(rows, b, blacklist);
      ItemsAtCons(rows, Candidates(rows[1..], b, blacklist), AdmittedIndices(rows[1..], b, blacklist),
                  Admitted(rows[0], b, blacklist));
    }
  }

  /** Putting the first row's item in front of items matching the shifted
      positions matches position 0 followed by those positions. */
  lemma ConsOrder(rows: seq<TickerRow>, rest: seq<Item>, tail: seq<nat>)
    requires |rows| > 0 && rows[0].quote.Some? && |rest| == |tail|
    requires forall j :: 0 <= j < |rest| ==> Shift(tail)[j] < |rows| && rows[Shift(tail)[j]].quote.Some? &&
                                              rest[j] == ToItem(rows[Shift(tail)[j]])
    ensures ItemsAt(rows, [ToItem(rows[0])] + rest, [0] + Shift(tail))
  {
    var items := [ToItem(rows[0])] + rest;
    var idx := [0] + Shift(tail);
    assert forall j :: 1 <= j < |items| ==> items[j] == rest[j - 1] && idx[j] == Shift(tail)[j - 1];
  }

  /** The sort key: the ranking is ascending in `Key`, i.e. by pct descending
      for gainers (`reverse=True`) and ascending for losers. */
  function Key(it: Item, b: Board): real {
    if b == Gainers then -it.pct else it.pct
  }

  predicate Ranked(items: seq<Item>, b: Board) {
    forall i, j :: 0 <= i < j < |items| ==> Key(items[i], b) <= Key(items[j], b)
  }

  /** Inserts `x` in front of the first element ranked strictly after it. */
  function Insert(x: Item, s: seq<Item>, b: Board): (r: seq<Item>)
    requires Ranked(s, b)
    ensures Ranked(r, b)
    ensures multiset(r) == multiset(s) + multiset{x}
    ensures |r| == |s| + 1
    decreases |s|
  {
    if |s| == 0 then [x]
    else if Key(x, b) <= Key(s[0], b) then [x] + s
    else
      var tail := Insert(x, s[1..], b);
      InsertStep(x, s, tail, b);
      [s[0]] + tail
  }

  /** Putting the head back in front of a ranked insertion into the rest
      keeps the ranking, since everything there ranks at or after the head. */
  lemma InsertStep(x: Item, s: seq<Item>, tail: seq<Item>, b: Board)
    requires Ranked(s, b) && |s| > 0 && Key(s[0], b) < Key(x, b)
    requires Ranked(tail, b) && multiset(tail) == multiset(s[1..]) + multiset{x}
    ensures Ranked([s[0]] + tail, b)
    ensures multiset([s[0]] + tail) == multiset(s) + multiset{x}
  {
    assert s == [s[0]] + s[1..];
    forall k | 0 <= k < |tail| ensures Key(s[0], b) <= Key(tail[k], b) {
      assert tail[k] in multiset(tail);
      if tail[k] != x {
        assert tail[k] in multiset(s[1..]);
        var j :| 0 <= j < |s[1..]| && s[1..][j] == tail[k];
        assert s[j + 1] == tail[k];
      }
    }
  }

  /** `items.sort(key=pct, reverse=...)`: a ranked permutation of the input. */
  function Rank(items: seq<Item>, b: Board): (r: seq<Item>)
    ensures Ranked(r, b)
    ensures multiset(r) == multiset(items)
    ensures |r| == |items|
    decreases |items|
  {
    if |items| == 0 then []
    else
      assert items == [items[0]] + items[1..];
      Insert(items[0], Rank(items[1..], b), b)
  }

  /** `fetch_top_gainers(limit)` / `fetch_top_losers(limit)` on the rows of one answer. */
  function TopMovers(rows: seq<TickerRow>, b: Board, blacklist: set<string>, limit: nat): (top: seq<Item>)
    ensures |top| == if limit < |Candidates(rows, b, blacklist)| then limit else |Candidates(rows, b, blacklist)|
    ensures Ranked(top, b)
    ensures multiset(top) <= multiset(Candidates(rows, b, blacklist))
  {
    var ranked := Rank(Candidates(rows, b, blacklist), b);
    var k := if limit < |ranked| then limit else |ranked|;
    assert ranked == ranked[..k] + ranked[k..];
    ranked[..k]
  }

  /** Every returned item comes from an admitted row: an eligible USDT symbol,
      positive price and volume, and pct > 0 for gainers, pct < 0 for losers. */
  lemma TopMoversAdmitted(rows: seq<TickerRow>, b: Board, blacklist: set<string>, limit: nat)
    ensures forall it :: it in TopMovers(rows, b, blacklist, limit) ==>
              SymbolEligible(it.symbol, blacklist) && it.last > 0.0 && it.vol > 0.0 &&
              (if b == Gainers then it.pct > 0.0 else it.pct < 0.0)
  {
    var top := TopMovers(rows, b, blacklist, limit);
    var cands := Candidates(rows, b, blacklist);
    forall it | it in top
      ensures SymbolEligible(it.symbol, blacklist) && it.last > 0.0 && it.vol > 0.0 &&
              (if b == Gainers then it.pct > 0.0 else it.pct < 0.0)
    {
      assert it in multiset(top);
      assert it in multiset(cands);
      assert it in cands;
    }
  }

  /** Top-k: nothing left out ranks strictly before anything kept.  For
      gainers, every kept pct is at least every dropped pct; for losers at most. */
  lemma TopMoversAreTop(rows: seq<TickerRow>, b: Board, blacklist: set<string>, limit: nat)
    ensures var top := TopMovers(rows, b, blacklist, limit);
            var dropped := multiset(Candidates(rows, b, blacklist)) - multiset(top);
            forall x, y :: x in top && y in dropped ==> Key(x, b) <= Key(y, b)
  {
    var cands := Candidates(rows, b, blacklist);
    var ranked := Rank(cands, b);
    var k := if limit < |ranked| then limit else |ranked|;
    assert TopMovers(rows, b, blacklist, limit) == ranked[..k];
    PrefixIsTop(ranked, k, b);
  }

  /** In a ranked sequence, a prefix ranks no later than the rest. */
  lemma PrefixIsTop(ranked: seq<Item>, k: nat, b: Board)
    requires Ranked(ranked, b) && k <= |ranked|
    ensures forall x, y :: x in ranked[..k] && y in multiset(ranked) - multiset(ranked[..k]) ==> Key(x, b) <= Key(y, b)
  {
    assert ranked == ranked[..k] + ranked[k..];
    assert multiset(ranked) - multiset(ranked[..k]) == multiset(ranked[k..]);
    forall x, y | x in ranked[..k] && y in multiset(ranked) - multiset(ranked[..k]) ensures Key(x, b) <= Key(y, b) {
      var i :| 0 <= i < k && ranked[i] == x;
      assert y in ranked[k..];
      var j :| 0 <= j < |ranked[k..]| && ranked[k..][j] == y;
      assert ranked[k + j] == y;
    }
  }

  /** Nothing admitted is lost while fewer than `limit` rows are admitted: the
      result then holds exactly the admitted rows. */
  lemma TopMoversComplete(rows: seq<TickerRow>, b: Board, blacklist: set<string>, limit: nat)
    requires |Candidates(rows, b, blacklist)| <= limit
    ensures forall i :: 0 <= i < |rows| && Admitted(rows[i], b, blacklist) ==>
              ToItem(rows[i]) in TopMovers(rows, b, blacklist, limit)
  {
    var cands := Candidates(rows, b, blacklist);
    var top := TopMovers(rows, b, blacklist, limit);
    assert multiset(top) == multiset(cands) by {
      assert top == Rank(cands, b)[..|cands|];
      assert Rank(cands, b)[..|cands|] == Rank(cands, b);
    }
    forall i | 0 <= i < |rows| && Admitted(rows[i], b, blacklist)
      ensures ToItem(rows[i]) in top
    {
      assert ToItem(rows[i]) in cands;
      assert ToItem(rows[i]) in multiset(top);
    }
  }

  /** Four rows: two eligible gainers, a leveraged token and a blacklisted symbol. */
  const ExampleRows: seq<TickerRow> := [
    TickerRow("AAAUSDT", Some(Quote(3.0, 1.0, 10.0))),
    TickerRow("BTCUPUSDT", Some(Quote(9.0, 1.0, 10.0))),
    TickerRow("BNXUSDT", Some(Quote(8.0, 1.0, 10.0))),
    TickerRow("CCCUSDT", Some(Quote(5.0, 2.0, 10.0)))]

  /** The two plain USDT pairs of the example are admitted. */
  lemma ExampleAdmitted()
    ensures Admitted(ExampleRows[0], Gainers, Blacklist)
    ensures Admitted(ExampleRows[3], Gainers, Blacklist)
  {
    NotExcluded("AAAUSDT");
    NotExcluded("CCCUSDT");
    assert "AAAUSDT"[3..] == "USDT" && "CCCUSDT"[3..] == "USDT";
  }

  /** The leveraged token and the blacklisted symbol are refused. */
  lemma ExampleRefused()
    ensures !Admitted(ExampleRows[1], Gainers, Blacklist)
    ensures !Admitted(ExampleRows[2], Gainers, Blacklist)
  {
    assert OccursAt("BTCUPUSDT", "UPUSDT", 3) by { assert "BTCUPUSDT"[3..9] == "UPUSDT"; }
    assert Contains("BTCUPUSDT", ExcludeKeywords[0]);
    assert "BNXUSDT" in Blacklist;
  }

  /** The leveraged-token row and the blacklisted row never reach the board,
      and gainers are listed by falling pct. */
  lemma RankingExample()
    ensures TopMovers(ExampleRows, Gainers, Blacklist, TopN) ==
              [Item("CCCUSDT", 5.0, 2.0, 10.0), Item("AAAUSDT", 3.0, 1.0, 10.0)]
  {
    var rows := ExampleRows;
    ExampleAdmitted();
    ExampleRefused();
    var a := Item("AAAUSDT", 3.0, 1.0, 10.0);
    var c := Item("CCCUSDT", 5.0, 2.0, 10.0);
    assert rows[1..][1..][1..] == [rows[3]];
    assert rows[1..][1..] == [rows[2], rows[3]];
    assert Candidates([rows[3]], Gainers, Blacklist) == [c];
    assert Candidates([rows[2], rows[3]], Gainers, Blacklist) == [c];
    assert Candidates(rows[1..], Gainers, Blacklist) == [c];
    assert Candidates(rows, Gainers, Blacklist) == [a, c];
    assert Rank([c], Gainers) == [c];
    assert [a, c][1..] == [c];
    assert Insert(a, [c], Gainers) == [c, a];
    assert Rank([a, c], Gainers) == [c, a];
  }

  /** A seven-character symbol made of A, C and USDT holds no excluded keyword. */
  lemma NotExcluded(symbol: string)
    requires symbol == "AAAUSDT" || symbol == "CCCUSDT"
    ensures !Excluded(symbol)
  {
    forall i | 0 <= i < |ExcludeKeywords| ensures !Contains(symbol, ExcludeKeywords[i]) {
      KeywordAbsent(symbol, i);
    }
  }

  /** One keyword at a time: the two longer ones cannot fit, and the heads
      of the others ('U', 'B') occur in no window that could hold them. */
  lemma KeywordAbsent(symbol: string, i: nat)
    requires symbol == "AAAUSDT" || symbol == "CCCUSDT"
    requires i < |ExcludeKeywords|
    ensures !Contains(symbol, ExcludeKeywords[i])
  {
    var sub := ExcludeKeywords[i];
    if i == 1 || i == 3 {
      assert |sub| == 8;
      NotContainsLonger(symbol, sub);
    } else {
      assert sub[0] == 'U' || sub[0] == 'B';
      assert |sub| >= 4;
      forall j | 0 <= j && j + |sub| <= |symbol| ensures symbol[j] != sub[0] {
        assert j <= 3;
      }
      NotContainsByHead(symbol, sub);
    }
  }

  lemma NotContainsLonger(s: string, sub: string)
    requires |sub| > |s|
    ensures !Contains(s, sub)
  {
  }

  /** No window of `s` starts with the head of `sub`, so `sub` does not occur. */
  lemma NotContainsByHead(s: string, sub: string)
    requires |sub| > 0
    requires forall j :: 0 <= j && j + |sub| <= |s| ==> s[j] != sub[0]
    ensures !Contains(s, sub)
  {
    forall j | 0 <= j && j + |sub| <= |s| ensures !OccursAt(s, sub, j) {
      assert s[j..j + |sub|][0] == s[j];
    }
  }
}

=== FILE: risk_frame.dfy ===
/** The daily risk latch (`DayGuard`) and the closed-form sizing rules of
    risk_frame.py.  The clock is an input: the date key of "today" is passed to
    `Rollover`, and the configured fractions are a `RiskParams` value. */
module RiskFrame {
  import opened Base

  /** Per-day record: date key, realised P&L fraction, closed trades, halt latch. */
  datatype DayState = DayState(key: string, pnlPct: real, trades: nat, halted: bool)

  /** The configured fractions the guard and the sizing read. */
  datatype RiskParams = RiskParams(
    dailyTarget: real,   // DAILY_TARGET_PCT: halt once the day's P&L reaches it
    dailyLossCap: real,  // DAILY_LOSS_CAP: halt once the day's P&L falls to it
    perTradeRisk: real,  // PER_TRADE_RISK: fraction of equity lost at a full stop
    slPct: real,         // SL_PCT
    tpPct: real          // TP_PCT
  )

  /** The values in force in config.py (the later assignments in that file win). */
  const Configured := RiskParams(0.05, -0.05, 0.03, 0.0040, 0.0055)

  const LONG: string := "LONG"
  const SHORT: string := "SHORT"

  /** A new day's record: no P&L, no trades, not halted. */
  function Fresh(key: string): DayState {
    DayState(key, 0.0, 0, false)
  }

  /** Resets the record when the date key changes; same key, same record. */
  function Rollover(s: DayState, today: string): (r: DayState)
    ensures r.key == today
    ensures today != s.key ==> r.pnlPct == 0.0 && r.trades == 0 && !r.halted
    ensures today == s.key ==> r == s
  {
    if today != s.key then Fresh(today) else s
  }

  /** New entries are allowed exactly while the latch is open. */
  predicate CanTrade(s: DayState) {
    !s.halted
  }

  /** Whether a cumulative P&L has reached either daily bound. */
  predicate BeyondBounds(pnl: real, p: RiskParams) {
    pnl >= p.dailyTarget || pnl <= p.dailyLossCap
  }

  /** Books one realised return; a halted day ignores it. */
  function OnTradeClose(s: DayState, pct: real, p: RiskParams): (r: DayState)
    ensures s.halted ==> r == s
    ensures !s.halted ==> r.key == s.key && r.trades == s.trades + 1 && r.pnlPct == s.pnlPct + pct
    ensures !s.halted ==> (r.halted <==> BeyondBounds(s.pnlPct + pct, p))
    ensures s.halted ==> r.halted
  {
    if s.halted then s
    else
      var pnl := s.pnlPct + pct;
      DayState(s.key, pnl, s.trades + 1, BeyondBounds(pnl, p))
  }

  /** The operator's `!` hotkey: close the latch for the rest of the day. */
  function Halt(s: DayState): (r: DayState)
    ensures r.halted && !CanTrade(r)
    ensures r.key == s.key && r.pnlPct == s.pnlPct && r.trades == s.trades
  {
    s.(halted := true)
  }

  /** Everything that can touch the day record: a loop tick (rollover with the
      current date key), a realised close, or the halt hotkey. */
  datatype DayEvent = Tick(today: string) | Close(pct: real) | ManualHalt

  function Apply(s: DayState, e: DayEvent, p: RiskParams): DayState {
    match e
    case Tick(today) => Rollover(s, today)
    case Close(pct) => OnTradeClose(s, pct, p)
    case ManualHalt => Halt(s)
  }

  function Run(s: DayState, es: seq<DayEvent>, p: RiskParams): DayState
    decreases |es|
  {
    if |es| == 0 then s else Run(Apply(s, es[0], p), es[1..], p)
  }

  /** True when no event of the run is a tick carrying another date key. */
  predicate SameDay(es: seq<DayEvent>, key: string) {
    forall i :: 0 <= i < |es| ==> (es[i].Tick? ==> es[i].today == key)
  }

  /** The halt latch is one-way within a day: once set, only a tick with a new
      date key clears it. */
  lemma {:induction false} HaltLatches(s: DayState, es: seq<DayEvent>, p: RiskParams)
    requires s.halted
    requires SameDay(es, s.key)
    ensures Run(s, es, p).halted
    ensures Run(s, es, p).key == s.key
    ensures Run(s, es, p).pnlPct == s.pnlPct && Run(s, es, p).trades == s.trades
    decreases |es|
  {
    if |es| > 0 {
      var s' := Apply(s, es[0], p);
      assert s' == s;
      assert SameDay(es[1..], s.key) by {
        forall i | 0 <= i < |es[1..]| ensures es[1..][i].Tick? ==> es[1..][i].today == s.key {
          assert es[1..][i] == es[i + 1];
        }
      }
      HaltLatches(s', es[1..], p);
    }
  }

  /** Counting closes in a run. */
  function Closes(es: seq<DayEvent>): nat
    decreases |es|
  {
    if |es| == 0 then 0 else (if es[0].Close? then 1 else 0) + Closes(es[1..])
  }

  /** Within one day the trade count grows only through closes, at most one per close. */
  lemma {:induction false} TradesBoundedByCloses(s: DayState, es: seq<DayEvent>, p: RiskParams)
    requires SameDay(es, s.key)
    ensures Run(s, es, p).key == s.key
    ensures s.trades <= Run(s, es, p).trades <= s.trades + Closes(es)
    decreases |es|
  {
    if |es| > 0 {
      var s' := Apply(s, es[0], p);
      assert s'.key == s.key;
      assert s.trades <= s'.trades <= s.trades + (if es[0].Close? then 1 else 0);
      assert SameDay(es[1..], s.key) by {
        forall i | 0 <= i < |es[1..]| ensures es[1..][i].Tick? ==> es[1..][i].today == s.key {
          assert es[1..][i] == es[i + 1];
        }
      }
      TradesBoundedByCloses(s', es[1..], p);
    }
  }

  /** `position_size_notional`: the notional whose full stop-loss costs
      `perTradeRisk` of equity, floored at zero.  The source divides by SL_PCT
      unguarded, so a zero SL_PCT is excluded. */
  function PositionSizeNotional(equity: real, p: RiskParams): (n: real)
    requires p.slPct != 0.0
    ensures n >= 0.0
    ensures equity * p.perTradeRisk / p.slPct >= 0.0 ==> n == equity * p.perTradeRisk / p.slPct
    ensures equity * p.perTradeRisk / p.slPct < 0.0 ==> n == 0.0
  {
    Max(equity * p.perTradeRisk / p.slPct, 0.0)
  }

  /** Sizing promise: a stop-loss fraction `slPct` of the returned notional is
      exactly the risked amount `equity * perTradeRisk`. */
  lemma StopLossCostsRiskBudget(equity: real, p: RiskParams)
    requires p.slPct > 0.0 && equity >= 0.0 && p.perTradeRisk >= 0.0
    ensures PositionSizeNotional(equity, p) * p.slPct == equity * p.perTradeRisk
  {
    var risk := equity * p.perTradeRisk;
    assert risk >= 0.0;
    assert risk / p.slPct >= 0.0;
    assert (risk / p.slPct) * p.slPct == risk;
  }

  /** equity 10000, risk 0.03, SL 0.0075 gives a notional of 40000. */
  lemma SizingExample()
    ensures PositionSizeNotional(10000.0, RiskParams(0.05, -0.05, 0.03, 0.0075, 0.015)) == 40000.0
  {
  }

  /** Stop-loss and take-profit levels around an entry. */
  datatype Bracket = Bracket(sl: real, tp: real)

  /** `compute_bracket`: LONG brackets below/above the entry; any other side is
      treated as SHORT. */
  function ComputeBracket(entry: real, side: string, p: RiskParams): (b: Bracket)
    ensures side == LONG ==> b.sl == entry * (1.0 - p.slPct) && b.tp == entry * (1.0 + p.tpPct)
    ensures side != LONG ==> b.sl == entry * (1.0 + p.slPct) && b.tp == entry * (1.0 - p.tpPct)
  {
    if side == LONG then Bracket(entry * (1.0 - p.slPct), entry * (1.0 + p.tpPct))
    else Bracket(entry * (1.0 + p.slPct), entry * (1.0 - p.tpPct))
  }

  /** With a positive entry and fractions in (0, 1), a LONG bracket has
      sl < entry < tp and a SHORT (any other side) bracket has tp < entry < sl. */
  lemma BracketOrdering(entry: real, side: string, p: RiskParams)
    requires entry > 0.0 && 0.0 < p.slPct < 1.0 && 0.0 < p.tpPct < 1.0
    ensures var b := ComputeBracket(entry, side, p);
            (side == LONG ==> 0.0 < b.sl < entry < b.tp) &&
            (side != LONG ==> 0.0 < b.tp < entry < b.sl)
  {
    var b := ComputeBracket(entry, side, p);
    if side == LONG {
      ScaleBelow(entry, p.slPct, b.sl);
      ScaleAbove(entry, p.tpPct, b.tp);
    } else {
      ScaleBelow(entry, p.tpPct, b.tp);
      ScaleAbove(entry, p.slPct, b.sl);
    }
  }

  lemma ScaleBelow(x: real, f: real, y: real)
    requires x > 0.0 && 0.0 < f < 1.0 && y == x * (1.0 - f)
    ensures 0.0 < y < x
  {
    assert y == x - x * f;
    assert x * f > 0.0;
  }

  lemma ScaleAbove(x: real, f: real, y: real)
    requires x > 0.0 && f > 0.0 && y == x * (1.0 + f)
    ensures x < y
  {
    assert y == x + x * f;
    assert x * f > 0.0;
  }

  lemma DivCancel(a: real, e: real)
    requires e != 0.0
    ensures (e * a) / e == a
  {
  }

  /** The bracket's levels sit at relative distances slPct and tpPct from the
      entry, on the losing and winning side: seen from the position's side, the
      return at the stop is -slPct and the return at the target is +tpPct. */
  lemma BracketDistances(entry: real, side: string, p: RiskParams)
    requires entry != 0.0
    ensures var b := ComputeBracket(entry, side, p);
            (side == LONG ==> (b.sl - entry) / entry == -p.slPct && (b.tp - entry) / entry == p.tpPct) &&
            (side != LONG ==> (entry - b.sl) / entry == -p.slPct && (entry - b.tp) / entry == p.tpPct)
  {
    var b := ComputeBracket(entry, side, p);
    if side == LONG {
      assert b.sl - entry == entry * -p.slPct;
      assert b.tp - entry == entry * p.tpPct;
      DivCancel(-p.slPct, entry);
      DivCancel(p.tpPct, entry);
    } else {
      assert entry - b.sl == entry * -p.slPct;
      assert entry - b.tp == entry * p.tpPct;
      DivCancel(-p.slPct, entry);
      DivCancel(p.tpPct, entry);
    }
  }

  /** entry 100, LONG, SL 0.0075, TP 0.015 gives (99.25, 101.5). */
  lemma BracketExample()
    ensures ComputeBracket(100.0, LONG, RiskParams(0.05, -0.05, 0.03, 0.0075, 0.015)) == Bracket(99.25, 101.5)
  {
  }

  /** A fresh day closing a trade at -0.16 against a -0.15 cap halts and blocks entries. */
  lemma LossCapExample()
    ensures var s := OnTradeClose(Fresh("2024-01-02"), -0.16, RiskParams(0.20, -0.15, 0.03, 0.0075, 0.015));
            s.halted && !CanTrade(s) && s.trades == 1
  {
  }
}

=== FILE: scalp_breakout.dfy ===
/** `scalp_breakout_signal` of signals/signal_scalp_breakout.py: an immediate
    one-minute breakout of the previous twenty bars' range, refused when the
    last close has run too far from a close-based VWAP of the last 21 bars. */
module ScalpBreakout {
  import opened Base
  import opened Series
  import RiskFrame

  /** `ScalpSignal(ok, side, entry, reason)`. */
  datatype ScalpSignal = ScalpSignal(ok: bool, side: string, entry: real, reason: string)

  /** Bars in the VWAP window and in the breakout range (plus the last bar). */
  const VwapWindow: nat := 21
  const RangeBars: nat := 20
  /** Fewer closes than this are refused. */
  const MinScalpBars: nat := 25
  /** `VWAP_DIST_MAX` as the configuration sets it. */
  const VwapDistMax: real := 0.01

  const ReasonKlineError: string := "kline-error"
  const ReasonInsufficient: string := "insufficient-bars"
  const ReasonOverextended: string := "overextended-vwap"
  const ReasonLong: string := "scalp-breakout-long"
  const ReasonShort: string := "scalp-breakout-short"
  const ReasonNoBreakout: string := "no-breakout"

  /** A refusal: not ok, no side, entry 0. */
  function Refused(reason: string): ScalpSignal {
    ScalpSignal(false, "", 0.0, reason)
  }

  /** `_vwap_from_klines`: `None` without bars; the last close when the
      volume of the last 21 bars is not positive; otherwise the
      volume-weighted mean close of those bars. */
  function Vwap(bars: seq<Candle>): (vw: Option<real>)
    ensures vw.None? <==> |bars| == 0
    ensures var w := LastN(bars, VwapWindow);
            |bars| > 0 && Sum(Vols(w)) <= 0.0 ==> vw == Some(bars[|bars| - 1].close)
    ensures var w := LastN(bars, VwapWindow);
            |bars| > 0 && Sum(Vols(w)) > 0.0 ==> vw.value * Sum(Vols(w)) == WeightedSum(Closes(w), Vols(w))
  {
    if |bars| == 0 then None
    else
      var w := LastN(bars, VwapWindow);
      var v := Sum(Vols(w));
      if v <= 0.0 then Some(bars[|bars| - 1].close)
      else Some(WeightedSum(Closes(w), Vols(w)) / v)
  }

  /** With non-negative volumes the VWAP lies between the lowest and the
      highest close of its window, in both branches. */
  lemma VwapWithinCloses(bars: seq<Candle>)
    requires |bars| > 0 && NonNegative(Vols(LastN(bars, VwapWindow)))
    ensures var w := Closes(LastN(bars, VwapWindow));
            MinOf(w) <= Vwap(bars).value <= MaxOf(w)
  {
    var w := LastN(bars, VwapWindow);
    var v := Sum(Vols(w));
    if v <= 0.0 {
      var cs := Closes(w);
      assert cs[|cs| - 1] == bars[|bars| - 1].close;
    } else {
      WeightedMeanBounds(Closes(w), Vols(w));
    }
  }

  /** `max(highs[-21:-1])`. */
  function PrevHigh(bars: seq<Candle>): (h: real)
    requires |bars| > RangeBars
    ensures forall i :: |bars| - 1 - RangeBars <= i < |bars| - 1 ==> bars[i].high <= h
    ensures exists i :: |bars| - 1 - RangeBars <= i < |bars| - 1 && h == bars[i].high
  {
    var xs := Highs(bars);
    WindowMax(xs, RangeBars);
    MaxOf(BeforeLast(xs, RangeBars))
  }

  /** `min(lows[-21:-1])`. */
  function PrevLow(bars: seq<Candle>): (l: real)
    requires |bars| > RangeBars
    ensures forall i :: |bars| - 1 - RangeBars <= i < |bars| - 1 ==> l <= bars[i].low
    ensures exists i :: |bars| - 1 - RangeBars <= i < |bars| - 1 && l == bars[i].low
  {
    var xs := Lows(bars);
    WindowMin(xs, RangeBars);
    MinOf(BeforeLast(xs, RangeBars))
  }

  /** `vw and abs(last - vw) / vw > vwap_dist_max`: a missing or zero VWAP
      never rejects. */
  predicate Overextended(bars: seq<Candle>, distMax: real)
    requires |bars| > 0
  {
    var vw := Vwap(bars);
    var last := bars[|bars| - 1].close;
    vw.Some? && vw.value != 0.0 && Abs(last - vw.value) / vw.value > distMax
  }

  /** `scalp_breakout_signal(symbol)`; `bars` is `None` when the fetch raised. */
  function Signal(bars: Option<seq<Candle>>, distMax: real): (s: ScalpSignal)
    ensures s.ok ==> (bars.Some? && |bars.value| >= MinScalpBars &&
                      (s.side == RiskFrame.LONG || s.side == RiskFrame.SHORT) &&
                      s.entry == bars.value[|bars.value| - 1].close)
    ensures !s.ok ==> s.side == "" && s.entry == 0.0
  {
    if bars.None? then Refused(ReasonKlineError)
    else
      var cs := bars.value;
      if |cs| < MinScalpBars then Refused(ReasonInsufficient)
      else
        var last := cs[|cs| - 1].close;
        if Overextended(cs, distMax) then Refused(ReasonOverextended)
        else if last >= PrevHigh(cs) then ScalpSignal(true, RiskFrame.LONG, last, ReasonLong)
        else if last <= PrevLow(cs) then ScalpSignal(true, RiskFrame.SHORT, last, ReasonShort)
        else Refused(ReasonNoBreakout)
  }

  /** A failed fetch and a short history are refused before anything else. */
  lemma RefusedEarly(cs: seq<Candle>, distMax: real)
    requires |cs| < MinScalpBars
    ensures Signal(None, distMax) == Refused(ReasonKlineError)
    ensures Signal(Some(cs), distMax) == Refused(ReasonInsufficient)
  {
  }

  /** The decision order on a full history: overextension first; then LONG
      exactly when the last close reaches the previous 20 highs; SHORT only
      when it does not and reaches down to the previous 20 lows; otherwise no
      breakout, with the close strictly inside that range. */
  lemma DecisionOrder(cs: seq<Candle>, distMax: real)
    requires |cs| >= MinScalpBars
    ensures var s := Signal(Some(cs), distMax);
            var last := cs[|cs| - 1].close;
            (Overextended(cs, distMax) <==> s.reason == ReasonOverextended) &&
            (s.side == RiskFrame.LONG <==> !Overextended(cs, distMax) && last >= PrevHigh(cs)) &&
            (s.side == RiskFrame.SHORT <==> !Overextended(cs, distMax) && last < PrevHigh(cs) && last <= PrevLow(cs)) &&
            (s.reason == ReasonNoBreakout <==> !Overextended(cs, distMax) && PrevLow(cs) < last < PrevHigh(cs))
  {
    var s := Signal(Some(cs), distMax);
    var last := cs[|cs| - 1].close;
    if Overextended(cs, distMax) {
      assert s == Refused(ReasonOverextended);
    } else if last >= PrevHigh(cs) {
      assert s == ScalpSignal(true, RiskFrame.LONG, last, ReasonLong);
    } else if last <= PrevLow(cs) {
      assert s == ScalpSignal(true, RiskFrame.SHORT, last, ReasonShort);
    } else {
      assert s == Refused(ReasonNoBreakout);
    }
  }

  /** A LONG signal's entry is at or above every high of the twenty bars
      before it, and a SHORT signal's at or below every low. */
  lemma BreakoutClearsRange(cs: seq<Candle>, distMax: real)
    requires |cs| >= MinScalpBars
    ensures var s := Signal(Some(cs), distMax);
            (s.side == RiskFrame.LONG ==> forall i :: |cs| - 1 - RangeBars <= i < |cs| - 1 ==> cs[i].high <= s.entry) &&
            (s.side == RiskFrame.SHORT ==> forall i :: |cs| - 1 - RangeBars <= i < |cs| - 1 ==> s.entry <= cs[i].low)
  {
    var s := Signal(Some(cs), distMax);
    if s.side == RiskFrame.LONG {
      assert s.entry >= PrevHigh(cs);
    } else if s.side == RiskFrame.SHORT {
      assert s.entry <= PrevLow(cs);
    }
  }
}

=== FILE: series.dfy ===
/** Candles and the few list operations the signals apply to them: Python's
    negative-index slices, `min`/`max` of a window, and the weighted mean
    `sum(v * w) / sum(w)` used for VWAP and trade anchors. */
module Series {

  /** One kline: the fields `fetch_klines` returns, column by column. */
  datatype Candle = Candle(high: real, low: real, close: real, vol: real)

  function Closes(bars: seq<Candle>): (xs: seq<real>)
    ensures |xs| == |bars| && forall i :: 0 <= i < |bars| ==> xs[i] == bars[i].close
  {
    seq(|bars|, i requires 0 <= i < |bars| => bars[i].close)
  }

  function Highs(bars: seq<Candle>): (xs: seq<real>)
    ensures |xs| == |bars| && forall i :: 0 <= i < |bars| ==> xs[i] == bars[i].high
  {
    seq(|bars|, i requires 0 <= i < |bars| => bars[i].high)
  }

  function Lows(bars: seq<Candle>): (xs: seq<real>)
    ensures |xs| == |bars| && forall i :: 0 <= i < |bars| ==> xs[i] == bars[i].low
  {
    seq(|bars|, i requires 0 <= i < |bars| => bars[i].low)
  }

  function Vols(bars: seq<Candle>): (xs: seq<real>)
    ensures |xs| == |bars| && forall i :: 0 <= i < |bars| ==> xs[i] == bars[i].vol
  {
    seq(|bars|, i requires 0 <= i < |bars| => bars[i].vol)
  }

  /** Python's `xs[-n:]`: the last `n` elements, or all of them. */
  function LastN<T>(xs: seq<T>, n: nat): (w: seq<T>)
    ensures |w| == if n < |xs| then n else |xs|
    ensures forall i :: 0 <= i < |w| ==> w[i] == xs[|xs| - |w| + i]
  {
    if n < |xs| then xs[|xs| - n..] else xs
  }

  /** Python's `xs[-(n+1):-1]` on a list longer than `n`: the `n` elements
      before the last one. */
  function BeforeLast<T>(xs: seq<T>, n: nat): (w: seq<T>)
    requires |xs| > n
    ensures |w| == n
    ensures forall i :: 0 <= i < n ==> w[i] == xs[|xs| - 1 - n + i]
  {
    xs[|xs| - 1 - n..|xs| - 1]
  }

  /** `min(xs)`. */
  function MinOf(xs: seq<real>): (m: real)
    requires |xs| > 0
    ensures m in xs
    ensures forall i :: 0 <= i < |xs| ==> m <= xs[i]
    decreases |xs|
  {
    if |xs| == 1 then xs[0]
    else
      var rest := MinOf(xs[1..]);
      assert forall i :: 1 <= i < |xs| ==> xs[i] == xs[1..][i - 1];
      if xs[0] <= rest then xs[0] else rest
  }

  /** `max(xs)`. */
  function MaxOf(xs: seq<real>): (m: real)
    requires |xs| > 0
    ensures m in xs
    ensures forall i :: 0 <= i < |xs| ==> xs[i] <= m
    decreases |xs|
  {
    if |xs| == 1 then xs[0]
    else
      var rest := MaxOf(xs[1..]);
      assert forall i :: 1 <= i < |xs| ==> xs[i] == xs[1..][i - 1];
      if xs[0] >= rest then xs[0] else rest
  }

  /** The largest of the `n` values before the last bounds each of them and is one of them. */
  lemma WindowMax(xs: seq<real>, n: nat)
    requires 0 < n < |xs|
    ensures forall i :: |xs| - 1 - n <= i < |xs| - 1 ==> xs[i] <= MaxOf(BeforeLast(xs, n))
    ensures exists i :: |xs| - 1 - n <= i < |xs| - 1 && xs[i] == MaxOf(BeforeLast(xs, n))
  {
    var w := BeforeLast(xs, n);
    var start := |xs| - 1 - n;
    forall i | start <= i < |xs| - 1 ensures xs[i] <= MaxOf(w) {
      assert w[i - start] == xs[i];
    }
    var k :| 0 <= k < |w| && w[k] == MaxOf(w);
    assert w[k] == xs[start + k];
  }

  /** The smallest of the `n` values before the last bounds each of them and is one of them. */
  lemma WindowMin(xs: seq<real>, n: nat)
    requires 0 < n < |xs|
    ensures forall i :: |xs| - 1 - n <= i < |xs| - 1 ==> MinOf(BeforeLast(xs, n)) <= xs[i]
    ensures exists i :: |xs| - 1 - n <= i < |xs| - 1 && xs[i] == MinOf(BeforeLast(xs, n))
  {
    var w := BeforeLast(xs, n);
    var start := |xs| - 1 - n;
    forall i | start <= i < |xs| - 1 ensures MinOf(w) <= xs[i] {
      assert w[i - start] == xs[i];
    }
    var k :| 0 <= k < |w| && w[k] == MinOf(w);
    assert w[k] == xs[start + k];
  }

  /** `sum(xs)`. */
  function Sum(xs: seq<real>): real
    decreases |xs|
  {
    if |xs| == 0 then 0.0 else Sum(xs[..|xs| - 1]) + xs[|xs| - 1]
  }

  /** `sum(v * w for v, w in zip(vals, ws))` on lists of equal length. */
  function WeightedSum(vals: seq<real>, ws: seq<real>): real
    requires |vals| == |ws|
    decreases |vals|
  {
    if |vals| == 0 then 0.0
    else WeightedSum(vals[..|vals| - 1], ws[..|ws| - 1]) + vals[|vals| - 1] * ws[|ws| - 1]
  }

  predicate NonNegative(xs: seq<real>) {
    forall i :: 0 <= i < |xs| ==> xs[i] >= 0.0
  }

  /** `lo * total <= acc <= hi * total`: a weighted sum `acc` with total
      weight `total` whose values all lie in [lo, hi]. */
  predicate Between(lo: real, hi: real, total: real, acc: real) {
    lo * total <= acc <= hi * total
  }

  /** With non-negative weights, every value between `lo` and `hi` keeps the
      weighted sum between `lo` and `hi` times the total weight. */
  lemma {:induction false} WeightedSumBounds(vals: seq<real>, ws: seq<real>, lo: real, hi: real)
    requires |vals| == |ws| && NonNegative(ws)
    requires forall i :: 0 <= i < |vals| ==> lo <= vals[i] <= hi
    ensures Between(lo, hi, Sum(ws), WeightedSum(vals, ws))
    decreases |vals|
  {
    if |vals| == 0 {
      assert Sum(ws) == 0.0 && WeightedSum(vals, ws) == 0.0;
    } else {
      var n := |vals| - 1;
      var vs, us := vals[..n], ws[..n];
      WeightedSumBounds(vs, us, lo, hi);
      var t, a := Sum(us), WeightedSum(vs, us);
      assert Sum(ws) == t + ws[n];
      assert WeightedSum(vals, ws) == a + vals[n] * ws[n];
      StepBounds(lo, hi, t, a, vals[n], ws[n]);
    }
  }

  /** One more value and weight keeps the bound of `WeightedSumBounds`. */
  lemma StepBounds(lo: real, hi: real, total: real, acc: real, v: real, w: real)
    requires Between(lo, hi, total, acc)
    requires lo <= v <= hi && w >= 0.0
    ensures Between(lo, hi, total + w, acc + v * w)
  {
    assert lo * w <= v * w;
    assert v * w <= hi * w;
  }

  /** A weighted mean with non-negative weights and a positive total lies
      between the smallest and the largest value. */
  lemma WeightedMeanBounds(vals: seq<real>, ws: seq<real>)
    requires |vals| == |ws| > 0 && NonNegative(ws) && Sum(ws) > 0.0
    ensures MinOf(vals) <= WeightedSum(vals, ws) / Sum(ws) <= MaxOf(vals)
  {
    var lo, hi := MinOf(vals), MaxOf(vals);
    WeightedSumBounds(vals, ws, lo, hi);
    DivBounds(lo, hi, Sum(ws), WeightedSum(vals, ws));
  }

  lemma DivBounds(lo: real, hi: real, total: real, acc: real)
    requires total > 0.0 && Between(lo, hi, total, acc)
    ensures lo <= acc / total <= hi
  {
    assert (lo * total) / total == lo;
    assert (hi * total) / total == hi;
  }
}

=== FILE: signing.dfy ===
/** `LiveAdapter._sign` of adapters.py: the canonical query string of a
    request (parameters sorted by key, `k=v` joined by `&`) followed by the
    HMAC signature of exactly that string.  The keyed digest is a parameter. */
module Signing {
  import opened Text

  /** One `key=value` entry; values are already the `str(...)` of the source. */
  type Param = (string, string)

  /** A Python dict of request parameters: entries in insertion order, each key once. */
  predicate DistinctKeys(ps: seq<Param>) {
    forall i, j :: 0 <= i < j < |ps| ==> ps[i].0 != ps[j].0
  }

  /** Strictly increasing keys in code-point order. */
  predicate KeySorted(ps: seq<Param>) {
    forall i, j :: 0 <= i < j < |ps| ==> LexLess(ps[i].0, ps[j].0)
  }

  predicate KeyAbsent(k: string, ps: seq<Param>) {
    forall i :: 0 <= i < |ps| ==> ps[i].0 != k
  }

  /** Inserts an entry whose key is new into a key-sorted sequence. */
  function InsertByKey(x: Param, s: seq<Param>): (r: seq<Param>)
    requires KeySorted(s) && KeyAbsent(x.0, s)
    ensures KeySorted(r)
    ensures multiset(r) == multiset(s) + multiset{x}
    ensures |r| == |s| + 1
    decreases |s|
  {
    if |s| == 0 then [x]
    else if LexLess(x.0, s[0].0) then
      PrependLeast(x, s);
      [x] + s
    else
      LexLessTotal(x.0, s[0].0);
      var tail := InsertByKey(x, s[1..]);
      InsertByKeyStep(x, s, tail);
      [s[0]] + tail
  }

  /** An entry whose key comes before the first key can go in front. */
  lemma PrependLeast(x: Param, s: seq<Param>)
    requires KeySorted(s) && |s| > 0 && LexLess(x.0, s[0].0)
    ensures KeySorted([x] + s)
  {
    forall j | 0 < j < |s| ensures LexLess(x.0, s[j].0) {
      LexLessTransitive(x.0, s[0].0, s[j].0);
    }
  }

  /** Putting the first entry back in front of a sorted insertion into the
      rest keeps the keys sorted, since every key there comes after it. */
  lemma InsertByKeyStep(x: Param, s: seq<Param>, tail: seq<Param>)
    requires KeySorted(s) && |s| > 0 && LexLess(s[0].0, x.0)
    requires KeySorted(tail) && multiset(tail) == multiset(s[1..]) + multiset{x}
    ensures KeySorted([s[0]] + tail)
    ensures multiset([s[0]] + tail) == multiset(s) + multiset{x}
  {
    assert s == [s[0]] + s[1..];
    forall k | 0 <= k < |tail| ensures LexLess(s[0].0, tail[k].0) {
      assert tail[k] in multiset(tail);
      if tail[k] != x {
        assert tail[k] in multiset(s[1..]);
        var j :| 0 <= j < |s[1..]| && s[1..][j] == tail[k];
        assert s[j + 1] == tail[k];
      }
    }
  }

  /** `sorted(params.keys())`, carrying each key's value along. */
  function SortByKey(ps: seq<Param>): (r: seq<Param>)
    requires DistinctKeys(ps)
    ensures KeySorted(r)
    ensures multiset(r) == multiset(ps)
    decreases |ps|
  {
    if |ps| == 0 then []
    else
      assert ps == [ps[0]] + ps[1..];
      var rest := SortByKey(ps[1..]);
      FirstKeyAbsent(ps, rest);
      InsertByKey(ps[0], rest)
  }

  /** With distinct keys, the first key is absent from any rearrangement of
      the rest. */
  lemma FirstKeyAbsent(ps: seq<Param>, rest: seq<Param>)
    requires DistinctKeys(ps) && |ps| > 0 && multiset(rest) == multiset(ps[1..])
    ensures KeyAbsent(ps[0].0, rest)
  {
    forall i | 0 <= i < |rest| ensures rest[i].0 != ps[0].0 {
      assert rest[i] in multiset(ps[1..]);
      var j :| 0 <= j < |ps[1..]| && ps[1..][j] == rest[i];
      assert ps[j + 1] == rest[i];
    }
  }

  function Entry(p: Param): string {
    p.0 + "=" + p.1
  }

  /** `"&".join(...)`. */
  function Join(ps: seq<Param>): string
    decreases |ps|
  {
    if |ps| == 0 then ""
    else if |ps| == 1 then Entry(ps[0])
    else Entry(ps[0]) + "&" + Join(ps[1..])
  }

  /** The string the signature is computed over. */
  function CanonicalQuery(ps: seq<Param>): string
    requires DistinctKeys(ps)
  {
    Join(SortByKey(ps))
  }

  const SignatureField: string := "&signature="

  /** `_sign(params)`: the canonical query, then "&signature=" and the digest
      of that query (the HMAC-SHA256 hex digest under the account secret). */
  function Sign(ps: seq<Param>, digest: string -> string): (signed: string)
    requires DistinctKeys(ps)
    ensures var q := CanonicalQuery(ps);
            |signed| == |q| + |SignatureField| + |digest(q)| &&
            signed[..|q|] == q && signed[|q| + |SignatureField|..] == digest(q)
    ensures var q := CanonicalQuery(ps);
            signed[|q|..|q| + |SignatureField|] == SignatureField
  {
    var q := CanonicalQuery(ps);
    var signed := q + SignatureField + digest(q);
    assert signed[..|q|] == q;
    assert signed[|q|..|q| + |SignatureField|] == SignatureField;
    assert signed[|q| + |SignatureField|..] == digest(q);
    signed
  }

  /** Two key-sorted sequences holding the same entries are equal: sorting
      leaves no choice. */
  lemma {:induction false} SortedUnique(a: seq<Param>, b: seq<Param>)
    requires KeySorted(a) && KeySorted(b) && multiset(a) == multiset(b)
    ensures a == b
    decreases |a|
  {
    assert |a| == |multiset(a)| == |b|;
    if |a| > 0 {
      FirstIsLeast(a, b[0]);
      FirstIsLeast(b, a[0]);
      if a[0] != b[0] {
        LexLessAsymmetric(a[0].0, b[0].0);
      }
      assert a[0] == b[0];
      SortedTail(a);
      SortedTail(b);
      SortedUnique(a[1..], b[1..]);
      assert a == [a[0]] + a[1..] && b == [b[0]] + b[1..];
    }
  }

  /** Dropping the first entry keeps a sequence key-sorted and removes exactly
      that entry. */
  lemma SortedTail(a: seq<Param>)
    requires KeySorted(a) && |a| > 0
    ensures KeySorted(a[1..])
    ensures multiset(a[1..]) == multiset(a) - multiset{a[0]}
  {
    assert a == [a[0]] + a[1..];
  }

  /** The first entry of a key-sorted sequence has the least key. */
  lemma FirstIsLeast(a: seq<Param>, x: Param)
    requires KeySorted(a) && |a| > 0 && x in multiset(a)
    ensures x == a[0] || LexLess(a[0].0, x.0)
  {
    var j :| 0 <= j < |a| && a[j] == x;
  }

  /** The signed query does not depend on the order the parameters were added
      to the dict: the same entries in any order sign identically. */
  lemma SignOrderIndependent(ps: seq<Param>, qs: seq<Param>, digest: string -> string)
    requires DistinctKeys(ps) && DistinctKeys(qs) && multiset(ps) == multiset(qs)
    ensures CanonicalQuery(ps) == CanonicalQuery(qs)
    ensures Sign(ps, digest) == Sign(qs, digest)
  {
    SortedUnique(SortByKey(ps), SortByKey(qs));
  }

  /** Two entries added out of key order come out swapped. */
  lemma SortTwo(x: Param, y: Param)
    requires LexLess(y.0, x.0)
    ensures DistinctKeys([x, y]) && SortByKey([x, y]) == [y, x]
  {
    LexLessIrreflexive(y.0);
    LexLessAsymmetric(y.0, x.0);
    assert [x, y][1..] == [y];
    assert SortByKey([y]) == [y];
    assert InsertByKey(x, [y]) == [y] + InsertByKey(x, []);
  }

  lemma SideBeforeSymbol()
    ensures LexLess("side", "symbol")
  {
    assert "side"[1..] == "ide" && "symbol"[1..] == "ymbol";
  }

  lemma JoinTwo(x: Param, y: Param)
    ensures Join([x, y]) == x.0 + "=" + x.1 + "&" + y.0 + "=" + y.1
  {
    assert [x, y][1..] == [y];
  }

  /** `{"symbol": "BTCUSDT", "side": "BUY"}` has the query "side=BUY&symbol=BTCUSDT". */
  lemma QueryExample()
    ensures DistinctKeys([("symbol", "BTCUSDT"), ("side", "BUY")])
    ensures CanonicalQuery([("symbol", "BTCUSDT"), ("side", "BUY")]) == "side=BUY&symbol=BTCUSDT"
  {
    var side := ("side", "BUY");
    var symbol := ("symbol", "BTCUSDT");
    SideBeforeSymbol();
    SortTwo(symbol, side);
    JoinTwo(side, symbol);
  }

  /** ... and signs "side=BUY&symbol=BTCUSDT" followed by its digest. */
  lemma SignExample(digest: string -> string)
    ensures Sign([("symbol", "BTCUSDT"), ("side", "BUY")], digest) ==
            "side=BUY&symbol=BTCUSDT&signature=" + digest("side=BUY&symbol=BTCUSDT")
  {
    var ps := [("symbol", "BTCUSDT"), ("side", "BUY")];
    QueryExample();
    var q := "side=BUY&symbol=BTCUSDT";
    assert Sign(ps, digest) == q + SignatureField + digest(q);
    assert q + SignatureField == "side=BUY&symbol=BTCUSDT&signature=";
  }
}

=== FILE: sim_adapter.dfy ===
/** `SimAdapter` of adapters.py: a paper-trading bracket.  Placing fills the
    slot at the stop-limit's limit price; polling compares one price (the
    outcome of `best_price`, `None` when it raised) with the bracket. */
module SimAdapter {
  import opened Base
  import opened RiskFrame
  import opened StopLimit
  import opened Positions

  /** The order id the simulator returns. */
  const SimOrderId: string := "SIM-ORDER"

  /** `place_bracket`: `entry` is the parsed reference price (`None` when
      `float(entry)` raised), `bestPrice` the fallback fetch.  The slot is
      overwritten; the result is the new position and "SIM-ORDER". */
  function PlaceBracket(symbol: string, side: string, qty: real, sl: real, tp: real,
                        entry: Option<real>, bestPrice: Option<real>): (r: Result<(Position, string)>)
    ensures r.Err? <==> entry.None? && bestPrice.None?
    ensures r.Ok? ==> r.value.1 == SimOrderId
    ensures r.Ok? ==> var pos := r.value.0;
              pos.symbol == symbol && pos.side == side && pos.qty == qty && pos.sl == sl && pos.tp == tp &&
              pos.entryRef == (if entry.Some? then entry.value else bestPrice.value) &&
              pos.entry == pos.entryLimit && pos.orders.None?
    ensures r.Ok? ==> var pos := r.value.0;
              StopLimitPx(pos.entryStop, pos.entryLimit) == ComputeStopLimit(pos.entryRef, side == LONG, StopBuffer, LimitBuffer)
  {
    if entry.None? && bestPrice.None? then Err("price fetch failed")
    else
      var ref := if entry.Some? then entry.value else bestPrice.value;
      var px := ComputeStopLimit(ref, side == LONG, StopBuffer, LimitBuffer);
      Ok((Position(symbol, side, qty, px.limit, sl, tp, ref, px.stop, px.limit, None), SimOrderId))
  }

  /** The simulated fill is conservative: a long pays above its reference
      price and any other side sells below it. */
  lemma SimFillBeyondReference(symbol: string, side: string, qty: real, sl: real, tp: real, entry: real)
    requires entry > 0.0
    ensures var r := PlaceBracket(symbol, side, qty, sl, tp, Some(entry), None);
            r.Ok? && HasOpen(Some(r.value.0)) &&
            (side == LONG ==> r.value.0.entry > entry) &&
            (side != LONG ==> 0.0 < r.value.0.entry < entry)
  {
    StopLimitOrdering(entry, side == LONG, StopBuffer, LimitBuffer);
  }

  /** Take-profit test: at or beyond the target, upward for LONG and downward
      for any other side. */
  predicate HitTp(pos: Position, px: real) {
    if pos.side == LONG then px >= pos.tp else px <= pos.tp
  }

  /** Stop-loss test, mirrored. */
  predicate HitSl(pos: Position, px: real) {
    if pos.side == LONG then px <= pos.sl else px >= pos.sl
  }

  /** `poll_and_close_if_hit`.  `Err` is the division by a zero entry, which
      escapes before anything changes. */
  function Poll(slot: Slot, day: DayState, price: Option<real>, p: RiskParams): (r: Result<PollOutcome>)
    ensures r.Err? <==> slot.Some? && price.Some? && (HitTp(slot.value, price.value) || HitSl(slot.value, price.value))
                        && slot.value.entry == 0.0
    ensures r.Ok? ==> (r.value.report.Closed? <==>
              slot.Some? && price.Some? && (HitTp(slot.value, price.value) || HitSl(slot.value, price.value)))
    ensures r.Ok? && r.value.report.NoClose? ==> r.value == Quiet(slot, day)
    ensures r.Ok? && r.value.report.Closed? ==>
              var pos := slot.value;
              var exit := if HitTp(pos, price.value) then pos.tp else pos.sl;
              r.value == CloseAt(pos, exit, if HitTp(pos, price.value) then ReasonTp else ReasonSl, day, p)
  {
    if slot.None? || price.None? then Ok(Quiet(slot, day))
    else
      var pos := slot.value;
      var px := price.value;
      var hitTp := HitTp(pos, px);
      var hitSl := HitSl(pos, px);
      if hitTp || hitSl then
        var exit := if hitTp then pos.tp else pos.sl;
        if pos.entry == 0.0 then Err("division by zero")
        else Ok(CloseAt(pos, exit, if hitTp then ReasonTp else ReasonSl, day, p))
      else Ok(Quiet(slot, day))
  }

  /** A price that crosses both levels at once closes at the target. */
  lemma TakeProfitWins(pos: Position, day: DayState, px: real, p: RiskParams)
    requires pos.entry != 0.0 && HitTp(pos, px) && HitSl(pos, px)
    ensures var r := Poll(Some(pos), day, Some(px), p);
            r.Ok? && r.value.report.Closed? && r.value.report.closure.reason == ReasonTp &&
            r.value.report.closure.exit == pos.tp
  {
  }

  /** A price strictly inside an ordered bracket (sl < px < tp for LONG,
      tp < px < sl for SHORT) closes nothing. */
  lemma InsideBracketHolds(pos: Position, day: DayState, px: real, p: RiskParams)
    requires pos.side == LONG ==> pos.sl < px < pos.tp
    requires pos.side != LONG ==> pos.tp < px < pos.sl
    ensures Poll(Some(pos), day, Some(px), p) == Ok(Quiet(Some(pos), day))
  {
  }

  /** Opening at an entry with a bracket computed from that same entry, a
      take-profit close books exactly +tpPct on the day and a stop-loss close
      exactly -slPct, and the slot is free again. */
  lemma BracketCloseBooksConfiguredReturn(pos: Position, day: DayState, px: real, p: RiskParams)
    requires pos.side == LONG || pos.side == SHORT
    requires pos.entry != 0.0
    requires Bracket(pos.sl, pos.tp) == ComputeBracket(pos.entry, pos.side, p)
    requires HitTp(pos, px) || HitSl(pos, px)
    ensures var r := Poll(Some(pos), day, Some(px), p);
            r.Ok? && !HasOpen(r.value.slot) &&
            r.value.day == OnTradeClose(day, if HitTp(pos, px) then p.tpPct else -p.slPct, p)
  {
    BracketReturns(pos.entry, pos.side, p);
  }

  /** A failed price fetch or an empty slot leaves slot and day untouched. */
  lemma PollWithoutPriceIsQuiet(slot: Slot, day: DayState, price: Option<real>, p: RiskParams)
    ensures Poll(slot, day, None, p) == Ok(Quiet(slot, day))
    ensures Poll(None, day, price, p) == Ok(Quiet(None, day))
  {
  }

  /** A LONG simulated trade from reference 100 with bracket (99.25, 101.5):
      the fill is 100.17007, and a print at 102 takes profit. */
  lemma SimRoundExample(day: DayState, p: RiskParams)
    requires !day.halted
    ensures var placed := PlaceBracket("BTCUSDT", LONG, 1.0, 99.25, 101.5, Some(100.0), None);
            placed.Ok? && placed.value.0.entry == 100.17007 &&
            var r := Poll(Some(placed.value.0), day, Some(102.0), p);
            r.Ok? && r.value.report.Closed? && r.value.report.closure.reason == ReasonTp &&
            r.value.day.trades == day.trades + 1
  {
    StopLimitExample();
  }
}

=== FILE: stop_limit.dfy ===
/** `compute_stop_limit` of utils.py: the trigger and limit prices of the
    stop-limit entry order, placed beyond a reference price in the direction
    of the trade. */
module StopLimit {

  /** Trigger (`stop`) and limit price of a stop-limit entry. */
  datatype StopLimitPx = StopLimitPx(stop: real, limit: real)

  /** STOP_BUFFER_PCT and LIMIT_BUFFER_PCT of config.py. */
  const StopBuffer: real := 0.001
  const LimitBuffer: real := 0.0007

  /** Bullish: the stop sits `stopBuf` above the reference and the limit
      `limitBuf` above the stop; bearish mirrors both below. */
  function ComputeStopLimit(entryRef: real, bullish: bool, stopBuf: real, limitBuf: real): (r: StopLimitPx)
    ensures bullish ==> r.stop == entryRef * (1.0 + stopBuf) && r.limit == r.stop * (1.0 + limitBuf)
    ensures !bullish ==> r.stop == entryRef * (1.0 - stopBuf) && r.limit == r.stop * (1.0 - limitBuf)
  {
    if bullish then
      var stop := entryRef * (1.0 + stopBuf);
      StopLimitPx(stop, stop * (1.0 + limitBuf))
    else
      var stop := entryRef * (1.0 - stopBuf);
      StopLimitPx(stop, stop * (1.0 - limitBuf))
  }

  /** The bearish computation is the bullish one with both buffers negated. */
  lemma StopLimitMirror(entryRef: real, stopBuf: real, limitBuf: real)
    ensures ComputeStopLimit(entryRef, false, stopBuf, limitBuf) == ComputeStopLimit(entryRef, true, -stopBuf, -limitBuf)
  {
  }

  /** With a positive reference and buffers in (0, 1): a bullish entry waits
      above the reference (ref < stop < limit), a bearish one below it
      (0 < limit < stop < ref). */
  lemma StopLimitOrdering(entryRef: real, bullish: bool, stopBuf: real, limitBuf: real)
    requires entryRef > 0.0 && 0.0 < stopBuf < 1.0 && 0.0 < limitBuf < 1.0
    ensures var r := ComputeStopLimit(entryRef, bullish, stopBuf, limitBuf);
            (bullish ==> entryRef < r.stop < r.limit) &&
            (!bullish ==> 0.0 < r.limit < r.stop < entryRef)
  {
    var r := ComputeStopLimit(entryRef, bullish, stopBuf, limitBuf);
    if bullish {
      Above(entryRef, stopBuf, r.stop);
      Above(r.stop, limitBuf, r.limit);
    } else {
      Below(entryRef, stopBuf, r.stop);
      Below(r.stop, limitBuf, r.limit);
    }
  }

  lemma Above(x: real, f: real, y: real)
    requires x > 0.0 && f > 0.0 && y == x * (1.0 + f)
    ensures x < y
  {
    assert y == x + x * f;
    assert x * f > 0.0;
  }

  lemma Below(x: real, f: real, y: real)
    requires x > 0.0 && 0.0 < f < 1.0 && y == x * (1.0 - f)
    ensures 0.0 < y < x
  {
    assert y == x - x * f;
    assert x * f > 0.0;
    assert x * f < x * 1.0;
  }

  /** The limit sits exactly `(1 + stopBuf)(1 + limitBuf) - 1` away from the
      reference on the bullish side, and the mirrored factor on the bearish one. */
  lemma StopLimitCompounds(entryRef: real, bullish: bool, stopBuf: real, limitBuf: real)
    ensures var r := ComputeStopLimit(entryRef, bullish, stopBuf, limitBuf);
            (bullish ==> r.limit == entryRef * ((1.0 + stopBuf) * (1.0 + limitBuf))) &&
            (!bullish ==> r.limit == entryRef * ((1.0 - stopBuf) * (1.0 - limitBuf)))
  {
  }

  /** Reference 100 with the configured buffers: stop 100.1, limit 100.17007. */
  lemma StopLimitExample()
    ensures ComputeStopLimit(100.0, true, StopBuffer, LimitBuffer) == StopLimitPx(100.1, 100.17007)
    ensures ComputeStopLimit(100.0, false, StopBuffer, LimitBuffer) == StopLimitPx(99.9, 99.83007)
  {
  }
}

=== FILE: text.dfy ===
/** The handful of Python `str` operations the core uses, on `seq<char>`:
    `endswith`, `in`, `split(sep)[-1]`, `rstrip(c)`, `int(...)`, and the
    code-point ordering `sorted` applies to keys. */
module Text {
  import opened Base

  predicate EndsWith(s: string, suffix: string) {
    |suffix| <= |s| && s[|s| - |suffix|..] == suffix
  }

  /** `sub` occurs in `s` starting at index `i`. */
  predicate OccursAt(s: string, sub: string, i: int) {
    0 <= i && i + |sub| <= |s| && s[i..i + |sub|] == sub
  }

  /** The start of the last occurrence of `sub` in `s`, if any. */
  function LastOccurrence(s: string, sub: string): (r: Option<nat>)
    ensures r.Some? ==> OccursAt(s, sub, r.value)
    ensures r.Some? ==> forall j :: r.value < j ==> !OccursAt(s, sub, j)
    ensures r.None? ==> forall j :: !OccursAt(s, sub, j)
    decreases |s|
  {
    if |s| < |sub| then None
    else if s[|s| - |sub|..] == sub then Some(|s| - |sub|)
    else
      var r := LastOccurrence(s[..|s| - 1], sub);
      assert forall j :: OccursAt(s, sub, j) && j + |sub| < |s| ==> OccursAt(s[..|s| - 1], sub, j) by {
        forall j | OccursAt(s, sub, j) && j + |sub| < |s| ensures OccursAt(s[..|s| - 1], sub, j) {
          assert s[..|s| - 1][j..j + |sub|] == s[j..j + |sub|];
        }
      }
      assert r.Some? ==> OccursAt(s, sub, r.value) by {
        if r.Some? {
          assert s[..|s| - 1][r.value..r.value + |sub|] == s[r.value..r.value + |sub|];
        }
      }
      r
  }

  /** Python's `sub in s`. */
  predicate Contains(s: string, sub: string) {
    LastOccurrence(s, sub).Some?
  }

  /** A string that does not contain the first character of `sub` does not contain `sub`. */
  lemma NotContainsWithoutHead(s: string, sub: string)
    requires |sub| > 0 && sub[0] !in s
    ensures !Contains(s, sub)
  {
  }

  /** The first character of `sep` does not occur in it again, so two
      occurrences of `sep` never overlap ("." and "e-" qualify, "aa" does not). */
  predicate NoSelfOverlap(sep: string) {
    forall k :: 0 < k < |sep| ==> sep[k] != sep[0]
  }

  /** Occurrences of such a separator are at least its length apart. */
  lemma OccurrencesApart(s: string, sep: string, i: int, j: int)
    requires |sep| > 0 && NoSelfOverlap(sep)
    requires OccursAt(s, sep, i) && OccursAt(s, sep, j) && i < j
    ensures i + |sep| <= j
  {
    if j < i + |sep| {
      CharOfOccurrence(s, sep, i, j - i);
      CharOfOccurrence(s, sep, j, 0);
    }
  }

  /** No occurrence at `b + j` in `s` means none at `j` in `s[b..]`. */
  lemma NotOccursInSuffix(s: string, sep: string, b: int, j: int)
    requires 0 <= b <= |s| && !OccursAt(s, sep, b + j)
    ensures !OccursAt(s[b..], sep, j)
  {
    if 0 <= j && j + |sep| <= |s| - b {
      assert s[b..][j..j + |sep|] == s[b + j..b + j + |sep|];
    }
  }

  lemma CharOfOccurrence(s: string, sep: string, i: int, k: int)
    requires OccursAt(s, sep, i) && 0 <= k < |sep|
    ensures s[i + k] == sep[k]
  {
    assert s[i..i + |sep|][k] == s[i + k];
  }

  /** Python's `s.split(sep)[-1]`: the text after the last separator, or all of
      `s` when the separator does not occur.  For a separator that cannot
      overlap itself the last occurrence is also the last piece `split` cuts. */
  function AfterLast(s: string, sep: string): (t: string)
    requires |sep| > 0 && NoSelfOverlap(sep)
    ensures EndsWith(s, t)
    ensures !Contains(t, sep)
    ensures t == s <==> !Contains(s, sep)
    ensures Contains(s, sep) ==> EndsWith(s[..|s| - |t|], sep)
  {
    LastPieceFacts(s, sep);
    LastPiece(s, sep)
  }

  lemma LastPieceFacts(s: string, sep: string)
    requires |sep| > 0
    ensures var t := LastPiece(s, sep);
            EndsWith(s, t) && !Contains(t, sep) && (t == s <==> !Contains(s, sep)) &&
            (Contains(s, sep) ==> EndsWith(s[..|s| - |t|], sep))
  {
    var t := LastPiece(s, sep);
    if LastOccurrence(s, sep).Some? {
      var i := LastOccurrence(s, sep).value;
      forall j ensures !OccursAt(t, sep, j) {
        if j >= 0 {
          NotOccursInSuffix(s, sep, i + |sep|, j);
        }
      }
      assert s[..|s| - |t|][|s| - |t| - |sep|..] == s[i..i + |sep|];
    }
  }

  /** What follows the last occurrence of `sep`, or all of `s`. */
  function LastPiece(s: string, sep: string): string {
    match LastOccurrence(s, sep)
    case None => s
    case Some(i) => s[i + |sep|..]
  }

  /** The start of the first occurrence of `sub` in `s`, if any. */
  function FirstOccurrence(s: string, sub: string): (r: Option<nat>)
    ensures r.Some? ==> OccursAt(s, sub, r.value)
    ensures r.Some? ==> forall j :: 0 <= j < r.value ==> !OccursAt(s, sub, j)
    ensures r.None? ==> forall j :: !OccursAt(s, sub, j)
    decreases |s|
  {
    if |s| < |sub| then None
    else if s[..|sub|] == sub then Some(0)
    else
      var r := FirstOccurrence(s[1..], sub);
      forall j | 1 <= j ensures OccursAt(s, sub, j) == OccursAt(s[1..], sub, j - 1) {
        if j + |sub| <= |s| {
          assert s[1..][j - 1..j - 1 + |sub|] == s[j..j + |sub|];
        }
      }
      assert !OccursAt(s, sub, 0);
      match r
      case None => None
      case Some(k) => Some(k + 1)
  }

  /** What `split` goes on with after its first cut: the text after the
      first occurrence of `sep`, or `None` when there is none. */
  function Cut(s: string, sep: string): (r: Option<string>)
    requires |sep| > 0
    ensures r.Some? ==> |r.value| < |s|
  {
    match FirstOccurrence(s, sep)
    case None => None
    case Some(f) => Some(s[f + |sep|..])
  }

  /** Python's `s.split(sep)[-1]` the way `split` computes it: cut at the
      first occurrence, then go on in what follows it. */
  function SplitLast(s: string, sep: string): string
    requires |sep| > 0
    decreases |s|
  {
    match Cut(s, sep)
    case None => s
    case Some(r) => SplitLast(r, sep)
  }

  /** An occurrence at `b + j` in `s` is an occurrence at `j` in `s[b..]`. */
  lemma OccursInSuffix(s: string, sep: string, b: int, j: int)
    requires 0 <= b <= |s| && 0 <= j && OccursAt(s, sep, b + j)
    ensures OccursAt(s[b..], sep, j)
  {
    assert s[b..][j..j + |sep|] == s[b + j..b + j + |sep|];
  }

  /** An occurrence at `j` in `s[b..]` is an occurrence at `b + j` in `s`. */
  lemma OccursFromSuffix(s: string, sep: string, b: int, j: int)
    requires 0 <= b <= |s| && OccursAt(s[b..], sep, j)
    ensures OccursAt(s, sep, b + j)
  {
    assert s[b..][j..j + |sep|] == s[b + j..b + j + |sep|];
  }

  lemma LastPieceAt(s: string, sep: string, i: nat)
    requires LastOccurrence(s, sep) == Some(i)
    ensures LastPiece(s, sep) == s[i + |sep|..]
  {
  }

  lemma LastPieceNone(s: string, sep: string)
    requires LastOccurrence(s, sep).None?
    ensures LastPiece(s, sep) == s
  {
  }

  /** An occurrence after an earlier one `f` starts past it and is an
      occurrence in what follows `f`'s separator. */
  lemma LaterOccurrence(s: string, sep: string, f: nat, g: nat)
    requires |sep| > 0 && NoSelfOverlap(sep) && OccursAt(s, sep, f) && OccursAt(s, sep, g) && f < g
    ensures f + |sep| <= g && OccursAt(s[f + |sep|..], sep, g - f - |sep|)
  {
    OccurrencesApart(s, sep, f, g);
    OccursInSuffix(s, sep, f + |sep|, g - f - |sep|);
  }

  /** Cutting at an occurrence of a separator that cannot overlap itself
      leaves the last piece unchanged. */
  lemma LastPiecePastFirst(s: string, sep: string, f: nat)
    requires |sep| > 0 && NoSelfOverlap(sep) && OccursAt(s, sep, f)
    ensures LastPiece(s, sep) == LastPiece(s[f + |sep|..], sep)
  {
    var b := f + |sep|;
    var r := s[b..];
    var last := LastOccurrence(s, sep).value;
    LastPieceAt(s, sep, last);
    if last > f {
      LaterOccurrence(s, sep, f, last);
    }
    var lr := LastOccurrence(r, sep);
    if lr.None? {
      LastPieceNone(r, sep);
      assert last == f;
    } else {
      var m := lr.value;
      LastPieceAt(r, sep, m);
      OccursFromSuffix(s, sep, b, m);
      assert last == b + m;
      assert s[last + |sep|..] == r[m + |sep|..];
    }
  }

  lemma {:induction false} LastPieceIsSplitLast(s: string, sep: string)
    requires |sep| > 0 && NoSelfOverlap(sep)
    ensures LastPiece(s, sep) == SplitLast(s, sep)
    decreases |s|
  {
    var first := FirstOccurrence(s, sep);
    if first.None? {
      assert LastOccurrence(s, sep).None?;
    } else {
      var f := first.value;
      var r := s[f + |sep|..];
      assert Cut(s, sep) == Some(r);
      LastPiecePastFirst(s, sep, f);
      LastPieceIsSplitLast(r, sep);
    }
  }

  /** For a separator that cannot overlap itself, the last occurrence splits
      off the same final piece as Python's left-to-right `split`. */
  lemma AfterLastIsSplitLast(s: string, sep: string)
    requires |sep| > 0 && NoSelfOverlap(sep)
    ensures AfterLast(s, sep) == SplitLast(s, sep)
  {
    LastPieceIsSplitLast(s, sep);
  }

  /** Python's `s.rstrip(c)` for a single character. */
  function RStrip(s: string, c: char): (t: string)
    ensures |t| <= |s| && t == s[..|t|]
    ensures |t| == 0 || t[|t| - 1] != c
    ensures forall i :: |t| <= i < |s| ==> s[i] == c
    decreases |s|
  {
    if |s| > 0 && s[|s| - 1] == c then RStrip(s[..|s| - 1], c) else s
  }

  /** Stripping a run of `c` from the end of a string that does not end in `c`
      gives the string back. */
  lemma {:induction false} RStripRun(s: string, c: char, n: nat)
    requires |s| == 0 || s[|s| - 1] != c
    ensures RStrip(s + seq(n, _ => c), c) == s
    decreases n
  {
    if n > 0 {
      var t := s + seq(n, _ => c);
      assert t[..|t| - 1] == s + seq(n - 1, _ => c);
      RStripRun(s, c, n - 1);
    }
  }

  predicate IsDigit(c: char) {
    '0' <= c <= '9'
  }

  function DigitValue(c: char): nat
    requires IsDigit(c)
  {
    (c as int - '0' as int) as nat
  }

  predicate AllDigits(s: string) {
    forall i :: 0 <= i < |s| ==> IsDigit(s[i])
  }

  /** Decimal value of a digit string, most significant digit first. */
  function DigitsValue(s: string): nat
    requires AllDigits(s)
    decreases |s|
  {
    if |s| == 0 then 0 else DigitsValue(s[..|s| - 1]) * 10 + DigitValue(s[|s| - 1])
  }

  /** The strings `int` accepts here: ASCII digits, with an optional sign in front. */
  predicate IntLiteral(s: string) {
    (|s| > 0 && AllDigits(s)) || (|s| > 1 && (s[0] == '-' || s[0] == '+') && AllDigits(s[1..]))
  }

  /** Python's `int(s)` on an optional sign followed by ASCII digits; `None`
      where Python raises. */
  function ParseInt(s: string): (r: Option<int>)
    ensures r.Some? <==> IntLiteral(s)
    ensures AllDigits(s) && |s| > 0 ==> r == Some(DigitsValue(s))
    ensures |s| > 1 && s[0] == '+' && AllDigits(s[1..]) ==> r == Some(DigitsValue(s[1..]))
    ensures |s| > 1 && s[0] == '-' && AllDigits(s[1..]) ==> r == Some(-(DigitsValue(s[1..]) as int))
    ensures r.Some? && r.value < 0 ==> s[0] == '-'
  {
    if |s| > 0 && (s[0] == '-' || s[0] == '+') then
      var body := s[1..];
      if |body| > 0 && AllDigits(body) then
        var v: int := DigitsValue(body);
        Some(if s[0] == '-' then -v else v)
      else None
    else if |s| > 0 && AllDigits(s) then Some(DigitsValue(s))
    else None
  }

  function DigitChar(d: nat): (c: char)
    requires d < 10
    ensures IsDigit(c) && DigitValue(c) == d
  {
    ('0' as int + d) as char
  }

  /** `str(n)` for a natural number. */
  function NatToString(n: nat): (s: string)
    ensures |s| > 0 && AllDigits(s)
    ensures 'e' !in s
    decreases n
  {
    if n < 10 then [DigitChar(n)] else NatToString(n / 10) + [DigitChar(n % 10)]
  }

  /** `int(str(n)) == n`. */
  lemma {:induction false} ParseNatToString(n: nat)
    ensures DigitsValue(NatToString(n)) == n
    ensures ParseInt(NatToString(n)) == Some(n)
    decreases n
  {
    var s := NatToString(n);
    if n >= 10 {
      ParseNatToString(n / 10);
      assert s[..|s| - 1] == NatToString(n / 10);
    }
  }

  /** `int("-" + str(n)) == -n`. */
  lemma ParseNegatedNatToString(n: nat)
    ensures ParseInt("-" + NatToString(n)) == Some(-(n as int))
  {
    ParseNatToString(n);
    assert ("-" + NatToString(n))[1..] == NatToString(n);
  }

  /** Code-point lexicographic order, the order Python's `sorted` uses on `str`. */
  predicate LexLess(a: string, b: string)
    decreases |a|
  {
    if |a| == 0 then |b| > 0
    else if |b| == 0 then false
    else if a[0] != b[0] then a[0] < b[0]
    else LexLess(a[1..], b[1..])
  }

  lemma {:induction false} LexLessIrreflexive(a: string)
    ensures !LexLess(a, a)
    decreases |a|
  {
    if |a| > 0 {
      LexLessIrreflexive(a[1..]);
    }
  }

  lemma {:induction false} LexLessTransitive(a: string, b: string, c: string)
    requires LexLess(a, b) && LexLess(b, c)
    ensures LexLess(a, c)
    decreases |a|
  {
    if |a| > 0 && |b| > 0 && |c| > 0 && a[0] == b[0] && b[0] == c[0] {
      LexLessTransitive(a[1..], b[1..], c[1..]);
    }
  }

  lemma {:induction false} LexLessTotal(a: string, b: string)
    requires a != b
    ensures LexLess(a, b) || LexLess(b, a)
    decreases |a|
  {
    if |a| > 0 && |b| > 0 && a[0] == b[0] {
      assert a == [a[0]] + a[1..] && b == [b[0]] + b[1..];
      LexLessTotal(a[1..], b[1..]);
    }
  }

  lemma {:induction false} LexLessAsymmetric(a: string, b: string)
    requires LexLess(a, b)
    ensures !LexLess(b, a)
  {
    if LexLess(b, a) {
      LexLessTransitive(a, b, a);
      LexLessIrreflexive(a);
    }
  }
}

=== FILE: volume_breakdown.dfy ===
/** The per-symbol arm / retest / expire machine of `volume_breakdown_ok`
    (signal_volume_breakdown.py).  A break below the previous low with every
    indicator condition in favour arms the symbol at that low; a later
    evaluation whose price comes back within a small buffer of the level fires
    once; after too many evaluations the arming expires.  The indicator
    conditions are one boolean input. */
module VolumeBreakdown {
  import opened Base
  import opened Series

  /** One entry of `STATE`: `{'armed': False, ...}` or an armed level with the
      number of evaluations since arming. */
  datatype Arm = Unarmed | Armed(level: real, bar: nat)

  /** `STATE`: symbol to arm record; a missing symbol reads as unarmed. */
  type ArmTable = map<string, Arm>

  const RetestBufferPct: real := 0.001
  const RetestExpireN: nat := 6
  const LlN: nat := 60
  const VolBaseWin: nat := 48
  const VolLookbackConfirm: nat := 3

  /** `max(LL_N, VOL_BASE_WIN) + VOL_LOOKBACK_CONFIRM + 2`. */
  const MinBars: nat := (if LlN >= VolBaseWin then LlN else VolBaseWin) + VolLookbackConfirm + 2

  /** `STATE.setdefault(symbol, ...)` as a read. */
  function Lookup(table: ArmTable, symbol: string): Arm {
    if symbol in table then table[symbol] else Unarmed
  }

  /** `abs(price - level) / max(price, 1e-9) <= RETEST_BUFFER_PCT`. */
  predicate Retest(price: real, level: real) {
    Abs(price - level) / Max(price, 0.000000001) <= RetestBufferPct
  }

  /** One evaluation of the machine: `breaks` is `short_break` together with
      every indicator condition.  Returns the new record and the signal. */
  function Step(st: Arm, breaks: bool, prevLow: real, price: real): (r: (Arm, bool))
  {
    match st
    case Unarmed =>
      if breaks then (Armed(prevLow, 0), false) else (Unarmed, false)
    case Armed(level, bar) =>
      var b := bar + 1;
      if Retest(price, level) && b <= RetestExpireN then (Unarmed, true)
      else if b > RetestExpireN then (Unarmed, false)
      else (Armed(level, b), false)
  }

  /** From unarmed, a break arms at the previous low with a zero count and
      does not fire; no break leaves it unarmed and silent. */
  lemma StepFromUnarmed(breaks: bool, prevLow: real, price: real)
    ensures breaks ==> Step(Unarmed, breaks, prevLow, price) == (Armed(prevLow, 0), false)
    ensures !breaks ==> Step(Unarmed, breaks, prevLow, price) == (Unarmed, false)
  {
  }

  /** While armed: it fires exactly when the price retests the level within
      the expiry window, and then disarms; once past the window it disarms
      silently; otherwise it stays armed at the same level, one bar older.
      The indicator input plays no part. */
  lemma StepFromArmed(level: real, bar: nat, breaks: bool, prevLow: real, price: real)
    ensures var (next, fired) := Step(Armed(level, bar), breaks, prevLow, price);
            (fired <==> Retest(price, level) && bar + 1 <= RetestExpireN) &&
            (fired ==> next == Unarmed) &&
            (bar + 1 > RetestExpireN ==> next == Unarmed && !fired) &&
            (next.Armed? <==> !fired && bar + 1 <= RetestExpireN) &&
            (next.Armed? ==> next == Armed(level, bar + 1))
  {
  }

  /** A record is well formed when its count has not passed the expiry. */
  predicate Valid(st: Arm) {
    st.Armed? ==> st.bar <= RetestExpireN
  }

  /** Every step keeps the count within the expiry window. */
  lemma StepKeepsValid(st: Arm, breaks: bool, prevLow: real, price: real)
    requires Valid(st)
    ensures Valid(Step(st, breaks, prevLow, price).0)
  {
  }

  /** One evaluation's inputs after the indicators have been computed. */
  datatype Reading = Reading(breaks: bool, prevLow: real, price: real)

  /** The records after each of a sequence of evaluations of one symbol. */
  function Trace(st: Arm, rs: seq<Reading>): (t: seq<Arm>)
    ensures |t| == |rs|
    decreases |rs|
  {
    if |rs| == 0 then []
    else
      var next := Step(st, rs[0].breaks, rs[0].prevLow, rs[0].price).0;
      [next] + Trace(next, rs[1..])
  }

  /** How many evaluations fired. */
  function Fires(st: Arm, rs: seq<Reading>): nat
    decreases |rs|
  {
    if |rs| == 0 then 0
    else
      var (next, fired) := Step(st, rs[0].breaks, rs[0].prevLow, rs[0].price);
      (if fired then 1 else 0) + Fires(next, rs[1..])
  }

  /** How many evaluations armed the symbol. */
  function Armings(st: Arm, rs: seq<Reading>): nat
    decreases |rs|
  {
    if |rs| == 0 then 0
    else
      var next := Step(st, rs[0].breaks, rs[0].prevLow, rs[0].price).0;
      (if st.Unarmed? && next.Armed? then 1 else 0) + Armings(next, rs[1..])
  }

  /** Fires never outnumber armings (counting an arming already in place at
      the start): each arming fires at most once, and never on the
      evaluation that armed it. */
  lemma {:induction false} FiresBoundedByArmings(st: Arm, rs: seq<Reading>)
    ensures Fires(st, rs) <= Armings(st, rs) + (if st.Armed? then 1 else 0)
    decreases |rs|
  {
    if |rs| > 0 {
      var (next, fired) := Step(st, rs[0].breaks, rs[0].prevLow, rs[0].price);
      FiresBoundedByArmings(next, rs[1..]);
    }
  }

  /** An arming at count `bar` survives at most `RetestExpireN - bar` further
      evaluations: if every record of a trace stays armed, the trace is that
      short.  Freshly armed, the state therefore lasts at most
      RetestExpireN + 1 later evaluations, the last of which disarms it. */
  lemma {:induction false} ArmedLifetime(level: real, bar: nat, rs: seq<Reading>)
    requires bar <= RetestExpireN
    requires forall i :: 0 <= i < |rs| ==> Trace(Armed(level, bar), rs)[i].Armed?
    ensures |rs| <= RetestExpireN - bar
    decreases |rs|
  {
    if |rs| > 0 {
      var t := Trace(Armed(level, bar), rs);
      var next := Step(Armed(level, bar), rs[0].breaks, rs[0].prevLow, rs[0].price).0;
      assert t == [next] + Trace(next, rs[1..]);
      assert t[0].Armed?;
      assert next == Armed(level, bar + 1);
      forall i | 0 <= i < |rs[1..]| ensures Trace(next, rs[1..])[i].Armed? {
        assert Trace(next, rs[1..])[i] == t[i + 1];
      }
      ArmedLifetime(level, bar + 1, rs[1..]);
    }
  }

  /** The close the breakdown is judged on: the last one. */
  function LastClose(cs: seq<Candle>): real
    requires |cs| > 0
  {
    cs[|cs| - 1].close
  }

  /** `min(lows[-(LL_N+1):-1])`: the lowest low of the `LL_N` bars before the last. */
  function PrevLow(cs: seq<Candle>): (low: real)
    requires |cs| > LlN
    ensures forall i :: |cs| - 1 - LlN <= i < |cs| - 1 ==> low <= cs[i].low
    ensures exists i :: |cs| - 1 - LlN <= i < |cs| - 1 && low == cs[i].low
  {
    var xs := Lows(cs);
    WindowMin(xs, LlN);
    MinOf(BeforeLast(xs, LlN))
  }

  /** `volume_breakdown_ok(symbol)`.  `bars` is `None` when the kline fetch
      raised; `gate` is `None` when the indicators returned early (an EMA of
      `None`) or raised, and otherwise every arm condition except the break
      itself.  The table is only touched once the indicators are in. */
  function Evaluate(table: ArmTable, symbol: string, bars: Option<seq<Candle>>, gate: Option<bool>): (r: (ArmTable, bool))
    ensures bars.None? || |bars.value| < MinBars || gate.None? ==> r == (table, false)
    ensures bars.Some? && |bars.value| >= MinBars && gate.Some? ==>
              symbol in r.0 && forall s :: s != symbol ==> Lookup(r.0, s) == Lookup(table, s)
    ensures r.1 ==> (bars.Some? && |bars.value| >= MinBars && gate.Some? &&
                     Lookup(table, symbol).Armed? && r.0[symbol] == Unarmed &&
                     Retest(LastClose(bars.value), Lookup(table, symbol).level) &&
                     Lookup(table, symbol).bar < RetestExpireN)
    ensures bars.Some? && |bars.value| >= MinBars && gate.Some? && Lookup(table, symbol).Armed? &&
            Retest(LastClose(bars.value), Lookup(table, symbol).level) && Lookup(table, symbol).bar < RetestExpireN ==>
              r.1 && r.0[symbol] == Unarmed
  {
    if bars.None? || |bars.value| < MinBars || gate.None? then (table, false)
    else
      var cs := bars.value;
      var price := LastClose(cs);
      var prevLow := PrevLow(cs);
      var (next, fired) := Step(Lookup(table, symbol), price < prevLow && gate.value, prevLow, price);
      (table[symbol := next], fired)
  }

  /** Past the early returns, the call is one step of the arm machine on
      the symbol's record: the break is a close below the previous low with
      every indicator in favour, and the new record replaces the old. */
  lemma EvaluateIsStep(table: ArmTable, symbol: string, cs: seq<Candle>, gate: bool)
    requires |cs| >= MinBars
    ensures var st := Step(Lookup(table, symbol), LastClose(cs) < PrevLow(cs) && gate, PrevLow(cs), LastClose(cs));
            Evaluate(table, symbol, Some(cs), Some(gate)) == (table[symbol := st.0], st.1)
  {
  }

  /** The arming call: an unarmed symbol whose last close breaks below the
      previous low, with every indicator in favour, is armed at that low with
      a zero count, and the call itself reports no signal. */
  lemma ArmingCallIsSilent(table: ArmTable, symbol: string, cs: seq<Candle>)
    requires |cs| >= MinBars && Lookup(table, symbol).Unarmed?
    requires LastClose(cs) < PrevLow(cs)
    ensures Evaluate(table, symbol, Some(cs), Some(true)) == (table[symbol := Armed(PrevLow(cs), 0)], false)
  {
  }

  /** Without a break, or with an indicator against it, an unarmed symbol
      stays unarmed and silent. */
  lemma NoBreakStaysUnarmed(table: ArmTable, symbol: string, cs: seq<Candle>, gate: bool)
    requires |cs| >= MinBars && Lookup(table, symbol).Unarmed?
    requires !(LastClose(cs) < PrevLow(cs) && gate)
    ensures Evaluate(table, symbol, Some(cs), Some(gate)) == (table[symbol := Unarmed], false)
  {
  }

  /** An armed symbol evaluated again follows `Step` from its record, whatever
      the indicators say: the gate only matters while unarmed. */
  lemma ArmedIgnoresGate(table: ArmTable, symbol: string, cs: seq<Candle>, g1: bool, g2: bool)
    requires |cs| >= MinBars && Lookup(table, symbol).Armed?
    ensures Evaluate(table, symbol, Some(cs), Some(g1)) == Evaluate(table, symbol, Some(cs), Some(g2))
  {
  }

  /** Evaluations keep every record of the table well formed. */
  lemma EvaluateKeepsValid(table: ArmTable, symbol: string, bars: Option<seq<Candle>>, gate: Option<bool>)
    requires forall s :: s in table ==> Valid(table[s])
    ensures var t := Evaluate(table, symbol, bars, gate).0;
            forall s :: s in t ==> Valid(t[s])
  {
    if bars.Some? && |bars.value| >= MinBars && gate.Some? {
      var cs := bars.value;
      var price := LastClose(cs);
      var prevLow := PrevLow(cs);
      StepKeepsValid(Lookup(table, symbol), price < prevLow && gate.value, prevLow, price);
    }
  }

  /** Armed at 100 with one bar behind it, a close of 100.05 is within 0.1%
      and fires; a close of 101 is not and keeps waiting; after six waiting
      evaluations a seventh expires silently. */
  lemma RetestExample()
    ensures Step(Armed(100.0, 1), false, 0.0, 100.05) == (Unarmed, true)
    ensures Step(Armed(100.0, 1), false, 0.0, 101.0) == (Armed(100.0, 2), false)
    ensures Step(Armed(100.0, 6), false, 0.0, 100.0) == (Unarmed, false)
  {
    assert Abs(100.05 - 100.0) / Max(100.05, 0.000000001) <= RetestBufferPct;
    assert !(Abs(101.0 - 100.0) / Max(101.0, 0.000000001) <= RetestBufferPct);
  }
}
